=== FILE: README.md ===
# vuedl, modelled in Dafny

vuedl collects energy-usage readings from the Emporia Vue cloud API and
stores them. The project has three programs:

- **`vuedl.py`, the downloader.** Each invocation plans
  a time window that ends five minutes and one second before the current
  minute and starts one second after the previous run's end. It renews the
  API token when needed, resolves the customer, and flattens the device
  list into (device, channel) targets. For every target it requests the
  per-minute usage, writing each non-empty answer to a file named
  `vue_<gid>_<channel>_<start>-<end>_1MIN.json`, and it retries with a
  back-off. At the end it records the window's end as the new watermark
  (`last_run`).
- **Two loaders into a SQLite table `readings(timestamp, device, value)`.**
  `vueingest.py` inserts with "on conflict do nothing". `vueingest.c` uses
  a plain insert inside one transaction and exits on the first failure.
  Each expands a file's `usageList` into one reading per non-null entry,
  stamped one minute apart from `firstUsageInstant`.
- **`vueinflux.py`, which pushes files into InfluxDB.** It writes a point
  only when the value changes, then moves each file into a dated archive
  folder.

The Dafny modules follow that structure:

| module | file | what it holds |
|---|---|---|
| `Base` | `base.dfy` | `Option`, and `Build`, which selects code as written or the corrected behaviour of a finding |
| `Civil` | `civil.dfy` | UTC civil time, epoch microseconds, `+1 minute`, `+1 second`, truncation to the minute |
| `Text` | `text.dfy` | Python `split`/`join`, C `strchr`/`strstr`, `str.replace`, `str(int)` |
| `FileNames` | `filenames.dfy` | the file-name convention, the three parsers, both device-name extractors, the directory filters |
| `Series` | `series.dfy` | the expansion of `usageList` into timestamped readings, emit-all and emit-on-change |
| `Store` | `store.dfy` | the `readings` table under insert-or-ignore and strict insert |
| `IngestPy` | `ingest_py.dfy` | `vueingest.py` |
| `IngestC` | `ingest_c.dfy` | `vueingest.c` |
| `Influx` | `influx.dfy` | `vueinflux.py`: points, the bucket, archiving |
| `Window` | `window.dfy` | the request window and the sub-minute guard |
| `Token` | `token.dfy` | the token-renewal check |
| `Devices` | `devices.dfy` | flattening the device tree into targets |
| `Fetch` | `fetch.dfy` | the per-target request/retry loop |
| `Downloader` | `run.dfy` | one run of `vuedl.py` as a trace of effects |

The outside world is a parameter throughout:

- The clock readings, the API's answers (`World`) and a directory listing
  (a sequence of entries, each carrying its already-decoded JSON document as
  a `UsageDoc`) are passed in.
- An API answer is `Raised` or `Returned(body)`.
- Usage values have a type parameter `V`. Floats are never inspected beyond
  equality.
- A run of the downloader is the sequence of `Effect`s it performs:
  authenticate, save the configuration, sleep, call the API, write a file.
  This makes "what was saved", "which token was used" and "how many
  requests" statements about a sequence.

Some facts about the code that the model keeps:

- Renewal uses a strict `now + 30 s > expiry` (`vuedl.py:146`).
- The sub-minute guard leaves through `sys.exit` with a message
  (`vuedl.py:131`), so the exit status is 1.
- The C loader's insert is a plain `insert` with no conflict clause
  (`vueingest.c:36`). A replayed file therefore stops it
  (`IngestC.SecondRunStops`).
- Neither loader retries a failed write.
- A run whose window would end one minute after the recorded end spans 59
  seconds, so the guard stops it without recording anything. The next run
  then covers two minutes (`Window.MinuteAfterIsTooShort`).

## Model

| member | source | states |
|---|---|---|
| Civil.NextDay | vueinflux.py:67-69 | the day after a valid date is a valid date whose day number is one more (the carry used by every time step) |
| Civil.IncrementMinuteAddsOneMinute | vueingest.py:14-17 | `t + timedelta(minutes=1)` on the civil fields (minute, hour, day, month and year carries) is exactly 60 s later on the epoch line |
| Civil.IncrementSecondAddsOneSecond | vueinflux.py:68-69 | `time + timedelta(seconds=1)` is exactly 1 s later on the epoch line |
| Civil.TruncateSecondsIsFloorToMinute | vuedl.py:105-106 | dropping seconds and microseconds floors the instant to the minute: a multiple of 60 s, within the preceding minute |
| Text.Split | vueingest.py:11 | Python `str.split(sep)` yields at least one field, no field holds the separator, and joining the fields restores the string |
| Text.SplitJoin | vueinflux.py:15-22 | splitting the join of separator-free fields gives the fields back |
| Text.SplitUnderPrefix | vueingest.c:173 | a separator-free prefix (the C loader's directory) only extends the first field of a split |
| Text.IndexOf | vueingest.c:21-23 | `strchr` from a position returns the first occurrence at or after it, or none when there is none |
| Text.Find | vueingest.c:14 | `strstr` returns the first position where the pattern occurs, or none |
| Text.Replace | vuedl.py:175 | `str.replace` introduces no character outside the input and the replacement, and is the identity when the pattern does not occur |
| Text.DecimalRoundTrip | vuedl.py:175 | `str(device_gid)` is a decimal that parses back to the same integer |
| Text.DecimalStringInjective | vuedl.py:175 | different gids give different `str(gid)` texts, so different file names |
| FileNames.PyDeviceName | vueingest.py:10-12 | `parts[1] + '_' + parts[2]` exists exactly when the base name splits into at least three fields |
| FileNames.ParsersRecoverFields | vueinflux.py:15-22 | on a name built as in the downloader with `_`-free parts, the gid, channel and scale parsers return the gid's decimal, the channel and the scale |
| FileNames.UnderscoreInFolderMisparses | vueinflux.py:43-44 | the Influx parsers split the full path: under a data folder `<top>_<sub>` (one `_`), the gid read back is `<sub>vue` instead of the device id |
| FileNames.CDeviceNameAgreesWithPython | vueingest.c:18-31 | the three `strchr` calls succeed exactly when the path splits into at least four fields, and then they give the Python loader's device name |
| FileNames.TwoUnderscoresSplitTheLoaders | vueingest.c:21-23 | with only two `_` the Python loader finds a name and the C loader fails |
| FileNames.DeviceNameOfRawFile | vuedl.py:175 | both loaders read `<gid>_<channel>` back from a downloader file name (the C loader from the full path, under a folder without `_`) |
| FileNames.JsonFilterMeansOnlyTrailingJson | vueingest.c:12-16 | `json_filter` accepts a name exactly when it ends in `.json` and `.json` occurs nowhere earlier |
| FileNames.JsonFilterExamples | vueingest.c:12-16 | `a.json` passes; `a.json.json` and `a.jsonl` do not |
| FileNames.RawFileNamePassesFilters | vuedl.py:175 | a downloader file name without `.` in its parts passes `json_filter`, the `*.json` glob and, for `1MIN`, the `*1MIN.json` glob |
| Series.StampEpoch | vueingest.py:42 | the timestamp of entry `i` is `first + i` steps on the epoch line |
| Series.FrozenStamp | vueinflux.py:66-69 | a scale other than `1MIN` or `1S` never advances the time |
| Series.PresentFrom | vueingest.py:38-39 | the indices of the non-null entries, in increasing order, and all of them |
| Series.ChangedFrom | vueinflux.py:60 | the indices whose value is non-null and differs from the last value written before it, in increasing order, and all of them |
| Series.EmitAllIsIndexed | vueingest.py:37-42 | the loaders' expansion is exactly one reading per non-null entry, in order, stamped at its own index |
| Series.EmitOnChangeIsIndexed | vueinflux.py:57-69 | the Influx expansion is exactly one point per changed entry, in order, stamped at its own index |
| Series.OnChangeCountBound | vueinflux.py:60 | emit-on-change never writes more than emit-all |
| Series.EmitAllTimesIncrease | vueingest.c:96-106 | at a ticking scale the readings' times strictly increase |
| Series.EmitOnChangeTimesIncrease | vueinflux.py:66-69 | at a ticking scale the points' times strictly increase |
| Series.OnChangeNoConsecutiveRepeats | vueinflux.py:60-64 | no point repeats its predecessor's value, and the first one differs from `0.0` |
| Series.SeedRunIsSilent | vueinflux.py:57-60 | a leading run of nulls and zeros writes nothing |
| Series.WorkedExample | vueinflux.py:57-69 | `[1, null, 1, 2]`: the loaders store three readings, Influx writes two points |
| Store.InsertOrIgnore | vueingest.py:41 | "on conflict do nothing": the key set grows by the key, existing rows are kept, and a new row holds the value |
| Store.InsertStrict | vueingest.c:33-53 | a plain insert fails exactly when the primary key (lines 116-121) is present, and otherwise adds only that row |
| Store.InsertAllOrIgnoreKeepsRows | vueingest.py:38-42 | inserting a file's readings adds exactly their keys and never changes a row that was there |
| Store.InsertAllOrIgnoreNoop | vueingest.py:41 | when every key is present nothing changes |
| Store.InsertAllOrIgnoreIdempotent | vueingest.py:41 | inserting the same readings twice equals inserting them once |
| Store.InsertAllOrIgnoreFirstWins | vueingest.py:41 | a new key keeps the value of its first reading |
| Store.InsertAllStrictSucceedsIffNoClash | vueingest.c:96-106 | the strict inserts of a file all succeed exactly when its times are distinct and none is in the table, and then the result equals insert-or-ignore |
| Store.InsertAllStrictRefusesReplay | vueingest.c:49-53 | a file sharing any key with the table stops the strict insert |
| IngestPy.MinuteFiles | vueingest.py:31 | the `*1MIN.json` glob keeps exactly the entries whose base name has that suffix |
| IngestPy.IngestAllOnlyMinuteFiles | vueingest.py:31 | files outside the glob do not affect the run |
| IngestPy.EmitAllKeys | vueingest.py:37-42 | a file's keys are its device with the stamp of each non-null entry |
| IngestPy.IngestFileRows | vueingest.py:33-42 | a file fails exactly on a bad name, unparsable JSON or a missing key; otherwise it adds exactly its keys, keeps old rows, and stores each new key's value |
| IngestPy.IngestAllSucceedsIff | vueingest.py:31-42 | the loop gets through the files exactly when every `*1MIN.json` one has a readable name, parses, and holds both keys |
| IngestPy.IngestAllKeepsRows | vueingest.py:31-42 | across a whole successful loop the first write wins: every row that was there keeps its value |
| IngestPy.IngestFileIdempotent | vueingest.py:41 | loading a file again changes nothing |
| IngestPy.IngestFileNoop | vueingest.py:41 | a file whose keys are all present leaves any table unchanged |
| IngestPy.IngestAllGrows | vueingest.py:31-42 | a successful run never removes a row |
| IngestPy.IngestAllReplay | vueingest.py:31-43 | replaying a successful run on its own result changes nothing |
| IngestPy.MainIdempotent | vueingest.py:19-43 | running the loader twice equals running it once |
| IngestPy.MainAllOrNothing | vueingest.py:31-43 | the commit happens exactly when every `*1MIN.json` file has a name with at least three `_` fields, parses, and holds both `firstUsageInstant` and `usageList`; a commit keeps every row of the database with its value, and otherwise the database is unchanged |
| IngestC.NameLeqTotal | vueingest.c:160 | `alphasort`'s byte order compares any two names |
| IngestC.SortByName | vueingest.c:160 | the scan order is sorted and a permutation of its input |
| IngestC.JsonEntries | vueingest.c:160 | the filtered listing holds exactly the entries `json_filter` accepts |
| IngestC.ScanOrder | vueingest.c:160 | `scandir` yields exactly the accepted entries, sorted by name |
| IngestC.IngestFileRows | vueingest.c:68-110 | a file stops the loader exactly on a short name, a name too long for the buffer, unparsable JSON, or a reading whose key is present; otherwise it adds exactly its keys (none when a key is missing), keeps every row, and stores each non-null entry's value at its stamp |
| IngestC.IngestAllSucceedsIff | vueingest.c:167-180 | the pass gets through the files exactly when each is readable, its rows are new to the table, and no two files ask for the same row; it then adds exactly those keys, keeps every old row with its value, and each new row holds its entry's value |
| IngestC.MainAllOrNothing | vueingest.c:154-185 | the transaction commits exactly when every scanned file has a device name that fits the buffer, parses, asks for no row the database holds, and asks for no row another file asks for; a commit adds exactly those keys, keeps every old row with its value, and gives each new row its entry's value; an exit leaves the database unchanged |
| IngestC.IngestFileGrows | vueingest.c:68-110 | a loaded file keeps every row, and either changes nothing or adds at least one row |
| IngestC.LoadersAgreePerFile | vueingest.c:68-110 | on a file the C loader accepts under `/var/lib/vuedl/`, the Python loader stores the same (instant, device) keys with the same values |
| IngestC.IngestAllGrows | vueingest.c:170-177 | a successful pass never removes a row |
| IngestC.ReplayedFileStops | vueingest.c:49-53 | replaying a file that added rows stops with a duplicate-reading failure |
| IngestC.ReplayStops | vueingest.c:170-177 | replaying a pass that added rows stops with a duplicate-reading failure |
| IngestC.SecondRunStops | vueingest.c:154-185 | running the C loader again after a committed run that added rows stops and leaves the database as it was |
| Influx.FilePointsContents | vueinflux.py:43-69 | a file yields points exactly when its path has five `_` fields and both keys; each point is `kWh_<scale>`, tagged with the parsed gid and channel, at a changed index, with that entry's value and its stamp |
| Influx.FilePointsSparse | vueinflux.py:57-64 | a file writes no more points than non-null entries, the first differs from `0.0`, and no point repeats its predecessor |
| Influx.OtherScalesCollapse | vueinflux.py:66-69 | at any scale other than `1MIN` or `1S` every point lands on `firstUsageInstant` |
| Influx.WriteAllIsOverride | vueinflux.py:63 | writing points overrides the bucket with the last point per series and time |
| Influx.WriteAllAppend | vueinflux.py:43-63 | writing two batches in turn equals writing them together |
| Influx.WriteAllIdempotent | vueinflux.py:63 | writing the same points again changes nothing |
| Influx.RunWrites | vueinflux.py:43-73 | the bucket gets every point of the files handled; the handled files are a prefix, each wrote its points and moved to the archive folder of its `firstUsageInstant` date; the run crashes exactly when it stops before the last file |
| Influx.RunIdempotent | vueinflux.py:43-73 | re-running on the same files leaves the bucket as it was |
| Influx.GlobbedKeepsJson | vueinflux.py:43 | the glob keeps exactly the `*.json` entries, joined to the folder |
| Influx.MainWrites | vueinflux.py:43-73 | `main` writes the points of the globbed `*.json` files it gets through; each moved file is a `*.json` entry of the folder, archived by its first instant's date; it crashes exactly when a globbed file stays in place |
| Influx.PointTagsOfRawFile | vueinflux.py:44-46 | a downloader file name yields points tagged with its own gid, channel and `kWh_<scale>` |
| Window.Span | vuedl.py:129 | `end - start` as a normalised timedelta: its fields total the span |
| Window.SpanOfTotal | vuedl.py:129 | a normalised timedelta is determined by its total |
| Window.TooShortAsWrittenMeans | vuedl.py:129-131 | the guard `days == 0 and seconds < 60` fires exactly when `0 <= end - start < 60 s` |
| Window.GuardsDifferOnNegativeSpans | vuedl.py:129-131 | the guard as written and the intended `end - start < 60 s` disagree exactly on negative spans |
| Window.SameMinuteRerun | vuedl.py:121-131 | a rerun within the same minute gets `start = end + 1 s`, which passes the guard as written |
| Window.FirstRunProceeds | vuedl.py:127 | without `last_run` the window is sixty minutes and passes either guard |
| Window.WindowEndAlignment | vuedl.py:121-124 | the window ends at second 59 of a minute, between five minutes and one second, and six minutes and one second, before now |
| Window.WindowEndMonotone | vuedl.py:121-124 | a later clock never gives an earlier window end |
| Window.WindowsTile | vuedl.py:127 | consecutive windows meet without gap or overlap: each starts one second after the previous end, on a minute boundary, and spans whole minutes |
| Window.MinuteAfterIsTooShort | vuedl.py:121-131 | a window ending one minute after the recorded end spans 59 s and both guards stop it; one ending two minutes after passes both |
| Token.RenewalWindow | vuedl.py:146 | the boundary: exactly 30 s left does not renew, anything under 30 s does |
| Token.RenewalChecksAgree | vuedl.py:143-146 | both checks agree whenever an expiry is known |
| Token.RenewalCheck | vuedl.py:143-146 | as written the check raises exactly when no expiry is stored, the corrected check always answers; when it answers, it renews exactly when the expiry is unknown or less than 30 s away |
| Devices.SubDeviceTargetsContents | vuedl.py:87-89 | sub-device targets are exactly the sub-devices' channels, one each |
| Devices.FlattenContents | vuedl.py:83-90 | the device list yields exactly one target per channel on the top two levels |
| Devices.FlattenIgnoresDeeperLevels | vuedl.py:83-90 | anything below the sub-devices does not change the targets |
| Devices.OwnChannelsFirst | vuedl.py:84-89 | a device's own channels come before its sub-devices' channels |
| Devices.FlattenAppend | vuedl.py:83-90 | the targets of two device lists in turn are the first list's targets followed by the second's |
| Fetch.FirstSuccess | vuedl.py:169-179 | the first attempt that returns a non-empty body, or none when all three fail |
| Fetch.AttemptLoopMeans | vuedl.py:169-185 | as written every target makes exactly three requests, saves every non-empty answer, backs off after each of the first two raises, and raises exactly when the third request raises |
| Fetch.RetryLoopMeans | vuedl.py:169-185 | the intended loop stops at the first non-empty answer and saves only it; it raises exactly when no attempt succeeds and the third raises |
| Fetch.LoopsAgreeWithoutSuccess | vuedl.py:169-185 | without any success both loops behave identically |
| Fetch.SuccessThenRaise | vuedl.py:179-183 | a success followed by raises still aborts the run as written |
| Fetch.FailTwiceThenSucceed | vuedl.py:180-185 | two raises then a success: two 30 s back-offs, one save, no raise |
| Fetch.FailThrice | vuedl.py:182-183 | three raises abort the run |
| Downloader.DeviceLoopEffects | vuedl.py:165-185 | the device loop never saves the configuration, uses the run's token, and requests only its targets over the window |
| Downloader.DeviceLoopRaises | vuedl.py:165-185 | the loop raises exactly when some target's fetch raises |
| Downloader.DeviceLoopRequests | vuedl.py:169-173 | as written a completed loop makes exactly three requests per target |
| Downloader.RunStopsOnShortWindow | vuedl.py:121-131 | as written the run stops exactly when `0 <= end - start < 60 s`, as intended exactly when `end - start < 60 s`; a stopped run has no effect and saves nothing |
| Downloader.CredentialsMeans | vuedl.py:142-151 | `get_token` is called exactly when the expiry check says renew, and a failing exchange crashes; a successful one is saved at once with its token and expiry, keeping `last_run` and the customer; without renewal nothing happens |
| Downloader.RunAuthenticates | vuedl.py:129-151 | a run authenticates exactly when it passes the window guard and the expiry check says renew |
| Downloader.CustomerMeans | vuedl.py:154-163 | the lookup happens exactly when `customer_gid` is 0, with the current token, and the stage crashes exactly when it raises; a successful lookup's gid is saved as the next effect, keeping `last_run` and the token; a known gid leaves the runtime as it was and saves nothing |
| Downloader.RunWatermark | vuedl.py:187-188 | the saved configuration is the last one written; `last_run` becomes the window end exactly when the run completes, as its last effect, and no earlier save moves it |
| Downloader.RunToken | vuedl.py:142-173 | every API call uses the token the configuration ends with; when a run renews, its first two effects are authenticating and saving that token; the saved token differs from the old one only after a renewal |
| Downloader.RunCrashes | vuedl.py:165-185 | with cooperative authentication, customer and device calls, the run crashes exactly when some target's fetch raises |
| Downloader.RunCrashesAsWritten | vuedl.py:169-183 | as written the run crashes exactly when some target's third request raises, whatever came before |
| Downloader.RunRequestsAsWritten | vuedl.py:164-185 | a completed run as written makes exactly three requests per target, all for the window |
| Downloader.EmptyDeviceListAdvances | vuedl.py:164-188 | with no devices a run still advances the watermark, without requests |
| Downloader.FirstRunWithoutExpiry | vuedl.py:143-146 | with an empty `token_expiration`, the run as written crashes before any effect; the intended one authenticates first |
| Downloader.SameMinuteRerunRun | vuedl.py:121-131 | a second run in the same minute passes the guard as written, with a window that starts after it ends; the intended guard stops it |

## Left out

- HTTP bodies, headers, `raise_for_status` and `logging_hook` are not modelled. An API answer is an `Attempt` (`Raised` or `Returned(body)`), and the authentication, customer and device answers are `Option`s in `World`.
- `ConfigParser` reading and writing is not modelled. The runtime section is the `Runtime` datatype, and each `save_config` is a `SaveConfig` effect carrying it. Missing options of either section are outside the model. `Runtime` assumes `[runtime]` holds `token` and `token_expiration` (`vuedl.py:142-143`), and the `[config]` options are assumed present. In the source, any of them missing raises `NoOptionError`. Only `last_run` and `customer_gid` are optional there. The model keeps `last_run` as an `Option`, and a missing `customer_gid` reads as 0, as in the source (`vuedl.py:155`).
- `datetime.isoformat`, `fromisoformat`, `strptime`, `strftime` and the `":00Z"` rewrite are not modelled. File names take the ISO text from a function parameter (`World.iso`). `UsageDoc` holds `firstUsageInstant` already parsed, and an unparsable instant counts as an unparsable document. The source differs there in two ways, so the loaders' "parses" conditions describe the model. `vueingest.py` only parses the instant in `increment_timestamp`, once per entry (`vueingest.py:37-42`), so a file with an empty `usageList` and a bad instant still commits. `vueingest.c` ignores a failing `strptime` and keeps inserting (`vueingest.c:61`, `vueingest.c:91-105`). A `last_run` or `token_expiration` is modelled as the epoch value it denotes.
- Usage values are a type parameter. No floating-point arithmetic is modelled, and Influx compares values with `==`, as the source does.
- The SQLite engine, json-c and the InfluxDB client are modelled as values: a `map` for the table, a `map` for the bucket, and `UsageDoc` for a parsed document.
- `mktime` in the C loader is assumed to run in UTC. Its local-time conversion is not modelled.
- The C loader's 32-byte timestamp buffer and its `strcpy` are not modelled. An over-long device name stops the run (`NameOverflow`) rather than overflowing `device_name`.
- Failures of `sqlite3_open`, `sqlite3_prepare`, the table creation, the WAL pragma and `scandir` are not modelled. So are failures of `makedirs`, `rename` and file writes.
- The `-v` flag and every `print` are not modelled.
- `glob.glob` order is the order of the listing passed in.
- `int()` conversion errors are not modelled: the device gid is an `int` and the customer gid is an `Option<int>`.
- Overlapping invocations of any program are not modelled.
- IngestC.LoadersAgreePerFile: the timestamp text differs between the loaders and is not modelled. The C loader stores the raw `...:00Z` text first (`vueingest.c:91`) and then `strftime("%FT%TZ")` output (`vueingest.c:65`). The Python loader stores `...:00+00:00` first (`vueingest.py:37`) and then `isoformat()` output (`vueingest.py:17`). Both open the `readings` table of `./vue.db`, so running both loaders stores each reading twice under two texts. Keys here are instants.
- `World.usage` answers by target, so two equal entries of the device list get the same answers. The source asks the API again for a repeated channel.
- Text.Replace: states only that no foreign character appears and that the text is unchanged when the pattern is absent. It does not state where the replacement lands. The model uses it only to build file names.

## Findings

| source | as written | input that shows it | evidently intended | confidence | as-written member | corrected member |
|---|---|---|---|---|---|---|
| vuedl.py:169-185 | `break` leaves only the one-element `for scale` loop, so every target makes three requests even after a success, and a raise on the third request aborts the run after the data was already saved | first request returns data, the next two raise | stop retrying a target at its first non-empty answer | not executed | Fetch.SuccessThenRaise | Fetch.RetryLoopMeans |
| vuedl.py:129-131 | `delta.days == 0 and delta.seconds < 60` is false for a negative `delta` (days = -1), so a window whose start is after its end passes the guard | a second run in the same minute: `start = end + 1 s` | abort whenever `end - start` is less than one minute | not executed | Window.SameMinuteRerun | Window.GuardsDifferOnNegativeSpans |
| vuedl.py:143-146 | an empty `token_expiration` falls back to the naive `datetime.utcnow()`, and comparing it with an aware time raises `TypeError` | a configuration with `token_expiration =` empty, as on a first run | treat an unknown expiry as expired and renew | not executed | Downloader.FirstRunWithoutExpiry | Token.RenewalCheck |

The corrected definitions sit beside the ones as written:

- `Fetch.RetryLoop` beside `Fetch.AttemptLoop`;
- `Window.TooShortIntended` beside `Window.TooShortAsWritten`;
- `Token.RenewalIntended` beside `Token.RenewalAsWritten`.

`Build` selects which one a run uses, and `Downloader.Run(Intended, …)` is the corrected downloader.

=== FILE: base.dfy ===
/** Failure-carrying wrappers shared by every module of the model. */
module Base {

  /** A value that may be absent: a missing JSON key, a null array entry,
      an absent configuration option, a failed external call. */
  datatype Option<+T> = None | Some(value: T)
  {
    function GetOr(default: T): T
    {
      match this
      case Some(v) => v
      case None => default
    }
  }

  /** Which behaviour a model follows where the code departs from its
      evident intent: the code as written, or the corrected logic. */
  datatype Build = AsWritten | Intended
}

=== FILE: civil.dfy ===
/** Broken-down UTC date and time, as Python's aware `datetime` and C's
    `struct tm` hold it, and its position on the integer microsecond line
    counted from 1970-01-01T00:00:00Z. The process time zone is UTC. */
module Civil {

  const MicrosPerSecond: int := 1_000_000
  const MicrosPerMinute: int := 60 * MicrosPerSecond
  const MicrosPerDay: int := 86_400 * MicrosPerSecond

  datatype DateTime = DateTime(year: int, month: int, day: int,
                               hour: int, minute: int, second: int, micro: int)

  predicate IsLeapYear(y: int)
  {
    y % 4 == 0 && (y % 100 != 0 || y % 400 == 0)
  }

  function DaysInYear(y: int): int
  {
    if IsLeapYear(y) then 366 else 365
  }

  function DaysInMonth(y: int, m: int): int
    requires 1 <= m <= 12
  {
    if m == 2 then (if IsLeapYear(y) then 29 else 28)
    else if m == 4 || m == 6 || m == 9 || m == 11 then 30
    else 31
  }

  /** Days of year `y` before the first day of month `m` (13 = the next year). */
  function DaysBeforeMonth(y: int, m: int): int
    requires 1 <= m <= 13
  {
    var cumulative := [0, 31, 59, 90, 120, 151, 181, 212, 243, 273, 304, 334, 365];
    cumulative[m - 1] + (if m > 2 && IsLeapYear(y) then 1 else 0)
  }

  /** Days from 1970-01-01 to the first day of year `y` (negative before 1970). */
  function DaysBeforeYear(y: int): int
    decreases if y >= 1970 then y - 1970 else 1970 - y
  {
    if y == 1970 then 0
    else if y > 1970 then DaysBeforeYear(y - 1) + DaysInYear(y - 1)
    else DaysBeforeYear(y + 1) - DaysInYear(y)
  }

  predicate Valid(t: DateTime)
  {
    && 1 <= t.month <= 12
    && 1 <= t.day <= DaysInMonth(t.year, t.month)
    && 0 <= t.hour < 24
    && 0 <= t.minute < 60
    && 0 <= t.second < 60
    && 0 <= t.micro < MicrosPerSecond
  }

  /** A well-formed calendar time (what `fromisoformat` and `strptime` produce). */
  type Time = t: DateTime | Valid(t) witness DateTime(1970, 1, 1, 0, 0, 0, 0)

  function DayNumber(t: Time): int
  {
    DaysBeforeYear(t.year) + DaysBeforeMonth(t.year, t.month) + t.day - 1
  }

  /** Microseconds since the Unix epoch. */
  function EpochMicros(t: Time): int
  {
    (((DayNumber(t) * 24 + t.hour) * 60 + t.minute) * 60 + t.second) * MicrosPerSecond + t.micro
  }

  /** The calendar day after `t`'s, keeping the time of day. */
  function NextDay(t: Time): (r: Time)
    ensures DayNumber(r) == DayNumber(t) + 1
  {
    if t.day < DaysInMonth(t.year, t.month) then t.(day := t.day + 1)
    else if t.month < 12 then
      assert DaysBeforeMonth(t.year, t.month + 1) == DaysBeforeMonth(t.year, t.month) + DaysInMonth(t.year, t.month);
      t.(month := t.month + 1, day := 1)
    else
      DaysBeforeNextYear(t.year);
      t.(year := t.year + 1, month := 1, day := 1)
  }

  lemma DaysBeforeNextYear(y: int)
    ensures DaysBeforeYear(y + 1) == DaysBeforeYear(y) + DaysInYear(y)
  {
    if y + 1 > 1970 {
    } else {
      assert y < 1970;
    }
  }

  /** `struct tm` after `tm_min++` and `mktime` normalisation, and equally
      Python's `datetime + timedelta(minutes=1)`: minutes carry into hours,
      hours into days, days into months and months into years. */
  function IncrementMinute(t: Time): Time
  {
    if t.minute < 59 then t.(minute := t.minute + 1)
    else if t.hour < 23 then t.(hour := t.hour + 1, minute := 0)
    else NextDay(t).(hour := 0, minute := 0)
  }

  /** Python's `datetime + timedelta(seconds=1)`. */
  function IncrementSecond(t: Time): Time
  {
    if t.second < 59 then t.(second := t.second + 1)
    else IncrementMinute(t.(second := 0))
  }

  /** `truncate_seconds`: the same minute with zero seconds and microseconds. */
  function TruncateSeconds(t: Time): Time
  {
    t.(second := 0, micro := 0)
  }

  lemma {:induction false} IncrementMinuteAddsOneMinute(t: Time)
    ensures EpochMicros(IncrementMinute(t)) == EpochMicros(t) + MicrosPerMinute
  {
    if t.minute == 59 && t.hour == 23 {
      var n := NextDay(t);
      assert DayNumber(n) == DayNumber(t) + 1;
    }
  }

  lemma {:induction false} IncrementSecondAddsOneSecond(t: Time)
    ensures EpochMicros(IncrementSecond(t)) == EpochMicros(t) + MicrosPerSecond
  {
    if t.second == 59 {
      IncrementMinuteAddsOneMinute(t.(second := 0));
    }
  }

  /** The seconds-and-microseconds part of a time is its epoch value modulo one minute. */
  lemma {:induction false} EpochWithinMinute(t: Time)
    ensures EpochMicros(t) % MicrosPerMinute == t.second * MicrosPerSecond + t.micro
  {
    EpochByMinute(t);
    DivModUnique(EpochMicros(t), MicrosPerMinute, MinuteNumber(t), t.second * MicrosPerSecond + t.micro);
  }

  /** Whole minutes since the epoch. */
  function MinuteNumber(t: Time): int
  {
    (DayNumber(t) * 24 + t.hour) * 60 + t.minute
  }

  lemma EpochByMinute(t: Time)
    ensures EpochMicros(t) == MinuteNumber(t) * MicrosPerMinute + (t.second * MicrosPerSecond + t.micro)
    ensures 0 <= t.second * MicrosPerSecond + t.micro < MicrosPerMinute
  {
  }

  lemma {:induction false} TruncateSecondsIsFloorToMinute(t: Time)
    ensures EpochMicros(TruncateSeconds(t)) == EpochMicros(t) - EpochMicros(t) % MicrosPerMinute
    ensures EpochMicros(TruncateSeconds(t)) % MicrosPerMinute == 0
    ensures EpochMicros(t) - MicrosPerMinute < EpochMicros(TruncateSeconds(t)) <= EpochMicros(t)
  {
    EpochWithinMinute(t);
    EpochWithinMinute(TruncateSeconds(t));
  }

  // ---------------------------------------------------------------------
  // Integer division facts used for the minute arithmetic
  // ---------------------------------------------------------------------

  lemma DivModUnique(a: int, b: int, q: int, r: int)
    requires b > 0 && 0 <= r < b && a == q * b + r
    ensures a / b == q && a % b == r
  {
    var q', r' := a / b, a % b;
    assert a == q' * b + r';
    if q' > q {
      MulDistributes(q' - q, q, b);
      MulAtLeast(q' - q, b);
    } else if q' < q {
      MulDistributes(q - q', q', b);
      MulAtLeast(q - q', b);
    }
  }

  lemma MulDistributes(k: int, q: int, b: int)
    ensures (k + q) * b == k * b + q * b
  {
  }

  lemma {:induction false} MulAtLeast(k: int, b: int)
    requires k >= 1 && b > 0
    ensures k * b >= b
    decreases k
  {
    if k > 1 {
      MulAtLeast(k - 1, b);
      MulDistributes(k - 1, 1, b);
    }
  }

  lemma ModOfMultiplePlus(k: int, b: int, r: int)
    requires b > 0
    ensures (k * b + r) % b == r % b
  {
    DivModUnique(k * b + r, b, k + r / b, r % b);
  }
}

=== FILE: devices.dfy ===
/** The device list: the customer's devices, each with its own channels and
    its sub-devices' channels, flattened into one (device id, channel) list
    in response order. Only one level of sub-devices is visited. */
module Devices {

  datatype Channel = Channel(deviceGid: int, channelNum: string)

  datatype Device = Device(channels: seq<Channel>, subDevices: seq<Device>)

  /** One entry of the flattened list: what a usage request is made for. */
  datatype Target = Target(deviceGid: int, channel: string)

  function TargetOf(c: Channel): Target
  {
    Target(c.deviceGid, c.channelNum)
  }

  function Targets(cs: seq<Channel>): seq<Target>
  {
    seq(|cs|, i requires 0 <= i < |cs| => TargetOf(cs[i]))
  }

  lemma TargetsContents(cs: seq<Channel>)
    ensures |Targets(cs)| == |cs|
    ensures forall t :: t in Targets(cs) <==> exists c :: c in cs && t == TargetOf(c)
  {
    forall c | c in cs ensures TargetOf(c) in Targets(cs) {
      var i :| 0 <= i < |cs| && cs[i] == c;
      assert Targets(cs)[i] == TargetOf(c);
    }
    forall t | t in Targets(cs)
      ensures exists c :: c in cs && t == TargetOf(c)
    {
      var i :| 0 <= i < |cs| && Targets(cs)[i] == t;
      assert cs[i] in cs;
    }
  }

  /** The channels of the sub-devices, in order; their own sub-devices are not looked at. */
  function SubDeviceTargets(subs: seq<Device>): seq<Target>
    decreases |subs|
  {
    if |subs| == 0 then [] else Targets(subs[0].channels) + SubDeviceTargets(subs[1..])
  }

  /** `get_devices`: per device, its channels, then each sub-device's channels. */
  function Flatten(ds: seq<Device>): seq<Target>
    decreases |ds|
  {
    if |ds| == 0 then []
    else Targets(ds[0].channels) + SubDeviceTargets(ds[0].subDevices) + Flatten(ds[1..])
  }

  function ChannelCount(subs: seq<Device>): nat
    decreases |subs|
  {
    if |subs| == 0 then 0 else |subs[0].channels| + ChannelCount(subs[1..])
  }

  /** The number of channels on the top two levels. */
  function TwoLevelCount(ds: seq<Device>): nat
    decreases |ds|
  {
    if |ds| == 0 then 0 else |ds[0].channels| + ChannelCount(ds[0].subDevices) + TwoLevelCount(ds[1..])
  }

  /** A channel is on the top two levels of a device list. */
  predicate OnTopTwoLevels(ds: seq<Device>, c: Channel)
  {
    exists d :: d in ds && (c in d.channels || exists s :: s in d.subDevices && c in s.channels)
  }

  lemma {:induction false} SubDeviceTargetsContents(subs: seq<Device>)
    ensures |SubDeviceTargets(subs)| == ChannelCount(subs)
    ensures forall t :: t in SubDeviceTargets(subs) <==>
              exists s, c :: s in subs && c in s.channels && t == TargetOf(c)
    decreases |subs|
  {
    if |subs| > 0 {
      SubDeviceTargetsContents(subs[1..]);
      TargetsContents(subs[0].channels);
      assert subs == [subs[0]] + subs[1..];
      forall t | t in Targets(subs[0].channels)
        ensures exists c :: c in subs[0].channels && t == TargetOf(c)
      {
        var i :| 0 <= i < |subs[0].channels| && Targets(subs[0].channels)[i] == t;
        assert subs[0].channels[i] in subs[0].channels;
      }
    }
  }

  /** The flattened list has one entry per channel on the top two levels, and
      a target is listed exactly when such a channel carries it. */
  lemma {:induction false} FlattenContents(ds: seq<Device>)
    ensures |Flatten(ds)| == TwoLevelCount(ds)
    ensures forall t :: t in Flatten(ds) <==>
              exists c :: OnTopTwoLevels(ds, c) && t == TargetOf(c)
    decreases |ds|
  {
    if |ds| > 0 {
      FlattenContents(ds[1..]);
      SubDeviceTargetsContents(ds[0].subDevices);
      forall t
        ensures t in Flatten(ds) <==> exists c :: OnTopTwoLevels(ds, c) && t == TargetOf(c)
      {
        if t in Flatten(ds) {
          FlattenedComesFromChannel(ds, t);
        }
        if exists c :: OnTopTwoLevels(ds, c) && t == TargetOf(c) {
          ChannelIsFlattened(ds, t);
        }
      }
    }
  }

  /** One step of the induction above: an entry of the list comes from a channel. */
  lemma FlattenedComesFromChannel(ds: seq<Device>, t: Target)
    requires |ds| > 0 && t in Flatten(ds)
    requires forall t :: t in SubDeviceTargets(ds[0].subDevices) <==>
               exists s, c :: s in ds[0].subDevices && c in s.channels && t == TargetOf(c)
    requires forall t :: t in Flatten(ds[1..]) <==>
               exists c :: OnTopTwoLevels(ds[1..], c) && t == TargetOf(c)
    ensures exists c :: OnTopTwoLevels(ds, c) && t == TargetOf(c)
  {
    assert ds[0] in ds;
    if t in Targets(ds[0].channels) {
      TargetsContents(ds[0].channels);
      var c :| c in ds[0].channels && t == TargetOf(c);
      assert OnTopTwoLevels(ds, c);
    } else if t in SubDeviceTargets(ds[0].subDevices) {
      var s, c :| s in ds[0].subDevices && c in s.channels && t == TargetOf(c);
      assert OnTopTwoLevels(ds, c);
    } else {
      var c :| OnTopTwoLevels(ds[1..], c) && t == TargetOf(c);
      var d :| d in ds[1..] && (c in d.channels || exists s :: s in d.subDevices && c in s.channels);
      assert d in ds;
      assert OnTopTwoLevels(ds, c);
    }
  }

  /** The other step: a channel's target is in the list. */
  lemma ChannelIsFlattened(ds: seq<Device>, t: Target)
    requires |ds| > 0 && exists c :: OnTopTwoLevels(ds, c) && t == TargetOf(c)
    requires forall t :: t in SubDeviceTargets(ds[0].subDevices) <==>
               exists s, c :: s in ds[0].subDevices && c in s.channels && t == TargetOf(c)
    requires forall t :: t in Flatten(ds[1..]) <==>
               exists c :: OnTopTwoLevels(ds[1..], c) && t == TargetOf(c)
    ensures t in Flatten(ds)
  {
    var c :| OnTopTwoLevels(ds, c) && t == TargetOf(c);
    var d :| d in ds && (c in d.channels || exists s :: s in d.subDevices && c in s.channels);
    if d == ds[0] {
      if c in d.channels {
        TargetsContents(d.channels);
      } else {
        assert t in SubDeviceTargets(ds[0].subDevices);
      }
    } else {
      assert d in ds[1..];
      assert OnTopTwoLevels(ds[1..], c);
    }
  }

  /** Replacing every sub-device's own sub-devices leaves the list unchanged:
      channels below the second level are never requested. */
  lemma {:induction false} FlattenIgnoresDeeperLevels(ds: seq<Device>, es: seq<Device>)
    requires |ds| == |es|
    requires forall i :: 0 <= i < |ds| ==>
               ds[i].channels == es[i].channels && |ds[i].subDevices| == |es[i].subDevices|
    requires forall i, j :: 0 <= i < |ds| && 0 <= j < |ds[i].subDevices| ==>
               ds[i].subDevices[j].channels == es[i].subDevices[j].channels
    ensures Flatten(ds) == Flatten(es)
    decreases |ds|
  {
    if |ds| > 0 {
      SubDeviceTargetsAgree(ds[0].subDevices, es[0].subDevices);
      FlattenIgnoresDeeperLevels(ds[1..], es[1..]);
    }
  }

  lemma {:induction false} SubDeviceTargetsAgree(subs: seq<Device>, others: seq<Device>)
    requires |subs| == |others|
    requires forall j :: 0 <= j < |subs| ==> subs[j].channels == others[j].channels
    ensures SubDeviceTargets(subs) == SubDeviceTargets(others)
    decreases |subs|
  {
    if |subs| > 0 {
      SubDeviceTargetsAgree(subs[1..], others[1..]);
    }
  }

  /** Devices are flattened one after another: splitting the device list
      anywhere splits the targets at the same place. */
  lemma {:induction false} FlattenAppend(xs: seq<Device>, ys: seq<Device>)
    ensures Flatten(xs + ys) == Flatten(xs) + Flatten(ys)
    decreases |xs|
  {
    if |xs| > 0 {
      assert (xs + ys)[1..] == xs[1..] + ys;
      FlattenAppend(xs[1..], ys);
    } else {
      assert xs + ys == ys;
    }
  }

  /** A device's own channels come first in its part of the list. */
  lemma OwnChannelsFirst(d: Device, rest: seq<Device>)
    ensures Flatten([d] + rest)[..|d.channels|] == Targets(d.channels)
  {
    assert ([d] + rest)[1..] == rest;
  }
}

=== FILE: fetch.dfy ===
/** The usage fetch for one (device, channel) target: up to three requests,
    a one-second pause before each, a thirty-second back-off after a
    failure that is not the last, and the non-empty response body saved to
    the raw file. In the code the `break` that follows a save leaves only
    the one-element `for scale in ["1MIN"]` loop, not the attempt loop. */
module Fetch {
  import opened Base

  const Attempts: nat := 3
  const CourtesyPause: nat := 1
  const BackOff: nat := 30

  /** What request `i` of a target ends with: an exception (network error or
      non-2xx status), or the response text. */
  datatype Attempt = Raised | Returned(body: string)

  /** One observable step of the fetch: a sleep, request number `attempt`,
      or the raw file written with `body`. */
  datatype Step = Pause(seconds: nat) | Request(attempt: nat) | Save(body: string)

  datatype FetchTrace = FetchTrace(steps: seq<Step>, raised: bool)

  function Prepend(steps: seq<Step>, rest: FetchTrace): FetchTrace
  {
    FetchTrace(steps + rest.steps, rest.raised)
  }

  predicate Success(a: Attempt)
  {
    a.Returned? && |a.body| > 0
  }

  /** The attempt loop as written, from attempt `i`: a save does not end it. */
  function AttemptLoop(answer: nat -> Attempt, i: nat): FetchTrace
    decreases Attempts - i
  {
    if i >= Attempts then FetchTrace([], false)
    else
      var head := [Pause(CourtesyPause), Request(i)];
      match answer(i)
      case Raised =>
        if i == Attempts - 1 then FetchTrace(head, true)
        else Prepend(head + [Pause(BackOff)], AttemptLoop(answer, i + 1))
      case Returned(body) =>
        if |body| > 0 then Prepend(head + [Save(body)], AttemptLoop(answer, i + 1))
        else Prepend(head, AttemptLoop(answer, i + 1))
  }

  /** The attempt loop as evidently intended: the first saved response ends it. */
  function RetryLoop(answer: nat -> Attempt, i: nat): FetchTrace
    decreases Attempts - i
  {
    if i >= Attempts then FetchTrace([], false)
    else
      var head := [Pause(CourtesyPause), Request(i)];
      match answer(i)
      case Raised =>
        if i == Attempts - 1 then FetchTrace(head, true)
        else Prepend(head + [Pause(BackOff)], RetryLoop(answer, i + 1))
      case Returned(body) =>
        if |body| > 0 then FetchTrace(head + [Save(body)], false)
        else Prepend(head, RetryLoop(answer, i + 1))
  }

  function FetchTarget(build: Build, answer: nat -> Attempt): FetchTrace
  {
    match build
    case AsWritten => AttemptLoop(answer, 0)
    case Intended => RetryLoop(answer, 0)
  }

  // ---------------------------------------------------------------------
  // Reference definitions
  // ---------------------------------------------------------------------

  /** The attempt numbers requested, in order. */
  function RequestsOf(steps: seq<Step>): seq<nat>
    decreases |steps|
  {
    if |steps| == 0 then []
    else (if steps[0].Request? then [steps[0].attempt] else []) + RequestsOf(steps[1..])
  }

  /** The bodies written to the raw file, in order; the file keeps the last. */
  function SavesOf(steps: seq<Step>): seq<string>
    decreases |steps|
  {
    if |steps| == 0 then []
    else (if steps[0].Save? then [steps[0].body] else []) + SavesOf(steps[1..])
  }

  /** The back-off pauses taken. */
  function BackOffsOf(steps: seq<Step>): nat
    decreases |steps|
  {
    if |steps| == 0 then 0
    else (if steps[0] == Pause(BackOff) then 1 else 0) + BackOffsOf(steps[1..])
  }

  /** Requests `i`, `i + 1`, ..., `Attempts - 1`. */
  function Range(i: nat): seq<nat>
    decreases Attempts - i
  {
    if i >= Attempts then [] else [i] + Range(i + 1)
  }

  /** The successful bodies among answers `i` .. `Attempts - 1`. */
  function SuccessesFrom(answer: nat -> Attempt, i: nat): seq<string>
    decreases Attempts - i
  {
    if i >= Attempts then []
    else (if Success(answer(i)) then [answer(i).body] else []) + SuccessesFrom(answer, i + 1)
  }

  /** The failures among answers `i` .. `n - 1`. */
  function FailuresBetween(answer: nat -> Attempt, i: nat, n: nat): nat
    decreases n - i
  {
    if i >= n then 0
    else (if answer(i).Raised? then 1 else 0) + FailuresBetween(answer, i + 1, n)
  }

  /** The first successful attempt at or after `i`. */
  function FirstSuccess(answer: nat -> Attempt, i: nat): (r: Option<nat>)
    ensures r.Some? ==> i <= r.value < Attempts && Success(answer(r.value))
    ensures r.Some? ==> forall j :: i <= j < r.value ==> !Success(answer(j))
    ensures r.None? ==> forall j :: i <= j < Attempts ==> !Success(answer(j))
    decreases Attempts - i
  {
    if i >= Attempts then None
    else if Success(answer(i)) then Some(i)
    else FirstSuccess(answer, i + 1)
  }

  lemma {:induction false} RequestsAppend(a: seq<Step>, b: seq<Step>)
    ensures RequestsOf(a + b) == RequestsOf(a) + RequestsOf(b)
    decreases |a|
  {
    if |a| > 0 {
      RequestsAppend(a[1..], b);
      assert (a + b)[1..] == a[1..] + b;
    } else {
      assert a + b == b;
    }
  }

  lemma {:induction false} SavesAppend(a: seq<Step>, b: seq<Step>)
    ensures SavesOf(a + b) == SavesOf(a) + SavesOf(b)
    decreases |a|
  {
    if |a| > 0 {
      SavesAppend(a[1..], b);
      assert (a + b)[1..] == a[1..] + b;
    } else {
      assert a + b == b;
    }
  }

  lemma {:induction false} BackOffsAppend(a: seq<Step>, b: seq<Step>)
    ensures BackOffsOf(a + b) == BackOffsOf(a) + BackOffsOf(b)
    decreases |a|
  {
    if |a| > 0 {
      BackOffsAppend(a[1..], b);
      assert (a + b)[1..] == a[1..] + b;
    } else {
      assert a + b == b;
    }
  }

  /** The pause and request every attempt starts with. */
  lemma AttemptHead(i: nat)
    ensures RequestsOf([Pause(CourtesyPause), Request(i)]) == [i]
    ensures SavesOf([Pause(CourtesyPause), Request(i)]) == []
    ensures BackOffsOf([Pause(CourtesyPause), Request(i)]) == 0
  {
    var head := [Pause(CourtesyPause), Request(i)];
    var tail := [Request(i)];
    assert head[1..] == tail;
    assert tail[1..] == [];
    assert RequestsOf(tail) == [i] + RequestsOf([]);
    assert SavesOf(tail) == [] + SavesOf([]);
    assert BackOffsOf(tail) == 0 + BackOffsOf([]);
    assert RequestsOf(head) == [] + RequestsOf(tail);
    assert SavesOf(head) == [] + SavesOf(tail);
    assert BackOffsOf(head) == 0 + BackOffsOf(tail);
  }

  lemma StepsAppend(a: seq<Step>, b: seq<Step>)
    ensures RequestsOf(a + b) == RequestsOf(a) + RequestsOf(b)
    ensures SavesOf(a + b) == SavesOf(a) + SavesOf(b)
    ensures BackOffsOf(a + b) == BackOffsOf(a) + BackOffsOf(b)
  {
    RequestsAppend(a, b);
    SavesAppend(a, b);
    BackOffsAppend(a, b);
  }

  // ---------------------------------------------------------------------
  // Properties
  // ---------------------------------------------------------------------

  /** What an attempt adds after its request: a back-off after an exception
      (the last attempt's exception is raised instead), the save of a
      non-empty body. */
  function AfterRequest(a: Attempt): seq<Step>
  {
    match a
    case Raised => [Pause(BackOff)]
    case Returned(body) => if |body| > 0 then [Save(body)] else []
  }

  lemma AfterRequestCounts(a: Attempt)
    ensures RequestsOf(AfterRequest(a)) == []
    ensures SavesOf(AfterRequest(a)) == (if Success(a) then [a.body] else [])
    ensures BackOffsOf(AfterRequest(a)) == (if a.Raised? then 1 else 0)
  {
    var x := AfterRequest(a);
    if |x| > 0 {
      assert x[1..] == [];
    }
  }

  /** One non-final attempt of either loop, when it is not a success of the intended one. */
  lemma {:induction false} AttemptCounts(a: Attempt, i: nat, rest: seq<Step>)
    ensures var steps := [Pause(CourtesyPause), Request(i)] + AfterRequest(a) + rest;
            && RequestsOf(steps) == [i] + RequestsOf(rest)
            && SavesOf(steps) == (if Success(a) then [a.body] else []) + SavesOf(rest)
            && BackOffsOf(steps) == (if a.Raised? then 1 else 0) + BackOffsOf(rest)
  {
    var head := [Pause(CourtesyPause), Request(i)];
    AttemptHead(i);
    AfterRequestCounts(a);
    StepsAppend(head, AfterRequest(a));
    StepsAppend(head + AfterRequest(a), rest);
  }

  lemma {:induction false} AttemptLoopStep(answer: nat -> Attempt, i: nat)
    requires i < Attempts - 1
    ensures AttemptLoop(answer, i).steps
         == [Pause(CourtesyPause), Request(i)] + AfterRequest(answer(i)) + AttemptLoop(answer, i + 1).steps
    ensures AttemptLoop(answer, i).raised == AttemptLoop(answer, i + 1).raised
  {
    var head := [Pause(CourtesyPause), Request(i)];
    if answer(i).Returned? && |answer(i).body| == 0 {
      assert head + AfterRequest(answer(i)) == head;
    }
  }

  /** As written, every target costs all three requests, every non-empty
      response is written (each overwriting the file), a back-off follows
      each failure but the last, and the target fails exactly when the
      third request raises, whatever came before. */
  lemma {:induction false} AttemptLoopMeans(answer: nat -> Attempt, i: nat)
    requires i < Attempts
    ensures var t := AttemptLoop(answer, i);
            && RequestsOf(t.steps) == Range(i)
            && SavesOf(t.steps) == SuccessesFrom(answer, i)
            && BackOffsOf(t.steps) == FailuresBetween(answer, i, Attempts - 1)
            && (t.raised <==> answer(Attempts - 1).Raised?)
    decreases Attempts - i
  {
    if i < Attempts - 1 {
      AttemptLoopMeans(answer, i + 1);
      AttemptLoopStep(answer, i);
      AttemptCounts(answer(i), i, AttemptLoop(answer, i + 1).steps);
    } else {
      var head := [Pause(CourtesyPause), Request(i)];
      AttemptHead(i);
      if answer(i).Returned? {
        AfterRequestCounts(answer(i));
        StepsAppend(head, AfterRequest(answer(i)));
        assert AttemptLoop(answer, i).steps == head + AfterRequest(answer(i));
      }
    }
  }

  /** The request at which the intended loop stops: the first success, else the last attempt. */
  function LastRequest(answer: nat -> Attempt, i: nat): nat
  {
    match FirstSuccess(answer, i)
    case Some(k) => k
    case None => Attempts - 1
  }

  lemma {:induction false} RetryLoopStep(answer: nat -> Attempt, i: nat)
    requires i < Attempts - 1 && !Success(answer(i))
    ensures RetryLoop(answer, i).steps
         == [Pause(CourtesyPause), Request(i)] + AfterRequest(answer(i)) + RetryLoop(answer, i + 1).steps
    ensures RetryLoop(answer, i).raised == RetryLoop(answer, i + 1).raised
  {
    var head := [Pause(CourtesyPause), Request(i)];
    if answer(i).Returned? {
      assert head + AfterRequest(answer(i)) == head;
    }
  }

  /** As intended, the first non-empty response ends the target's requests
      and is the only body written; the target fails only when no attempt
      returned a body and the third raised. */
  lemma {:induction false} RetryLoopMeans(answer: nat -> Attempt, i: nat)
    requires i < Attempts
    ensures var t := RetryLoop(answer, i);
            && |RequestsOf(t.steps)| == LastRequest(answer, i) + 1 - i
            && SavesOf(t.steps) == (if FirstSuccess(answer, i).Some? then [answer(FirstSuccess(answer, i).value).body] else [])
            && BackOffsOf(t.steps) == FailuresBetween(answer, i, LastRequest(answer, i))
            && (t.raised <==> FirstSuccess(answer, i).None? && answer(Attempts - 1).Raised?)
    decreases Attempts - i
  {
    if Success(answer(i)) || i == Attempts - 1 {
      RetryLoopLastAttempt(answer, i);
    } else {
      RetryLoopMeans(answer, i + 1);
      RetryLoopLaterAttempt(answer, i);
    }
  }

  /** What the corrected loop does from attempt `i` on, as stated above. */
  predicate RetryLoopDescribed(answer: nat -> Attempt, i: nat)
    requires i < Attempts
  {
    var t := RetryLoop(answer, i);
    && |RequestsOf(t.steps)| == LastRequest(answer, i) + 1 - i
    && SavesOf(t.steps) == (if FirstSuccess(answer, i).Some? then [answer(FirstSuccess(answer, i).value).body] else [])
    && BackOffsOf(t.steps) == FailuresBetween(answer, i, LastRequest(answer, i))
    && (t.raised <==> FirstSuccess(answer, i).None? && answer(Attempts - 1).Raised?)
  }

  lemma RetryLoopLastAttempt(answer: nat -> Attempt, i: nat)
    requires i < Attempts && (Success(answer(i)) || i == Attempts - 1)
    ensures RetryLoopDescribed(answer, i)
  {
    var head := [Pause(CourtesyPause), Request(i)];
    AttemptHead(i);
    AfterRequestCounts(answer(i));
    StepsAppend(head, AfterRequest(answer(i)));
    if answer(i).Returned? {
      assert RetryLoop(answer, i).steps == head + AfterRequest(answer(i));
    }
  }

  lemma RetryLoopLaterAttempt(answer: nat -> Attempt, i: nat)
    requires i < Attempts - 1 && !Success(answer(i))
    requires RetryLoopDescribed(answer, i + 1)
    ensures RetryLoopDescribed(answer, i)
  {
    RetryLoopStep(answer, i);
    AttemptCounts(answer(i), i, RetryLoop(answer, i + 1).steps);
  }

  /** Both loops behave alike until the first success: with no successful
      attempt they produce the same trace. */
  lemma {:induction false} LoopsAgreeWithoutSuccess(answer: nat -> Attempt, i: nat)
    requires FirstSuccess(answer, i).None?
    ensures AttemptLoop(answer, i) == RetryLoop(answer, i)
    decreases Attempts - i
  {
    if i < Attempts {
      LoopsAgreeWithoutSuccess(answer, i + 1);
    }
  }

  /** A response on the first attempt and an exception on the third: as
      written the target raises and the run aborts; as intended it stops
      after one request with the response saved. */
  lemma SuccessThenRaise()
    ensures var answer := (i: nat) => if i == 0 then Returned("x") else Raised;
            && AttemptLoop(answer, 0).raised
            && !RetryLoop(answer, 0).raised
            && RetryLoop(answer, 0).steps == [Pause(CourtesyPause), Request(0), Save("x")]
  {
    var answer := (i: nat) => if i == 0 then Returned("x") else Raised;
    AttemptLoopMeans(answer, 0);
  }

  /** Two failures then a response: in both builds the target succeeds, after
      two back-offs, and the response is what is written. */
  lemma FailTwiceThenSucceed(build: Build)
    ensures var answer := (i: nat) => if i < 2 then Raised else Returned("x");
            && !FetchTarget(build, answer).raised
            && SavesOf(FetchTarget(build, answer).steps) == ["x"]
            && BackOffsOf(FetchTarget(build, answer).steps) == 2
  {
    var answer := (i: nat) => if i < 2 then Raised else Returned("x");
    AttemptLoopMeans(answer, 0);
    RetryLoopMeans(answer, 0);
    assert FirstSuccess(answer, 0) == Some(2);
  }

  /** Three failures: in both builds the target raises. */
  lemma FailThrice(build: Build)
    ensures FetchTarget(build, (i: nat) => Raised).raised
  {
    AttemptLoopMeans((i: nat) => Raised, 0);
    RetryLoopMeans((i: nat) => Raised, 0);
  }
}

=== FILE: filenames.dfy ===
/** The raw-file naming schema: the builder in the downloader and the three
    parsers and filters in the loaders that take the name apart again. */
module FileNames {
  import opened Base
  import opened Text

  /** `iso.replace("+00:00", "Z")`, applied to every `isoformat()` that goes into a name. */
  function Zulu(iso: string): string
  {
    Replace(iso, "+00:00", "Z")
  }

  /** The raw response file name: `<folder>vue_<gid>_<channel>_<start>-<end>_<scale>.json`. */
  function RawFileName(folder: string, gid: int, channel: string,
                       startIso: string, endIso: string, scale: string): string
  {
    folder + "vue_" + DecimalString(gid) + "_" + channel + "_"
      + Zulu(startIso) + "-" + Zulu(endIso) + "_" + scale + ".json"
  }

  /** The five fields a raw file name is made of, in order. */
  function RawFields(folder: string, gid: int, channel: string,
                     startIso: string, endIso: string, scale: string): seq<string>
  {
    [folder + "vue", DecimalString(gid), channel, Zulu(startIso) + "-" + Zulu(endIso), scale + ".json"]
  }

  /** Python's `name.split("_")[k]`, None where that raises IndexError. */
  function PyField(name: string, k: nat): (r: Option<string>)
    ensures r.Some? ==> '_' !in r.value
  {
    var fields := Split(name, '_');
    if k < |fields| then Some(fields[k]) else None
  }

  function DeviceGidFromFileName(name: string): Option<string>
  {
    PyField(name, 1)
  }

  function ChannelFromFileName(name: string): Option<string>
  {
    PyField(name, 2)
  }

  /** Field 4 up to its first `.`. */
  function ScaleFromFileName(name: string): Option<string>
  {
    match PyField(name, 4)
    case None => None
    case Some(f) => Some(Split(f, '.')[0])
  }

  /** The Python loader's device name: fields 1 and 2 of the base name joined by `_`. */
  function PyDeviceName(base: string): (r: Option<string>)
    ensures r.Some? <==> |Split(base, '_')| >= 3
  {
    var parts := Split(base, '_');
    if |parts| >= 3 then Some(parts[1] + "_" + parts[2]) else None
  }

  /** The C loader's device name: the text strictly between the first and
      the third `_` of the path, found with three `strchr` calls; None where
      `get_device_name` returns EXIT_FAILURE. */
  function CDeviceName(path: string): Option<string>
  {
    match IndexOf(path, '_', 0)
    case None => None
    case Some(a) =>
      match IndexOf(path, '_', a + 1)
      case None => None
      case Some(b) =>
        match IndexOf(path, '_', b + 1)
        case None => None
        case Some(c) => Some(path[a + 1..c])
  }

  /** `device_name` is a 64-byte buffer: the name and its terminating NUL must fit. */
  const DeviceNameBuffer: nat := 64

  predicate FitsDeviceBuffer(name: string)
  {
    |name| < DeviceNameBuffer
  }

  /** The C directory filter: `strstr(name, ".json")` is non-null and leaves exactly five characters. */
  predicate JsonFilter(name: string)
  {
    match Find(name, ".json", 0)
    case None => false
    case Some(i) => |name| - i == 5
  }

  /** A shell-style `*<suffix>` glob on a base name; `*` never matches a leading dot. */
  predicate GlobSuffix(base: string, suffix: string)
  {
    EndsWith(base, suffix) && (|base| == 0 || base[0] != '.')
  }

  lemma NoUnderscoreInZulu(iso: string)
    requires '_' !in iso
    ensures '_' !in Zulu(iso)
  {
  }

  lemma Join5(a: string, b: string, c: string, d: string, e: string, sep: char)
    ensures Join([a, b, c, d, e], sep) == a + [sep] + b + [sep] + c + [sep] + d + [sep] + e
  {
    var f := [a, b, c, d, e];
    assert f[1..] == [b, c, d, e];
    assert f[1..][1..] == [c, d, e];
    assert f[1..][1..][1..] == [d, e];
    assert f[1..][1..][1..][1..] == [e];
    assert Join([d, e], sep) == d + [sep] + e;
    assert Join([c, d, e], sep) == c + [sep] + (d + [sep] + e);
    assert Join([b, c, d, e], sep) == b + [sep] + (c + [sep] + (d + [sep] + e));
  }

  lemma RawFileNameIsJoin(folder: string, gid: int, channel: string,
                          startIso: string, endIso: string, scale: string)
    ensures RawFileName(folder, gid, channel, startIso, endIso, scale)
         == Join(RawFields(folder, gid, channel, startIso, endIso, scale), '_')
  {
    Join5(folder + "vue", DecimalString(gid), channel, Zulu(startIso) + "-" + Zulu(endIso), scale + ".json", '_');
    assert folder + "vue_" == folder + "vue" + ['_'];
  }

  /** Splitting a raw file name on `_` gives back exactly its five fields,
      provided the folder, channel, isoformat strings and scale hold no `_`. */
  lemma {:induction false} RawFileNameSplits(folder: string, gid: int, channel: string,
                                             startIso: string, endIso: string, scale: string)
    requires '_' !in folder && '_' !in channel && '_' !in scale
    requires '_' !in startIso && '_' !in endIso
    ensures Split(RawFileName(folder, gid, channel, startIso, endIso, scale), '_')
         == RawFields(folder, gid, channel, startIso, endIso, scale)
  {
    var f := RawFields(folder, gid, channel, startIso, endIso, scale);
    NoUnderscoreInZulu(startIso);
    NoUnderscoreInZulu(endIso);
    assert '_' !in DecimalString(gid);
    assert forall i :: 0 <= i < |f| ==> '_' !in f[i];
    RawFileNameIsJoin(folder, gid, channel, startIso, endIso, scale);
    SplitJoin(f, '_');
  }

  /** The three Python parsers, run on the full path of a file the
      downloader named, give back its device id text, channel and scale. */
  lemma {:induction false} ParsersRecoverFields(folder: string, gid: int, channel: string,
                                                startIso: string, endIso: string, scale: string)
    requires '_' !in folder && '_' !in channel && '_' !in scale && '.' !in scale
    requires '_' !in startIso && '_' !in endIso
    ensures var name := RawFileName(folder, gid, channel, startIso, endIso, scale);
            && DeviceGidFromFileName(name) == Some(DecimalString(gid))
            && ChannelFromFileName(name) == Some(channel)
            && ScaleFromFileName(name) == Some(scale)
  {
    RawFileNameSplits(folder, gid, channel, startIso, endIso, scale);
    SplitAfterPiece(scale, "json", '.');
    assert scale + ".json" == scale + ['.'] + "json";
  }

  /** A `_` in the data folder shifts every field: the "device id" read
      back is the folder's text after the `_` followed by `vue`. */
  lemma {:induction false} UnderscoreInFolderMisparses(top: string, sub: string, gid: int, channel: string,
                                                       startIso: string, endIso: string, scale: string)
    requires '_' !in top && '_' !in sub && '_' !in channel && '_' !in scale
    requires '_' !in startIso && '_' !in endIso
    ensures DeviceGidFromFileName(RawFileName(top + "_" + sub, gid, channel, startIso, endIso, scale))
         == Some(sub + "vue")
  {
    var inner := RawFileName(sub, gid, channel, startIso, endIso, scale);
    RawFileNameUnderNestedFolder(top, sub, gid, channel, startIso, endIso, scale);
    SplitAfterPiece(top, inner, '_');
    RawFileNameSplits(sub, gid, channel, startIso, endIso, scale);
  }

  lemma RawFileNameUnderNestedFolder(top: string, sub: string, gid: int, channel: string,
                                     startIso: string, endIso: string, scale: string)
    ensures RawFileName(top + "_" + sub, gid, channel, startIso, endIso, scale)
         == top + ['_'] + RawFileName(sub, gid, channel, startIso, endIso, scale)
  {
    var base := RawFileName("", gid, channel, startIso, endIso, scale);
    RawFileNameUnderFolder(top + "_" + sub, gid, channel, startIso, endIso, scale);
    RawFileNameUnderFolder(sub, gid, channel, startIso, endIso, scale);
    assert top + "_" + sub + base == top + ['_'] + (sub + base);
  }

  /** A raw file name is its folder followed by the bare base name. */
  lemma RawFileNameUnderFolder(folder: string, gid: int, channel: string,
                               startIso: string, endIso: string, scale: string)
    ensures RawFileName(folder, gid, channel, startIso, endIso, scale)
         == folder + RawFileName("", gid, channel, startIso, endIso, scale)
  {
    var d, zs, ze := DecimalString(gid), Zulu(startIso), Zulu(endIso);
    assert "" + "vue_" == "vue_";
    var p1 := "vue_" + d;     Regroup(folder, "vue_", d);
    var p2 := p1 + "_";       Regroup(folder, p1, "_");
    var p3 := p2 + channel;   Regroup(folder, p2, channel);
    var p4 := p3 + "_";       Regroup(folder, p3, "_");
    var p5 := p4 + zs;        Regroup(folder, p4, zs);
    var p6 := p5 + "-";       Regroup(folder, p5, "-");
    var p7 := p6 + ze;        Regroup(folder, p6, ze);
    var p8 := p7 + "_";       Regroup(folder, p7, "_");
    var p9 := p8 + scale;     Regroup(folder, p8, scale);
    Regroup(folder, p9, ".json");
  }

  lemma Regroup(x: string, y: string, z: string)
    ensures x + y + z == x + (y + z)
  {
  }

  /** Python's `s.split("_")` up to the second `_`, given where the first two are. */
  lemma {:induction false} SplitFirstTwo(s: string, a: nat, b: nat)
    requires a < b < |s| && s[a] == '_' && s[b] == '_'
    requires forall j :: 0 <= j < a ==> s[j] != '_'
    requires forall j :: a < j < b ==> s[j] != '_'
    ensures Split(s, '_') == [s[..a], s[a + 1..b]] + Split(s[b + 1..], '_')
  {
    SplitAtFirst(s, '_', a);
    SplitAfterFirst(s, a, b);
  }

  /** The split of what follows the first `_`, given where the second one is. */
  lemma SplitAfterFirst(s: string, a: nat, b: nat)
    requires a < b < |s| && s[b] == '_'
    requires forall j :: a < j < b ==> s[j] != '_'
    ensures Split(s[a + 1..], '_') == [s[a + 1..b]] + Split(s[b + 1..], '_')
  {
    var s1 := s[a + 1..];
    var k := b - a - 1;
    assert s1[k] == '_';
    forall j | 0 <= j < k ensures s1[j] != '_' {
      assert s1[j] == s[a + 1 + j];
    }
    SplitAtFirst(s1, '_', k);
    assert s1[..k] == s[a + 1..b];
    assert s1[k + 1..] == s[b + 1..];
  }

  lemma {:induction false} SplitOnlyOne(s: string, a: nat)
    requires a < |s| && s[a] == '_'
    requires forall j :: 0 <= j < |s| && j != a ==> s[j] != '_'
    ensures |Split(s, '_')| == 2
  {
    SplitAtFirst(s, '_', a);
    SplitNoSeparator(s[a + 1..], '_');
  }

  lemma SliceAroundSeparator(s: string, i: nat, b: nat, c: nat)
    requires i <= b < c <= |s| && s[b] == '_'
    ensures s[i..c] == s[i..b] + "_" + s[b + 1..c]
  {
    assert s[i..c] == s[i..b] + s[b..c];
    assert s[b..c] == [s[b]] + s[b + 1..c];
  }

  lemma {:induction false} SplitThreeSeparators(s: string, a: nat, b: nat, c: nat)
    requires a < b < c < |s| && s[a] == '_' && s[b] == '_' && s[c] == '_'
    requires forall j :: 0 <= j < c && j != a && j != b ==> s[j] != '_'
    ensures |Split(s, '_')| >= 4
    ensures PyDeviceName(s) == Some(s[a + 1..c])
  {
    ThreeFields(s, a, b, c);
    SliceAroundSeparator(s, a + 1, b, c);
  }

  lemma ThreeFields(s: string, a: nat, b: nat, c: nat)
    requires a < b < c < |s| && s[a] == '_' && s[b] == '_' && s[c] == '_'
    requires forall j :: 0 <= j < c && j != a && j != b ==> s[j] != '_'
    ensures |Split(s, '_')| >= 4
    ensures Split(s, '_')[1] == s[a + 1..b] && Split(s, '_')[2] == s[b + 1..c]
  {
    SplitFirstTwo(s, a, b);
    SplitAfterFirst(s, b, c);
  }

  lemma {:induction false} SplitTwoSeparators(s: string, a: nat, b: nat)
    requires a < b < |s| && s[a] == '_' && s[b] == '_'
    requires forall j :: 0 <= j < |s| && j != a && j != b ==> s[j] != '_'
    ensures |Split(s, '_')| == 3
  {
    SplitFirstTwo(s, a, b);
    SplitNoSeparator(s[b + 1..], '_');
  }

  /** The three-`strchr` scan succeeds exactly on names with at least three
      `_` (four Python fields), and then gives what Python's
      `parts[1] + "_" + parts[2]` gives: the text between the first and the third `_`. */
  lemma {:induction false} CDeviceNameAgreesWithPython(s: string)
    ensures CDeviceName(s).Some? <==> |Split(s, '_')| >= 4
    ensures CDeviceName(s).Some? ==> CDeviceName(s) == PyDeviceName(s)
  {
    match IndexOf(s, '_', 0)
    case None =>
      SplitNoSeparator(s, '_');
    case Some(a) =>
      match IndexOf(s, '_', a + 1)
      case None =>
        NoSecondSeparator(s, a);
      case Some(b) =>
        match IndexOf(s, '_', b + 1)
        case None =>
          NoThirdSeparator(s, a, b);
        case Some(c) =>
          ThirdSeparator(s, a, b, c);
  }

  lemma NoSecondSeparator(s: string, a: nat)
    requires IndexOf(s, '_', 0) == Some(a) && IndexOf(s, '_', a + 1).None?
    ensures |Split(s, '_')| == 2
  {
    SplitOnlyOne(s, a);
  }

  lemma NoThirdSeparator(s: string, a: nat, b: nat)
    requires IndexOf(s, '_', 0) == Some(a) && IndexOf(s, '_', a + 1) == Some(b) && IndexOf(s, '_', b + 1).None?
    ensures |Split(s, '_')| == 3
  {
    SplitTwoSeparators(s, a, b);
  }

  lemma ThirdSeparator(s: string, a: nat, b: nat, c: nat)
    requires IndexOf(s, '_', 0) == Some(a) && IndexOf(s, '_', a + 1) == Some(b) && IndexOf(s, '_', b + 1) == Some(c)
    ensures |Split(s, '_')| >= 4
    ensures CDeviceName(s) == Some(s[a + 1..c]) == PyDeviceName(s)
  {
    ThreeSeparatorsFound(s, a, b, c);
    SplitThreeSeparators(s, a, b, c);
    CDeviceNameBetween(s, a, b, c);
  }

  lemma CDeviceNameBetween(s: string, a: nat, b: nat, c: nat)
    requires IndexOf(s, '_', 0) == Some(a) && IndexOf(s, '_', a + 1) == Some(b) && IndexOf(s, '_', b + 1) == Some(c)
    ensures CDeviceName(s) == Some(s[a + 1..c])
  {
  }

  /** What three successful `strchr` calls say about the string. */
  lemma ThreeSeparatorsFound(s: string, a: nat, b: nat, c: nat)
    requires IndexOf(s, '_', 0) == Some(a) && IndexOf(s, '_', a + 1) == Some(b) && IndexOf(s, '_', b + 1) == Some(c)
    ensures a < b < c < |s| && s[a] == '_' && s[b] == '_' && s[c] == '_'
    ensures forall j :: 0 <= j < c && j != a && j != b ==> s[j] != '_'
  {
    forall j | 0 <= j < c && j != a && j != b
      ensures s[j] != '_'
    {
      if j < a {
        assert IndexOf(s, '_', 0) == Some(a);
      } else if j < b {
        assert IndexOf(s, '_', a + 1) == Some(b);
      } else {
        assert IndexOf(s, '_', b + 1) == Some(c);
      }
    }
  }

  /** With exactly two `_` the Python loader still finds a device name where the C loader fails. */
  lemma TwoUnderscoresSplitTheLoaders()
    ensures PyDeviceName("a_b_c") == Some("b_c")
    ensures CDeviceName("a_b_c") == None
  {
    SplitAfterPiece("a", "b_c", '_');
    assert "a_b_c" == "a" + ['_'] + "b_c";
    SplitAfterPiece("b", "c", '_');
    assert "b_c" == "b" + ['_'] + "c";
    SplitNoSeparator("c", '_');
    CDeviceNameAgreesWithPython("a_b_c");
  }

  /** Both loaders derive `<gid>_<channel>` from a file the downloader named
      (the C loader from the full path, here the downloader's folder
      holding no `_`). */
  lemma {:induction false} DeviceNameOfRawFile(dir: string, gid: int, channel: string,
                                               startIso: string, endIso: string, scale: string)
    requires '_' !in dir && '_' !in channel && '_' !in scale
    requires '_' !in startIso && '_' !in endIso
    ensures PyDeviceName(RawFileName("", gid, channel, startIso, endIso, scale))
         == Some(DecimalString(gid) + "_" + channel)
    ensures CDeviceName(RawFileName(dir, gid, channel, startIso, endIso, scale))
         == Some(DecimalString(gid) + "_" + channel)
  {
    PyDeviceNameOfRaw("", gid, channel, startIso, endIso, scale);
    PyDeviceNameOfRaw(dir, gid, channel, startIso, endIso, scale);
    CDeviceNameAgreesWithPython(RawFileName(dir, gid, channel, startIso, endIso, scale));
  }

  lemma PyDeviceNameOfRaw(folder: string, gid: int, channel: string,
                          startIso: string, endIso: string, scale: string)
    requires '_' !in folder && '_' !in channel && '_' !in scale
    requires '_' !in startIso && '_' !in endIso
    ensures |Split(RawFileName(folder, gid, channel, startIso, endIso, scale), '_')| == 5
    ensures PyDeviceName(RawFileName(folder, gid, channel, startIso, endIso, scale))
         == Some(DecimalString(gid) + "_" + channel)
  {
    RawFileNameSplits(folder, gid, channel, startIso, endIso, scale);
  }


  /** `json_filter` accepts a name exactly when `.json` ends it and occurs nowhere earlier. */
  lemma {:induction false} JsonFilterMeansOnlyTrailingJson(name: string)
    ensures JsonFilter(name) <==>
              EndsWith(name, ".json") && forall j :: 0 <= j < |name| - 5 ==> !OccursAt(name, ".json", j)
  {
    var r := Find(name, ".json", 0);
    if EndsWith(name, ".json") {
      assert OccursAt(name, ".json", |name| - 5);
    }
    if r.Some? && |name| - r.value == 5 {
      assert name[|name| - 5..] == name[r.value..r.value + 5];
    }
  }

  lemma JsonFilterExamples()
    ensures JsonFilter("a.json")
    ensures !JsonFilter("a.json.json")
    ensures !JsonFilter("a.jsonl")
  {
    JsonFilterMeansOnlyTrailingJson("a.json");
    assert "a.json"[1..6] == ".json";
    JsonFilterMeansOnlyTrailingJson("a.json.json");
    assert OccursAt("a.json.json", ".json", 1);
    JsonFilterMeansOnlyTrailingJson("a.jsonl");
    assert "a.jsonl"[2..] != ".json";
  }

  lemma {:induction false} OnlyTrailingJson(stem: string)
    requires '.' !in stem
    ensures forall j :: 0 <= j < |stem| ==> !OccursAt(stem + ".json", ".json", j)
  {
    forall j | 0 <= j < |stem|
      ensures !OccursAt(stem + ".json", ".json", j)
    {
      assert (stem + ".json")[j] == stem[j];
    }
  }

  /** Every loader's filter accepts a base name the downloader produced when
      nothing before the extension holds a `.`: the C `json_filter`, the
      Python `*.json` glob, and for the minute scale the `*1MIN.json` glob. */
  lemma {:induction false} RawFileNamePassesFilters(gid: int, channel: string,
                                                    startIso: string, endIso: string, scale: string)
    requires '.' !in channel && '.' !in scale && '.' !in startIso && '.' !in endIso
    ensures var base := RawFileName("", gid, channel, startIso, endIso, scale);
            && JsonFilter(base)
            && GlobSuffix(base, ".json")
            && (scale == "1MIN" ==> GlobSuffix(base, "1MIN.json"))
  {
    var stem := RawStem(gid, channel, startIso, endIso, scale);
    RawFileNameIsStem(gid, channel, startIso, endIso, scale);
    RawStemStartsWithV(gid, channel, startIso, endIso, scale);
    RawStemHasNoDot(gid, channel, startIso, endIso, scale);
    StemPassesFilters(stem);
    if scale == "1MIN" {
      MinuteStemPassesGlob(RawStemPrefix(gid, channel, startIso, endIso));
    }
  }

  /** A stem without `.` and not starting with one, followed by `.json`, passes `json_filter` and the `*.json` glob. */
  lemma StemPassesFilters(stem: string)
    requires '.' !in stem && |stem| > 0 && stem[0] == 'v'
    ensures JsonFilter(stem + ".json") && GlobSuffix(stem + ".json", ".json")
  {
    SuffixOfConcat(stem, ".json");
    OnlyTrailingJson(stem);
    JsonFilterMeansOnlyTrailingJson(stem + ".json");
  }

  lemma MinuteStemPassesGlob(prefix: string)
    requires |prefix| > 0 && prefix[0] == 'v'
    ensures GlobSuffix(prefix + "1MIN" + ".json", "1MIN.json")
  {
    assert prefix + "1MIN" + ".json" == prefix + "1MIN.json";
    SuffixOfConcat(prefix, "1MIN.json");
  }

  lemma RawFileNameIsStem(gid: int, channel: string, startIso: string, endIso: string, scale: string)
    ensures RawFileName("", gid, channel, startIso, endIso, scale) == RawStem(gid, channel, startIso, endIso, scale) + ".json"
  {
    assert "" + "vue_" == "vue_";
  }

  lemma RawStemStartsWithV(gid: int, channel: string, startIso: string, endIso: string, scale: string)
    ensures |RawStemPrefix(gid, channel, startIso, endIso)| > 0 && RawStemPrefix(gid, channel, startIso, endIso)[0] == 'v'
    ensures |RawStem(gid, channel, startIso, endIso, scale)| > 0 && RawStem(gid, channel, startIso, endIso, scale)[0] == 'v'
  {
    var prefix := RawStemPrefix(gid, channel, startIso, endIso);
    StartsWithV("vue_", prefix[|"vue_"|..]);
    assert prefix == "vue_" + prefix[|"vue_"|..];
    StartsWithV(prefix, scale);
  }

  lemma StartsWithV(a: string, b: string)
    requires |a| > 0 && a[0] == 'v'
    ensures |a + b| > 0 && (a + b)[0] == 'v'
  {
  }

  /** A raw file name up to its scale. */
  function RawStemPrefix(gid: int, channel: string, startIso: string, endIso: string): string
  {
    "vue_" + DecimalString(gid) + "_" + channel + "_" + Zulu(startIso) + "-" + Zulu(endIso) + "_"
  }

  /** A raw file name without its `.json` extension. */
  function RawStem(gid: int, channel: string, startIso: string, endIso: string, scale: string): string
  {
    RawStemPrefix(gid, channel, startIso, endIso) + scale
  }

  lemma RawStemHasNoDot(gid: int, channel: string, startIso: string, endIso: string, scale: string)
    requires '.' !in channel && '.' !in scale && '.' !in startIso && '.' !in endIso
    ensures '.' !in RawStem(gid, channel, startIso, endIso, scale)
  {
  }

  lemma SuffixOfConcat(a: string, b: string)
    ensures EndsWith(a + b, b)
  {
    assert (a + b)[|a + b| - |b|..] == b;
  }
}

=== FILE: influx.dfy ===
/** The InfluxDB loader: for each `*.json` file in the data folder, one
    point per emit-on-change reading, tagged with the device id and channel
    read from the file name, then the file is moved into a dated archive
    folder. There is no transaction: points written before a crash stay. */
module Influx {
  import opened Base
  import opened Civil
  import opened Text
  import opened FileNames
  import opened Series

  const MeasurementPrefix: string := "kWh_"

  datatype Point<V> = Point(measurement: string, deviceGid: string, channel: string, at: Time, usage: V)

  /** The clock step for a scale: only `1MIN` and `1S` advance it. */
  function TickOf(scale: string): Tick
  {
    if scale == "1MIN" then PerMinute
    else if scale == "1S" then PerSecond
    else Frozen
  }

  /** `os.path.join(folder, name)` for a name without a leading `/`. */
  function JoinPath(folder: string, name: string): string
  {
    if |folder| == 0 || folder[|folder| - 1] == '/' then folder + name else folder + "/" + name
  }

  function PointsOf<V>(measurement: string, gid: string, channel: string, rs: seq<Reading<V>>): seq<Point<V>>
  {
    seq(|rs|, i requires 0 <= i < |rs| => Point(measurement, gid, channel, rs[i].at, rs[i].value))
  }

  /** The points one file yields, or None where the loader raises: a name
      with fewer than five `_`-fields, a file that is not JSON, or a
      missing `firstUsageInstant` or `usageList`. `zero` is the seed
      `0.0` the change test starts from. */
  function FilePoints<V(==)>(path: string, doc: UsageDoc<V>, zero: V): Option<seq<Point<V>>>
  {
    match (DeviceGidFromFileName(path), ChannelFromFileName(path), ScaleFromFileName(path))
    case (Some(gid), Some(channel), Some(scale)) =>
      if doc.Unparsable? || doc.first.None? || doc.usage.None? then None
      else
        Some(PointsOf(MeasurementPrefix + scale, gid, channel,
                      EmitOnChange(doc.first.value, TickOf(scale), doc.usage.value, zero)))
    case _ => None
  }

  // ---------------------------------------------------------------------
  // The bucket: a point is identified by measurement, tags and time; a
  // second write with the same identity replaces the field value.
  // ---------------------------------------------------------------------

  datatype SeriesKey = SeriesKey(measurement: string, deviceGid: string, channel: string, at: Time)

  type Bucket<V> = map<SeriesKey, V>

  function KeyOfPoint<V>(p: Point<V>): SeriesKey
  {
    SeriesKey(p.measurement, p.deviceGid, p.channel, p.at)
  }

  function WriteAll<V>(b: Bucket<V>, ps: seq<Point<V>>): Bucket<V>
    decreases |ps|
  {
    if |ps| == 0 then b else WriteAll(b[KeyOfPoint(ps[0]) := ps[0].usage], ps[1..])
  }

  /** The bucket the points alone build. */
  function Written<V>(ps: seq<Point<V>>): Bucket<V>
  {
    WriteAll(map[], ps)
  }

  /** Writing a batch overrides the bucket with the batch's last value per key. */
  lemma {:induction false} WriteAllIsOverride<V>(b: Bucket<V>, ps: seq<Point<V>>)
    ensures WriteAll(b, ps) == b + Written(ps)
    decreases |ps|
  {
    if |ps| > 0 {
      var k, v := KeyOfPoint(ps[0]), ps[0].usage;
      WriteAllIsOverride(b[k := v], ps[1..]);
      WriteAllIsOverride(map[k := v], ps[1..]);
      assert (map[][k := v]) == map[k := v];
      assert b[k := v] + Written(ps[1..]) == b + (map[k := v] + Written(ps[1..]));
    }
  }

  lemma {:induction false} WriteAllAppend<V>(b: Bucket<V>, ps: seq<Point<V>>, qs: seq<Point<V>>)
    ensures WriteAll(b, ps + qs) == WriteAll(WriteAll(b, ps), qs)
    decreases |ps|
  {
    if |ps| > 0 {
      assert (ps + qs)[1..] == ps[1..] + qs;
      WriteAllAppend(b[KeyOfPoint(ps[0]) := ps[0].usage], ps[1..], qs);
    } else {
      assert ps + qs == qs;
    }
  }

  /** Writing the same points twice leaves the bucket as one write did. */
  lemma WriteAllIdempotent<V>(b: Bucket<V>, ps: seq<Point<V>>)
    ensures WriteAll(WriteAll(b, ps), ps) == WriteAll(b, ps)
  {
    WriteAllIsOverride(b, ps);
    WriteAllIsOverride(b + Written(ps), ps);
    assert (b + Written(ps)) + Written(ps) == b + Written(ps);
  }

  // ---------------------------------------------------------------------
  // main
  // ---------------------------------------------------------------------

  datatype InfluxFile<V> = InfluxFile(path: string, doc: UsageDoc<V>)

  /** A file moved to `archive/<year>-<month>-<day>/`, the date being that of its first instant. */
  datatype Moved = Moved(path: string, year: int, month: int, day: int)

  datatype RunOutcome<V> = RunOutcome(bucket: Bucket<V>, moved: seq<Moved>, crashed: bool)

  /** `m` is file `f` moved to the archive folder of its first instant's date. */
  predicate Archived<V>(m: Moved, f: InfluxFile<V>)
  {
    f.doc.Parsed? && f.doc.first.Some?
    && m == Moved(f.path, f.doc.first.value.year, f.doc.first.value.month, f.doc.first.value.day)
  }

  function MovedOf<V>(f: InfluxFile<V>): Moved
    requires f.doc.Parsed? && f.doc.first.Some?
  {
    var t := f.doc.first.value;
    Moved(f.path, t.year, t.month, t.day)
  }

  /** The files `glob` returns, in the order given. */
  function Globbed<V>(folder: string, listing: seq<InfluxFile<V>>): seq<InfluxFile<V>>
    decreases |listing|
  {
    if |listing| == 0 then []
    else
      (if GlobSuffix(listing[0].path, ".json") then [InfluxFile(JoinPath(folder, listing[0].path), listing[0].doc)] else [])
        + Globbed(folder, listing[1..])
  }

  /** The loop over the globbed files: a raising file ends the process with
      the earlier files' points written and those files moved. */
  function Run<V(==)>(b: Bucket<V>, files: seq<InfluxFile<V>>, zero: V): RunOutcome<V>
    decreases |files|
  {
    if |files| == 0 then RunOutcome(b, [], false)
    else
      match FilePoints(files[0].path, files[0].doc, zero)
      case None => RunOutcome(b, [], true)
      case Some(ps) =>
        var rest := Run(WriteAll(b, ps), files[1..], zero);
        RunOutcome(rest.bucket, [MovedOf(files[0])] + rest.moved, rest.crashed)
  }

  /** The points of the files a run gets through, in order. */
  function AllPoints<V(==)>(files: seq<InfluxFile<V>>, zero: V): seq<Point<V>>
    decreases |files|
  {
    if |files| == 0 then []
    else
      match FilePoints(files[0].path, files[0].doc, zero)
      case None => []
      case Some(ps) => ps + AllPoints(files[1..], zero)
  }

  // ---------------------------------------------------------------------
  // Properties
  // ---------------------------------------------------------------------

  /** A file yields points exactly when its name has five fields and the
      JSON has both keys; then every point carries the file's tags and the
      `kWh_<scale>` measurement, and the points are the changed entries,
      each stamped `first + k * step`. */
  lemma FilePointsContents<V>(path: string, doc: UsageDoc<V>, zero: V)
    ensures FilePoints(path, doc, zero).Some?
        <==> |Split(path, '_')| >= 5 && doc.Parsed? && doc.first.Some? && doc.usage.Some?
    ensures FilePoints(path, doc, zero).Some? ==>
              var ps := FilePoints(path, doc, zero).value;
              var usage := doc.usage.value;
              var scale := ScaleFromFileName(path).value;
              var idx := ChangedFrom(usage, 0, zero);
              && |ps| == |idx|
              && forall j :: 0 <= j < |ps| ==>
                   && ps[j].measurement == MeasurementPrefix + scale
                   && Some(ps[j].deviceGid) == DeviceGidFromFileName(path)
                   && Some(ps[j].channel) == ChannelFromFileName(path)
                   && Changed(usage, idx[j], zero)
                   && Some(ps[j].usage) == usage[idx[j]]
                   && EpochMicros(ps[j].at) == EpochMicros(doc.first.value) + idx[j] * StepMicros(TickOf(scale))
  {
    if FilePoints(path, doc, zero).Some? {
      var first, usage := doc.first.value, doc.usage.value;
      var scale := ScaleFromFileName(path).value;
      var idx := ChangedFrom(usage, 0, zero);
      EmitOnChangeIsIndexed(first, TickOf(scale), usage, zero);
      var ps := FilePoints(path, doc, zero).value;
      forall j | 0 <= j < |ps|
        ensures EpochMicros(ps[j].at) == EpochMicros(first) + idx[j] * StepMicros(TickOf(scale))
      {
        StampEpoch(first, TickOf(scale), idx[j]);
      }
    }
  }

  /** A file writes no more points than it has non-null entries, and no two
      consecutive points of a file carry the same value. */
  lemma FilePointsSparse<V>(path: string, doc: UsageDoc<V>, zero: V)
    requires FilePoints(path, doc, zero).Some?
    ensures var ps := FilePoints(path, doc, zero).value;
            && |ps| <= |PresentFrom(doc.usage.value, 0)|
            && (|ps| > 0 ==> ps[0].usage != zero)
            && forall j :: 0 < j < |ps| ==> ps[j].usage != ps[j - 1].usage
  {
    var scale := ScaleFromFileName(path).value;
    EmitOnChangeIsIndexed(doc.first.value, TickOf(scale), doc.usage.value, zero);
    ChangedNoMoreThanPresent(doc.usage.value, 0, zero);
    OnChangeNoConsecutiveRepeats(doc.first.value, TickOf(scale), doc.usage.value, zero);
  }

  /** For a scale other than `1MIN` and `1S` the clock never moves: every
      point of the file lands on the first instant, and in the bucket each
      write replaces the previous one. */
  lemma OtherScalesCollapse<V>(path: string, doc: UsageDoc<V>, zero: V)
    requires FilePoints(path, doc, zero).Some?
    requires ScaleFromFileName(path).value != "1MIN" && ScaleFromFileName(path).value != "1S"
    ensures forall p :: p in FilePoints(path, doc, zero).value ==> p.at == doc.first.value
  {
    var usage := doc.usage.value;
    var ps := FilePoints(path, doc, zero).value;
    var idx := ChangedFrom(usage, 0, zero);
    EmitOnChangeIsIndexed(doc.first.value, Frozen, usage, zero);
    forall p | p in ps ensures p.at == doc.first.value
    {
      var j :| 0 <= j < |ps| && ps[j] == p;
      FrozenStamp(doc.first.value, idx[j]);
    }
  }

  /** File `f` wrote its points and was then moved to its archive folder as `m`. */
  predicate Handled<V(==)>(f: InfluxFile<V>, m: Moved, zero: V)
  {
    FilePoints(f.path, f.doc, zero).Some? && Archived(m, f)
  }

  /** The bucket after a run holds what the files it got through wrote, and
      the moved files are exactly those files; a crash leaves the rest in
      place. */
  lemma RunWrites<V>(b: Bucket<V>, files: seq<InfluxFile<V>>, zero: V)
    ensures Run(b, files, zero).bucket == WriteAll(b, AllPoints(files, zero))
    ensures |Run(b, files, zero).moved| <= |files|
    ensures forall j :: 0 <= j < |Run(b, files, zero).moved| ==> Handled(files[j], Run(b, files, zero).moved[j], zero)
    ensures Run(b, files, zero).crashed <==> |Run(b, files, zero).moved| < |files|
  {
    RunBucket(b, files, zero);
    RunMoves(b, files, zero);
  }

  lemma {:induction false} RunBucket<V>(b: Bucket<V>, files: seq<InfluxFile<V>>, zero: V)
    ensures Run(b, files, zero).bucket == WriteAll(b, AllPoints(files, zero))
    decreases |files|
  {
    if |files| > 0 {
      match FilePoints(files[0].path, files[0].doc, zero)
      case None =>
      case Some(ps) =>
        RunBucket(WriteAll(b, ps), files[1..], zero);
        WriteAllAppend(b, ps, AllPoints(files[1..], zero));
    }
  }

  /** Outcome `o` moved a prefix of `files`, each after writing it, and
      crashed exactly when it stopped short. */
  predicate MovedPrefix<V(==)>(o: RunOutcome<V>, files: seq<InfluxFile<V>>, zero: V)
  {
    && |o.moved| <= |files|
    && (forall j :: 0 <= j < |o.moved| ==> Handled(files[j], o.moved[j], zero))
    && (o.crashed <==> |o.moved| < |files|)
  }

  lemma {:induction false} RunMoves<V>(b: Bucket<V>, files: seq<InfluxFile<V>>, zero: V)
    ensures MovedPrefix(Run(b, files, zero), files, zero)
    decreases |files|
  {
    if |files| > 0 && FilePoints(files[0].path, files[0].doc, zero).Some? {
      var ps := FilePoints(files[0].path, files[0].doc, zero).value;
      RunMoves(WriteAll(b, ps), files[1..], zero);
      RunMovesStep(b, files, zero);
    }
  }

  lemma RunMovesStep<V>(b: Bucket<V>, files: seq<InfluxFile<V>>, zero: V)
    requires |files| > 0 && FilePoints(files[0].path, files[0].doc, zero).Some?
    requires MovedPrefix(Run(WriteAll(b, FilePoints(files[0].path, files[0].doc, zero).value), files[1..], zero), files[1..], zero)
    ensures MovedPrefix(Run(b, files, zero), files, zero)
  {
    var rest := Run(WriteAll(b, FilePoints(files[0].path, files[0].doc, zero).value), files[1..], zero);
    var moved := Run(b, files, zero).moved;
    assert moved == [MovedOf(files[0])] + rest.moved;
    assert Handled(files[0], moved[0], zero);
    forall j | 0 < j < |moved| ensures Handled(files[j], moved[j], zero)
    {
      assert moved[j] == rest.moved[j - 1] && files[j] == files[1..][j - 1];
    }
  }

  /** `main`: the globbed `*.json` files of the folder, run in listing order. */
  function Main<V(==)>(b: Bucket<V>, folder: string, listing: seq<InfluxFile<V>>, zero: V): RunOutcome<V>
  {
    Run(b, Globbed(folder, listing), zero)
  }

  /** What `main` does to a folder: the bucket gets the points of the
      `*.json` files it gets through, each moved file is a `*.json` entry of
      the listing under the folder, archived by its first instant's date,
      and the process crashes exactly when a globbed file is left in place. */
  lemma MainWrites<V>(b: Bucket<V>, folder: string, listing: seq<InfluxFile<V>>, zero: V)
    ensures Main(b, folder, listing, zero).bucket == WriteAll(b, AllPoints(Globbed(folder, listing), zero))
    ensures forall m :: m in Main(b, folder, listing, zero).moved ==>
              exists e :: e in listing && GlobSuffix(e.path, ".json")
                          && Archived(m, InfluxFile(JoinPath(folder, e.path), e.doc))
    ensures Main(b, folder, listing, zero).crashed
            <==> |Main(b, folder, listing, zero).moved| < |Globbed(folder, listing)|
  {
    var files := Globbed(folder, listing);
    var o := Run(b, files, zero);
    RunWrites(b, files, zero);
    GlobbedKeepsJson(folder, listing);
    forall m | m in o.moved
      ensures exists e :: e in listing && GlobSuffix(e.path, ".json")
                          && Archived(m, InfluxFile(JoinPath(folder, e.path), e.doc))
    {
      var j :| 0 <= j < |o.moved| && o.moved[j] == m;
      assert Handled(files[j], o.moved[j], zero);
      assert files[j] in Globbed(folder, listing);
      var e :| e in listing && GlobSuffix(e.path, ".json") && files[j] == InfluxFile(JoinPath(folder, e.path), e.doc);
      assert Archived(m, InfluxFile(JoinPath(folder, e.path), e.doc));
    }
  }

  /** Running the loader again over the same files, when the first run did
      not crash, leaves the bucket as it was: every write repeats a point
      already there. */
  lemma RunIdempotent<V>(b: Bucket<V>, files: seq<InfluxFile<V>>, zero: V)
    ensures Run(Run(b, files, zero).bucket, files, zero).bucket == Run(b, files, zero).bucket
  {
    RunWrites(b, files, zero);
    RunWrites(Run(b, files, zero).bucket, files, zero);
    WriteAllIdempotent(b, AllPoints(files, zero));
  }

  /** The glob keeps only names ending in `.json`, joined onto the folder. */
  lemma {:induction false} GlobbedKeepsJson<V>(folder: string, listing: seq<InfluxFile<V>>)
    ensures |Globbed(folder, listing)| <= |listing|
    ensures forall f :: f in Globbed(folder, listing) <==>
              exists e :: e in listing && GlobSuffix(e.path, ".json") && f == InfluxFile(JoinPath(folder, e.path), e.doc)
    decreases |listing|
  {
    if |listing| > 0 {
      GlobbedKeepsJson(folder, listing[1..]);
      assert listing == [listing[0]] + listing[1..];
    }
  }

  /** A file the downloader named, in a data folder without `_`, gives back
      its own device id, channel and scale as the point tags. */
  lemma {:induction false} PointTagsOfRawFile<V>(folder: string, gid: int, channel: string,
                                                     startIso: string, endIso: string, scale: string,
                                                     doc: UsageDoc<V>, zero: V)
    requires '_' !in folder && '_' !in channel && '_' !in scale && '.' !in scale
    requires '_' !in startIso && '_' !in endIso
    requires doc.Parsed? && doc.first.Some? && doc.usage.Some?
    ensures var path := RawFileName(folder, gid, channel, startIso, endIso, scale);
            && FilePoints(path, doc, zero).Some?
            && forall p :: p in FilePoints(path, doc, zero).value ==>
                 p == Point(MeasurementPrefix + scale, DecimalString(gid), channel, p.at, p.usage)
  {
    ParsersRecoverFields(folder, gid, channel, startIso, endIso, scale);
  }
}

=== FILE: ingest_c.dfy ===
/** The C SQLite loader: `scandir` with the `.json` filter and `alphasort`,
    then every file's non-null entries inserted with a plain `insert` into
    the `readings` table, all inside one transaction committed at the end. */
module IngestC {
  import opened Base
  import opened Civil
  import opened Text
  import opened FileNames
  import opened Series
  import opened Store
  import IngestPy

  /** The directory the loader scans; its path holds no `_`. */
  const IngestDir: string := "/var/lib/vuedl/"

  datatype DirEntry<V> = DirEntry(name: string, doc: UsageDoc<V>)

  // ---------------------------------------------------------------------
  // scandir(dir, &files, json_filter, alphasort)
  // ---------------------------------------------------------------------

  /** `strcmp(a, b) <= 0` in the C locale: character-by-character order,
      a proper prefix first. */
  predicate NameLeq(a: string, b: string)
    decreases |a|
  {
    |a| == 0 || (|b| > 0 && (a[0] < b[0] || (a[0] == b[0] && NameLeq(a[1..], b[1..]))))
  }

  lemma {:induction false} NameLeqTotal(a: string, b: string)
    ensures NameLeq(a, b) || NameLeq(b, a)
    decreases |a|
  {
    if |a| > 0 && |b| > 0 && a[0] == b[0] {
      NameLeqTotal(a[1..], b[1..]);
    }
  }

  predicate SortedByName<V>(es: seq<DirEntry<V>>)
  {
    forall i :: 0 < i < |es| ==> NameLeq(es[i - 1].name, es[i].name)
  }

  function InsertByName<V>(e: DirEntry<V>, es: seq<DirEntry<V>>): (r: seq<DirEntry<V>>)
    requires SortedByName(es)
    ensures SortedByName(r)
    ensures multiset(r) == multiset(es) + multiset{e}
    ensures r[0] == e || (|es| > 0 && r[0] == es[0])
    decreases |es|
  {
    if |es| == 0 then [e]
    else if NameLeq(e.name, es[0].name) then [e] + es
    else
      NameLeqTotal(e.name, es[0].name);
      var rest := InsertByName(e, es[1..]);
      assert es == [es[0]] + es[1..];
      [es[0]] + rest
  }

  /** `alphasort`: the entries in ascending name order. */
  function SortByName<V>(es: seq<DirEntry<V>>): (r: seq<DirEntry<V>>)
    ensures SortedByName(r)
    ensures multiset(r) == multiset(es)
    decreases |es|
  {
    if |es| == 0 then []
    else
      assert es == [es[0]] + es[1..];
      InsertByName(es[0], SortByName(es[1..]))
  }

  /** The entries `json_filter` keeps, in listing order. */
  function JsonEntries<V>(es: seq<DirEntry<V>>): (r: seq<DirEntry<V>>)
    ensures forall i :: 0 <= i < |r| ==> r[i] in es && JsonFilter(r[i].name)
    ensures forall i :: 0 <= i < |es| && JsonFilter(es[i].name) ==> es[i] in r
    decreases |es|
  {
    if |es| == 0 then []
    else (if JsonFilter(es[0].name) then [es[0]] else []) + JsonEntries(es[1..])
  }

  function Scan<V>(listing: seq<DirEntry<V>>): seq<DirEntry<V>>
  {
    SortByName(JsonEntries(listing))
  }

  /** The entries processed are exactly the directory's `.json` entries, in ascending name order. */
  lemma ScanOrder<V>(listing: seq<DirEntry<V>>)
    ensures SortedByName(Scan(listing))
    ensures forall e :: e in Scan(listing) <==> e in listing && JsonFilter(e.name)
  {
    var f := JsonEntries(listing);
    assert forall e :: e in Scan(listing) <==> e in multiset(Scan(listing));
    assert multiset(Scan(listing)) == multiset(f);
  }

  // ---------------------------------------------------------------------
  // ingest_file and the transaction in main
  // ---------------------------------------------------------------------

  /** Why the process stops. `NameOverflow` is a device name too long for the
      64-byte buffer: C overruns the buffer there, and the model stops. */
  datatype Failure = BadFileName | BadJson | DuplicateReading | NameOverflow

  datatype Step<V> = Ok(table: Table<V>) | Fail(file: string, why: Failure)

  /** `ingest_file`: the device name from the full path, then the JSON; a
      missing `firstUsageInstant` or `usageList` inserts nothing. */
  function IngestFile<V>(t: Table<V>, path: string, doc: UsageDoc<V>): Step<V>
  {
    match CDeviceName(path)
    case None => Fail(path, BadFileName)
    case Some(device) =>
      if !FitsDeviceBuffer(device) then Fail(path, NameOverflow)
      else
        match doc
        case Unparsable => Fail(path, BadJson)
        case Parsed(first, usage) =>
          if first.None? || usage.None? then Ok(t)
          else
            match InsertAllStrict(t, device, EmitAll(first.value, PerMinute, usage.value))
            case None => Fail(path, DuplicateReading)
            case Some(t1) => Ok(t1)
  }

  function IngestAll<V>(t: Table<V>, files: seq<DirEntry<V>>): Step<V>
    decreases |files|
  {
    if |files| == 0 then Ok(t)
    else
      match IngestFile(t, IngestDir + files[0].name, files[0].doc)
      case Fail(p, why) => Fail(p, why)
      case Ok(t1) => IngestAll(t1, files[1..])
  }

  datatype Status = Committed | Stopped(file: string, why: Failure)

  datatype RunResult<V> = RunResult(table: Table<V>, status: Status)

  /** `main`: every `exit` happens inside the open transaction, before
      `commit`, so the database keeps none of that run's rows. */
  function Main<V>(db: Table<V>, listing: seq<DirEntry<V>>): RunResult<V>
  {
    match IngestAll(db, Scan(listing))
    case Fail(p, why) => RunResult(db, Stopped(p, why))
    case Ok(t) => RunResult(t, Committed)
  }

  /** The rows a file asks for: one per non-null entry when the device name
      is readable and both keys are present, none otherwise. */
  function NewKeys<V>(path: string, doc: UsageDoc<V>): set<Key>
  {
    if CDeviceName(path).Some? && doc.Parsed? && doc.first.Some? && doc.usage.Some?
    then IngestPy.FileKeys(CDeviceName(path).value, doc.first.value, doc.usage.value)
    else {}
  }

  /** A file `ingest_file` gets past the name and JSON checks. */
  predicate Readable<V>(path: string, doc: UsageDoc<V>)
  {
    CDeviceName(path).Some? && FitsDeviceBuffer(CDeviceName(path).value) && doc.Parsed?
  }

  /** A file's outcome: it stops the process exactly on a name with fewer
      than three `_` after the first field, a name too long for the buffer,
      unreadable JSON, or a reading whose key the table already holds;
      otherwise it adds exactly its keys, keeps every existing row, and
      stores each entry's value (a file missing a key adds nothing). */
  lemma {:induction false} IngestFileRows<V>(t: Table<V>, path: string, doc: UsageDoc<V>)
    ensures var s := IngestFile(t, path, doc);
            && (s == Fail(path, BadFileName) <==> CDeviceName(path).None?)
            && (s == Fail(path, NameOverflow) <==> CDeviceName(path).Some? && !FitsDeviceBuffer(CDeviceName(path).value))
            && (s == Fail(path, BadJson) <==> CDeviceName(path).Some? && FitsDeviceBuffer(CDeviceName(path).value) && doc.Unparsable?)
            && (s == Fail(path, DuplicateReading) <==> Readable(path, doc) && NewKeys(path, doc) * t.Keys != {})
            && (s.Ok? <==> Readable(path, doc) && NewKeys(path, doc) !! t.Keys)
    ensures var s := IngestFile(t, path, doc);
            s.Ok? ==>
              && s.table.Keys == t.Keys + NewKeys(path, doc)
              && (forall key :: key in t ==> s.table[key] == t[key])
              && (NewKeys(path, doc) == {} ==> s.table == t)
              && (doc.first.Some? && doc.usage.Some? ==>
                    forall k :: 0 <= k < |doc.usage.value| && doc.usage.value[k].Some?
                      ==> s.table[Key(Stamp(doc.first.value, PerMinute, k), CDeviceName(path).value)] == doc.usage.value[k].value)
  {
    FileOutcome(t, path, doc);
    if IngestFile(t, path, doc).Ok? {
      LoadedFileRows(t, path, doc);
    }
  }

  lemma FileOutcome<V>(t: Table<V>, path: string, doc: UsageDoc<V>)
    ensures var s := IngestFile(t, path, doc);
            && (s == Fail(path, BadFileName) <==> CDeviceName(path).None?)
            && (s == Fail(path, NameOverflow) <==> CDeviceName(path).Some? && !FitsDeviceBuffer(CDeviceName(path).value))
            && (s == Fail(path, BadJson) <==> CDeviceName(path).Some? && FitsDeviceBuffer(CDeviceName(path).value) && doc.Unparsable?)
            && (s == Fail(path, DuplicateReading) <==> Readable(path, doc) && NewKeys(path, doc) * t.Keys != {})
            && (s.Ok? <==> Readable(path, doc) && NewKeys(path, doc) !! t.Keys)
  {
    if Readable(path, doc) && doc.first.Some? && doc.usage.Some? {
      StrictInsertOfFile(t, path, doc);
    }
  }

  lemma LoadedFileRows<V>(t: Table<V>, path: string, doc: UsageDoc<V>)
    requires IngestFile(t, path, doc).Ok?
    ensures var s := IngestFile(t, path, doc);
            && s.table.Keys == t.Keys + NewKeys(path, doc)
            && (forall key :: key in t ==> s.table[key] == t[key])
            && (NewKeys(path, doc) == {} ==> s.table == t)
            && (doc.first.Some? && doc.usage.Some? ==>
                  forall k :: 0 <= k < |doc.usage.value| && doc.usage.value[k].Some?
                    ==> s.table[Key(Stamp(doc.first.value, PerMinute, k), CDeviceName(path).value)] == doc.usage.value[k].value)
  {
    var s := IngestFile(t, path, doc);
    if doc.first.Some? && doc.usage.Some? {
      StrictInsertOfFile(t, path, doc);
      CDeviceNameAgreesWithPython(path);
      IngestPy.IngestFileRows(t, path, doc);
      if NewKeys(path, doc) == {} {
        assert s.table.Keys == t.Keys;
        assert s.table == t;
      }
    }
  }

  /** The insert step of a readable file holding both keys: it succeeds
      exactly without a clash, and then stores what the Python loader stores. */
  lemma StrictInsertOfFile<V>(t: Table<V>, path: string, doc: UsageDoc<V>)
    requires Readable(path, doc) && doc.first.Some? && doc.usage.Some?
    ensures IngestFile(t, path, doc).Ok? <==> NewKeys(path, doc) !! t.Keys
    ensures IngestFile(t, path, doc).Ok? ==>
              IngestPy.IngestFile(t, path, doc) == Some(IngestFile(t, path, doc).table)
  {
    var device := CDeviceName(path).value;
    var rs := EmitAll(doc.first.value, PerMinute, doc.usage.value);
    MinuteReadingsDistinct(doc.first.value, doc.usage.value);
    IngestPy.EmitAllKeys(device, doc.first.value, doc.usage.value);
    InsertAllStrictSucceedsIffNoClash(t, device, rs);
    CDeviceNameAgreesWithPython(path);
  }

  lemma MinuteReadingsDistinct<V>(first: Time, usage: seq<Option<V>>)
    ensures DistinctTimes(EmitAll(first, PerMinute, usage))
  {
    var rs := EmitAll(first, PerMinute, usage);
    EmitAllTimesIncrease(first, PerMinute, usage);
    forall i, j | 0 <= i < j < |rs| ensures rs[i].at != rs[j].at {
      assert EpochMicros(rs[i].at) < EpochMicros(rs[j].at);
    }
  }

  /** The rows a pass over `files` asks for. */
  function AllNewKeys<V>(files: seq<DirEntry<V>>): set<Key>
    decreases |files|
  {
    if |files| == 0 then {} else NewKeys(IngestDir + files[0].name, files[0].doc) + AllNewKeys(files[1..])
  }

  function EntryKeys<V>(e: DirEntry<V>): set<Key>
  {
    NewKeys(IngestDir + e.name, e.doc)
  }

  /** Every file is readable, asks for no row `t` holds, and no two files
      ask for the same row. */
  predicate PassLoads<V>(t: Table<V>, files: seq<DirEntry<V>>)
  {
    EachLoads(t, files) && PairwiseApart(files)
  }

  predicate EachLoads<V>(t: Table<V>, files: seq<DirEntry<V>>)
  {
    forall i :: 0 <= i < |files| ==> Readable(IngestDir + files[i].name, files[i].doc) && EntryKeys(files[i]) !! t.Keys
  }

  predicate PairwiseApart<V>(files: seq<DirEntry<V>>)
  {
    forall i, j :: 0 <= i < j < |files| ==> EntryKeys(files[i]) !! EntryKeys(files[j])
  }

  /** No file of `files` asks for a row in `ks`. */
  predicate ApartFrom<V>(ks: set<Key>, files: seq<DirEntry<V>>)
  {
    forall j :: 0 <= j < |files| ==> ks !! EntryKeys(files[j])
  }

  /** A pass gets through every file exactly when each is readable, asks
      for no row the table holds, and no two ask for the same row; it then
      adds exactly the rows they ask for. */
  lemma {:induction false} IngestAllSucceedsIff<V>(t: Table<V>, files: seq<DirEntry<V>>)
    ensures IngestAll(t, files).Ok? <==> PassLoads(t, files)
    ensures IngestAll(t, files).Ok? ==> IngestAll(t, files).table.Keys == t.Keys + AllNewKeys(files)
    ensures IngestAll(t, files).Ok? ==>
              && KeepsRows(t, IngestAll(t, files).table)
              && forall i :: 0 <= i < |files| ==> StoresEntry(IngestAll(t, files).table, files[i])
  {
    IngestAllPasses(t, files);
    if IngestAll(t, files).Ok? {
      IngestAllRows(t, files);
    }
  }

  lemma {:induction false} IngestAllPasses<V>(t: Table<V>, files: seq<DirEntry<V>>)
    ensures IngestAll(t, files).Ok? <==> PassLoads(t, files)
    ensures IngestAll(t, files).Ok? ==> IngestAll(t, files).table.Keys == t.Keys + AllNewKeys(files)
    decreases |files|
  {
    if |files| > 0 {
      var f := files[0];
      FileOutcome(t, IngestDir + f.name, f.doc);
      var s := IngestFile(t, IngestDir + f.name, f.doc);
      if s.Ok? {
        LoadedFileRows(t, IngestDir + f.name, f.doc);
        IngestAllPasses(s.table, files[1..]);
        PassAfterFirstFile(t, s.table, files);
      }
    }
  }

  /** Table `u` holds, for each non-null entry of a file with a readable
      name and both keys, a row at that entry's stamp with its value. */
  ghost predicate StoresEntry<V>(u: Table<V>, e: DirEntry<V>)
  {
    var path := IngestDir + e.name;
    CDeviceName(path).Some? && e.doc.Parsed? && e.doc.first.Some? && e.doc.usage.Some? ==>
      forall k :: 0 <= k < |e.doc.usage.value| && e.doc.usage.value[k].Some? ==>
        var key := Key(Stamp(e.doc.first.value, PerMinute, k), CDeviceName(path).value);
        key in u && u[key] == e.doc.usage.value[k].value
  }

  /** A successful pass keeps every row it found and stores every entry of every file. */
  lemma {:induction false} IngestAllRows<V>(t: Table<V>, files: seq<DirEntry<V>>)
    requires IngestAll(t, files).Ok?
    ensures KeepsRows(t, IngestAll(t, files).table)
    ensures forall i :: 0 <= i < |files| ==> StoresEntry(IngestAll(t, files).table, files[i])
    decreases |files|
  {
    if |files| > 0 {
      var f := files[0];
      var t1 := IngestFile(t, IngestDir + f.name, f.doc).table;
      var u := IngestAll(t, files).table;
      assert u == IngestAll(t1, files[1..]).table;
      FirstFileStored(t, f);
      IngestAllRows(t1, files[1..]);
      StoresEntryKept(t1, u, f);
      forall i | 0 < i < |files| ensures StoresEntry(u, files[i]) {
        assert files[i] == files[1..][i - 1];
      }
    }
  }

  lemma FirstFileStored<V>(t: Table<V>, e: DirEntry<V>)
    requires IngestFile(t, IngestDir + e.name, e.doc).Ok?
    ensures KeepsRows(t, IngestFile(t, IngestDir + e.name, e.doc).table)
    ensures StoresEntry(IngestFile(t, IngestDir + e.name, e.doc).table, e)
  {
    var path := IngestDir + e.name;
    var u := IngestFile(t, path, e.doc).table;
    LoadedFileRows(t, path, e.doc);
    if CDeviceName(path).Some? && e.doc.Parsed? && e.doc.first.Some? && e.doc.usage.Some? {
      var first, usage := e.doc.first.value, e.doc.usage.value;
      forall k | 0 <= k < |usage| && usage[k].Some?
        ensures Key(Stamp(first, PerMinute, k), CDeviceName(path).value) in u
      {
        assert Key(Stamp(first, PerMinute, k), CDeviceName(path).value) in NewKeys(path, e.doc);
      }
    }
  }

  lemma StoresEntryKept<V>(t: Table<V>, u: Table<V>, e: DirEntry<V>)
    requires StoresEntry(t, e) && KeepsRows(t, u)
    ensures StoresEntry(u, e)
  {
  }

  /** The induction step above, once the first file has loaded into `t1`. */
  lemma PassAfterFirstFile<V>(t: Table<V>, t1: Table<V>, files: seq<DirEntry<V>>)
    requires |files| > 0
    requires Readable(IngestDir + files[0].name, files[0].doc) && EntryKeys(files[0]) !! t.Keys
    requires t1.Keys == t.Keys + EntryKeys(files[0])
    ensures PassLoads(t1, files[1..]) <==> PassLoads(t, files)
  {
    EachLoadsCons(t, files);
    EachLoadsGrow(t, t1, EntryKeys(files[0]), files[1..]);
    PairwiseApartCons(files);
  }

  lemma EachLoadsCons<V>(t: Table<V>, files: seq<DirEntry<V>>)
    requires |files| > 0
    ensures EachLoads(t, files)
        <==> (Readable(IngestDir + files[0].name, files[0].doc) && EntryKeys(files[0]) !! t.Keys) && EachLoads(t, files[1..])
  {
    assert forall i :: 0 < i < |files| ==> files[i] == files[1..][i - 1];
  }

  lemma EachLoadsGrow<V>(t: Table<V>, t1: Table<V>, ks: set<Key>, files: seq<DirEntry<V>>)
    requires t1.Keys == t.Keys + ks
    ensures EachLoads(t1, files) <==> EachLoads(t, files) && ApartFrom(ks, files)
  {
  }

  lemma PairwiseApartCons<V>(files: seq<DirEntry<V>>)
    requires |files| > 0
    ensures PairwiseApart(files) <==> ApartFrom(EntryKeys(files[0]), files[1..]) && PairwiseApart(files[1..])
  {
    assert forall i :: 0 < i < |files| ==> files[i] == files[1..][i - 1];
  }

  /** `main` commits exactly when every scanned file is readable, asks for
      no row the database holds, and no two files ask for the same row; the
      committed table then holds exactly the old rows and the files' rows.
      Any stop leaves the database as it was. */
  lemma MainAllOrNothing<V>(db: Table<V>, listing: seq<DirEntry<V>>)
    ensures Main(db, listing).status.Committed? <==> PassLoads(db, Scan(listing))
    ensures Main(db, listing).status.Committed? ==>
              Main(db, listing).table.Keys == db.Keys + AllNewKeys(Scan(listing))
    ensures Main(db, listing).status.Committed? ==>
              && KeepsRows(db, Main(db, listing).table)
              && forall i :: 0 <= i < |Scan(listing)| ==> StoresEntry(Main(db, listing).table, Scan(listing)[i])
    ensures Main(db, listing).status.Stopped? ==> Main(db, listing).table == db
  {
    IngestAllSucceedsIff(db, Scan(listing));
  }

  lemma {:induction false} IngestFileGrows<V>(t: Table<V>, path: string, doc: UsageDoc<V>)
    requires IngestFile(t, path, doc).Ok?
    ensures t.Keys <= IngestFile(t, path, doc).table.Keys
    ensures IngestFile(t, path, doc).table == t || t.Keys < IngestFile(t, path, doc).table.Keys
  {
    if doc.Parsed? && doc.first.Some? && doc.usage.Some? {
      var device := CDeviceName(path).value;
      var rs := EmitAll(doc.first.value, PerMinute, doc.usage.value);
      InsertAllStrictSucceedsIffNoClash(t, device, rs);
      InsertAllOrIgnoreKeepsRows(t, device, rs);
      var r := IngestFile(t, path, doc).table;
      if KeysOf(device, rs) == {} {
        assert r.Keys == t.Keys;
        assert r == t;
      }
    }
  }

  /** Where the plain insert succeeds, the C loader stores exactly what the
      Python loader stores for the same file and base name. */
  lemma {:induction false} LoadersAgreePerFile<V>(t: Table<V>, base: string, doc: UsageDoc<V>)
    requires IngestFile(t, IngestDir + base, doc).Ok?
    requires doc.Parsed? && doc.first.Some? && doc.usage.Some?
    ensures IngestPy.IngestFile(t, base, doc) == Some(IngestFile(t, IngestDir + base, doc).table)
  {
    var path := IngestDir + base;
    FileOutcome(t, path, doc);
    StrictInsertOfFile(t, path, doc);
    PyDeviceNameUnderIngestDir(base);
  }

  /** The scanned directory holds no `_`, so the Python parser reads the
      same device name from the full path as from the base name. */
  lemma PyDeviceNameUnderIngestDir(base: string)
    ensures PyDeviceName(IngestDir + base) == PyDeviceName(base)
  {
    assert '_' !in IngestDir by {
      forall i | 0 <= i < |IngestDir| ensures IngestDir[i] != '_' {
      }
    }
    SplitUnderPrefix(IngestDir, base, '_');
  }

  lemma {:induction false} IngestAllGrows<V>(t: Table<V>, files: seq<DirEntry<V>>)
    requires IngestAll(t, files).Ok?
    ensures t.Keys <= IngestAll(t, files).table.Keys
    decreases |files|
  {
    if |files| > 0 {
      IngestFileGrows(t, IngestDir + files[0].name, files[0].doc);
      IngestAllGrows(IngestFile(t, IngestDir + files[0].name, files[0].doc).table, files[1..]);
    }
  }

  lemma {:induction false} ReplayedFileStops<V>(t: Table<V>, w: Table<V>, path: string, doc: UsageDoc<V>)
    requires IngestFile(t, path, doc).Ok?
    requires IngestFile(t, path, doc).table.Keys <= w.Keys
    ensures IngestFile(t, path, doc).table == t ==> IngestFile(w, path, doc) == Ok(w)
    ensures IngestFile(t, path, doc).table != t ==> IngestFile(w, path, doc) == Fail(path, DuplicateReading)
  {
    if doc.Parsed? && doc.first.Some? && doc.usage.Some? {
      var device := CDeviceName(path).value;
      var rs := EmitAll(doc.first.value, PerMinute, doc.usage.value);
      InsertAllStrictSucceedsIffNoClash(t, device, rs);
      InsertAllOrIgnoreKeepsRows(t, device, rs);
      var r := IngestFile(t, path, doc).table;
      KeysOfEmpty(device, rs);
      if KeysOf(device, rs) == {} {
        assert r.Keys == t.Keys;
        assert r == t;
      } else {
        InsertAllStrictRefusesReplay(w, device, rs);
      }
    }
  }

  lemma {:induction false} ReplayStops<V>(t: Table<V>, w: Table<V>, files: seq<DirEntry<V>>)
    requires IngestAll(t, files).Ok?
    requires IngestAll(t, files).table != t
    requires IngestAll(t, files).table.Keys <= w.Keys
    ensures IngestAll(w, files).Fail? && IngestAll(w, files).why == DuplicateReading
    decreases |files|
  {
    var path := IngestDir + files[0].name;
    var t1 := IngestFile(t, path, files[0].doc).table;
    IngestAllGrows(t1, files[1..]);
    ReplayedFileStops(t, w, path, files[0].doc);
    if t1 == t {
      ReplayStops(t1, w, files[1..]);
    }
  }

  /** The plain insert makes the loader unrepeatable: once a run has
      committed any row, a second run over the same directory stops on a
      duplicate key and commits nothing. */
  lemma {:induction false} SecondRunStops<V>(db: Table<V>, listing: seq<DirEntry<V>>)
    requires Main(db, listing).status.Committed?
    requires Main(db, listing).table != db
    ensures var again := Main(Main(db, listing).table, listing);
            && again.status.Stopped? && again.status.why == DuplicateReading
            && again.table == Main(db, listing).table
  {
    ReplayStops(db, Main(db, listing).table, Scan(listing));
  }
}

=== FILE: ingest_py.dfy ===
/** The Python SQLite loader: every `*1MIN.json` file's non-null entries
    become rows keyed by (timestamp, `<gid>_<channel>`), written with
    `on conflict do nothing` and committed once at the end. */
module IngestPy {
  import opened Base
  import opened Civil
  import opened FileNames
  import opened Series
  import opened Store

  /** The loader's glob keeps only base names ending in this. */
  const MinuteSuffix: string := "1MIN.json"

  datatype PyFile<V> = PyFile(base: string, doc: UsageDoc<V>)

  /** The rows one file asks for: one per non-null entry `k`, at `first + k` minutes. */
  function FileKeys<V>(device: string, first: Time, usage: seq<Option<V>>): set<Key>
  {
    set k | 0 <= k < |usage| && usage[k].Some? :: Key(Stamp(first, PerMinute, k), device)
  }

  /** One file, as the body of the loader's loop handles it; None where the
      script raises (a base name with fewer than three fields, a file that
      is not JSON, a missing `firstUsageInstant` or `usageList`). */
  function IngestFile<V>(t: Table<V>, base: string, doc: UsageDoc<V>): Option<Table<V>>
  {
    match PyDeviceName(base)
    case None => None
    case Some(device) =>
      match doc
      case Unparsable => None
      case Parsed(first, usage) =>
        if first.None? || usage.None? then None
        else Some(InsertAllOrIgnore(t, device, EmitAll(first.value, PerMinute, usage.value)))
  }

  /** The loop over the glob's files, in the order given; None at the first raise. */
  function IngestAll<V>(t: Table<V>, files: seq<PyFile<V>>): Option<Table<V>>
    decreases |files|
  {
    if |files| == 0 then Some(t)
    else if !GlobSuffix(files[0].base, MinuteSuffix) then IngestAll(t, files[1..])
    else
      match IngestFile(t, files[0].base, files[0].doc)
      case None => None
      case Some(t1) => IngestAll(t1, files[1..])
  }

  /** The files the glob pattern matches, in order. */
  function MinuteFiles<V>(files: seq<PyFile<V>>): (r: seq<PyFile<V>>)
    ensures forall i :: 0 <= i < |r| ==> r[i] in files && GlobSuffix(r[i].base, MinuteSuffix)
    ensures forall i :: 0 <= i < |files| && GlobSuffix(files[i].base, MinuteSuffix) ==> files[i] in r
    decreases |files|
  {
    if |files| == 0 then []
    else (if GlobSuffix(files[0].base, MinuteSuffix) then [files[0]] else []) + MinuteFiles(files[1..])
  }

  /** Only the matching files reach the database: the loop over all names
      loads what the loop over the matching ones loads. */
  lemma {:induction false} IngestAllOnlyMinuteFiles<V>(t: Table<V>, files: seq<PyFile<V>>)
    ensures IngestAll(t, files) == IngestAll(t, MinuteFiles(files))
    decreases |files|
  {
    if |files| > 0 {
      var rest := MinuteFiles(files[1..]);
      if GlobSuffix(files[0].base, MinuteSuffix) {
        assert ([files[0]] + rest)[1..] == rest;
        match IngestFile(t, files[0].base, files[0].doc)
        case None =>
        case Some(t1) => IngestAllOnlyMinuteFiles(t1, files[1..]);
      } else {
        assert [] + rest == rest;
        IngestAllOnlyMinuteFiles(t, files[1..]);
      }
    }
  }

  datatype RunResult<V> = RunResult(table: Table<V>, committed: bool)

  /** `main`: the inserts reach the database only through the final
      `commit`; a raise before it leaves the database as it was. */
  function Main<V>(db: Table<V>, files: seq<PyFile<V>>): RunResult<V>
  {
    match IngestAll(db, files)
    case None => RunResult(db, false)
    case Some(t) => RunResult(t, true)
  }

  lemma {:induction false} EmitAllKeys<V>(device: string, first: Time, usage: seq<Option<V>>)
    ensures KeysOf(device, EmitAll(first, PerMinute, usage)) == FileKeys(device, first, usage)
  {
    var rs := EmitAll(first, PerMinute, usage);
    var idx := PresentFrom(usage, 0);
    EmitAllIsIndexed(first, PerMinute, usage);
    forall key | key in KeysOf(device, rs) ensures key in FileKeys(device, first, usage) {
      var j :| 0 <= j < |rs| && key == KeyOf(device, rs[j]);
      assert key == Key(Stamp(first, PerMinute, idx[j]), device);
    }
    forall key | key in FileKeys(device, first, usage) ensures key in KeysOf(device, rs) {
      var k :| 0 <= k < |usage| && usage[k].Some? && key == Key(Stamp(first, PerMinute, k), device);
      assert k in idx;
      var j :| 0 <= j < |idx| && idx[j] == k;
      assert key == KeyOf(device, rs[j]);
    }
  }

  /** A file's rows: the loader raises exactly when the name has fewer than
      three fields or the JSON lacks a key; otherwise it adds one row per
      non-null entry `k`, keyed `first + k` minutes and the file's device,
      leaves every existing row as it was (first write wins), and gives each
      new row its entry's value. */
  lemma {:induction false} IngestFileRows<V>(t: Table<V>, base: string, doc: UsageDoc<V>)
    ensures IngestFile(t, base, doc).None? <==>
              PyDeviceName(base).None? || doc.Unparsable? || doc.first.None? || doc.usage.None?
    ensures IngestFile(t, base, doc).Some? ==>
              var r := IngestFile(t, base, doc).value;
              var device := PyDeviceName(base).value;
              && r.Keys == t.Keys + FileKeys(device, doc.first.value, doc.usage.value)
              && (forall key :: key in t ==> r[key] == t[key])
              && (forall k :: 0 <= k < |doc.usage.value| && doc.usage.value[k].Some?
                    && Key(Stamp(doc.first.value, PerMinute, k), device) !in t
                    ==> r[Key(Stamp(doc.first.value, PerMinute, k), device)] == doc.usage.value[k].value)
  {
    if IngestFile(t, base, doc).Some? {
      var device := PyDeviceName(base).value;
      var first, usage := doc.first.value, doc.usage.value;
      var rs := EmitAll(first, PerMinute, usage);
      var r := InsertAllOrIgnore(t, device, rs);
      InsertAllOrIgnoreKeepsRows(t, device, rs);
      EmitAllKeys(device, first, usage);
      EmitAllIsIndexed(first, PerMinute, usage);
      EmitAllTimesIncrease(first, PerMinute, usage);
      var idx := PresentFrom(usage, 0);
      forall k | 0 <= k < |usage| && usage[k].Some? && Key(Stamp(first, PerMinute, k), device) !in t
        ensures r[Key(Stamp(first, PerMinute, k), device)] == usage[k].value
      {
        assert k in idx;
        var j :| 0 <= j < |idx| && idx[j] == k;
        assert rs[j] == Reading(Stamp(first, PerMinute, k), usage[k].value);
        forall i | 0 <= i < j ensures rs[i].at != rs[j].at {
          assert EpochMicros(rs[i].at) < EpochMicros(rs[j].at);
        }
        InsertAllOrIgnoreFirstWins(t, device, rs, j);
      }
    }
  }

  /** Loading the same file into the table it produced changes nothing. */
  lemma {:induction false} IngestFileIdempotent<V>(t: Table<V>, base: string, doc: UsageDoc<V>)
    requires IngestFile(t, base, doc).Some?
    ensures IngestFile(IngestFile(t, base, doc).value, base, doc) == IngestFile(t, base, doc)
  {
    var device := PyDeviceName(base).value;
    InsertAllOrIgnoreIdempotent(t, device, EmitAll(doc.first.value, PerMinute, doc.usage.value));
  }

  lemma {:induction false} IngestFileGrows<V>(t: Table<V>, base: string, doc: UsageDoc<V>)
    requires IngestFile(t, base, doc).Some?
    ensures t.Keys <= IngestFile(t, base, doc).value.Keys
  {
    InsertAllOrIgnoreKeepsRows(t, PyDeviceName(base).value, EmitAll(doc.first.value, PerMinute, doc.usage.value));
  }

  /** A table that already holds every row a file asks for is left as it is. */
  lemma {:induction false} IngestFileNoop<V>(t: Table<V>, w: Table<V>, base: string, doc: UsageDoc<V>)
    requires IngestFile(t, base, doc).Some?
    requires IngestFile(t, base, doc).value.Keys <= w.Keys
    ensures IngestFile(w, base, doc) == Some(w)
  {
    var device := PyDeviceName(base).value;
    var rs := EmitAll(doc.first.value, PerMinute, doc.usage.value);
    InsertAllOrIgnoreKeepsRows(t, device, rs);
    InsertAllOrIgnoreNoop(w, device, rs);
  }

  lemma {:induction false} IngestAllGrows<V>(t: Table<V>, files: seq<PyFile<V>>)
    requires IngestAll(t, files).Some?
    ensures t.Keys <= IngestAll(t, files).value.Keys
    decreases |files|
  {
    if |files| > 0 {
      if GlobSuffix(files[0].base, MinuteSuffix) {
        IngestFileGrows(t, files[0].base, files[0].doc);
        IngestAllGrows(IngestFile(t, files[0].base, files[0].doc).value, files[1..]);
      } else {
        IngestAllGrows(t, files[1..]);
      }
    }
  }

  lemma {:induction false} IngestAllReplay<V>(t: Table<V>, files: seq<PyFile<V>>)
    requires IngestAll(t, files).Some?
    ensures IngestAll(IngestAll(t, files).value, files) == IngestAll(t, files)
    decreases |files|
  {
    if |files| > 0 {
      var u := IngestAll(t, files).value;
      var f := files[0];
      if GlobSuffix(f.base, MinuteSuffix) {
        var t1 := IngestFile(t, f.base, f.doc).value;
        IngestAllGrows(t1, files[1..]);
        IngestFileNoop(t, u, f.base, f.doc);
        IngestAllReplay(t1, files[1..]);
      } else {
        IngestAllReplay(t, files[1..]);
      }
    }
  }

  /** Running the loader a second time over the same files leaves the
      database exactly as one run left it. */
  lemma {:induction false} MainIdempotent<V>(db: Table<V>, files: seq<PyFile<V>>)
    ensures Main(Main(db, files).table, files) == Main(db, files)
  {
    if IngestAll(db, files).Some? {
      IngestAllReplay(db, files);
    }
  }

  /** A file the loop body gets through: its base name has at least three
      `_`-separated fields, and it is JSON holding both keys. */
  predicate Loads<V>(f: PyFile<V>)
  {
    PyDeviceName(f.base).Some? && f.doc.Parsed? && f.doc.first.Some? && f.doc.usage.Some?
  }

  /** The loop gets through all files exactly when every file the glob
      matches loads; what the table already holds plays no part. */
  lemma {:induction false} IngestAllSucceedsIff<V>(t: Table<V>, files: seq<PyFile<V>>)
    ensures IngestAll(t, files).Some?
        <==> forall i :: 0 <= i < |files| && GlobSuffix(files[i].base, MinuteSuffix) ==> Loads(files[i])
    decreases |files|
  {
    if |files| > 0 {
      var f := files[0];
      LoadsMeans(t, f);
      if !GlobSuffix(f.base, MinuteSuffix) {
        IngestAllSucceedsIff(t, files[1..]);
        assert IngestAll(t, files) == IngestAll(t, files[1..]);
      } else if Loads(f) {
        var t1 := IngestFile(t, f.base, f.doc).value;
        IngestAllSucceedsIff(t1, files[1..]);
        assert IngestAll(t, files) == IngestAll(t1, files[1..]);
      } else {
        assert IngestAll(t, files).None?;
      }
      AllLoadCons(files);
    }
  }

  lemma LoadsMeans<V>(t: Table<V>, f: PyFile<V>)
    ensures IngestFile(t, f.base, f.doc).Some? <==> Loads(f)
  {
  }

  lemma AllLoadCons<V>(files: seq<PyFile<V>>)
    requires |files| > 0
    ensures (forall i :: 0 <= i < |files| && GlobSuffix(files[i].base, MinuteSuffix) ==> Loads(files[i]))
        <==> && (GlobSuffix(files[0].base, MinuteSuffix) ==> Loads(files[0]))
             && (forall i :: 0 <= i < |files[1..]| && GlobSuffix(files[1..][i].base, MinuteSuffix) ==> Loads(files[1..][i]))
  {
    assert forall i :: 0 < i < |files| ==> files[i] == files[1..][i - 1];
  }

  /** `main` commits exactly when every `*1MIN.json` file loads, and then
      keeps every row the database held; otherwise the database is as it was. */
  lemma MainAllOrNothing<V>(db: Table<V>, files: seq<PyFile<V>>)
    ensures Main(db, files).committed
        <==> forall i :: 0 <= i < |files| && GlobSuffix(files[i].base, MinuteSuffix) ==> Loads(files[i])
    ensures !Main(db, files).committed ==> Main(db, files).table == db
    ensures Main(db, files).committed ==> db.Keys <= Main(db, files).table.Keys
    ensures Main(db, files).committed ==> KeepsRows(db, Main(db, files).table)
  {
    IngestAllSucceedsIff(db, files);
    if IngestAll(db, files).Some? {
      IngestAllGrows(db, files);
      IngestAllKeepsRows(db, files);
    }
  }

  /** Across a whole run the first write wins: no row that was there changes. */
  lemma {:induction false} IngestAllKeepsRows<V>(t: Table<V>, files: seq<PyFile<V>>)
    requires IngestAll(t, files).Some?
    ensures KeepsRows(t, IngestAll(t, files).value)
    decreases |files|
  {
    if |files| > 0 {
      var f := files[0];
      if GlobSuffix(f.base, MinuteSuffix) {
        var t1 := IngestFile(t, f.base, f.doc).value;
        IngestFileRows(t, f.base, f.doc);
        IngestAllKeepsRows(t1, files[1..]);
        assert KeepsRows(t, t1);
      } else {
        IngestAllKeepsRows(t, files[1..]);
      }
    }
  }
}

=== FILE: run.dfy ===
/** One invocation of the downloader: plan the window, renew the token if
    needed, resolve the customer, list the devices, fetch every target, and
    record the window's end as the new watermark. The outside world (clock,
    authentication, API answers, `isoformat`) is a parameter; the run is the
    sequence of effects it has on it. */
module Downloader {
  import opened Base
  import opened Civil
  import opened FileNames
  import opened Window
  import opened Token
  import opened Devices
  import opened Fetch

  /** The only scale requested. */
  const Scale: string := "1MIN"

  /** The `[runtime]` section of the configuration file. An absent
      `last_run` is None, an empty `token_expiration` is None, and an absent
      `customer_gid` reads as 0. */
  datatype Runtime = Runtime(lastRun: Option<int>, token: string, tokenExpiry: Option<int>, customerGid: int)

  datatype Credential = Credential(token: string, expiry: int)

  /** What the outside world answers during one run. `now` is the first
      clock reading, `checkNow` the one taken at the token check; `auth`,
      `customer` and `devices` are None where the call raises. */
  datatype World = World(now: Time, checkNow: int,
                         auth: Option<Credential>, customer: Option<int>, devices: Option<seq<Device>>,
                         usage: Target -> nat -> Attempt, iso: int -> string)

  datatype Effect =
    | Authenticate
    | SaveConfig(runtime: Runtime)
    | Sleep(seconds: nat)
    | LookupCustomer(token: string)
    | ListDevices(token: string)
    | FetchUsage(target: Target, start: int, end: int, scale: string, token: string)
    | WriteFile(name: string, body: string)

  predicate IsApiCall(e: Effect)
  {
    e.LookupCustomer? || e.ListDevices? || e.FetchUsage?
  }

  /** How a run ends: normally, at the sub-minute guard (`sys.exit` with a
      message, status 1), or with an uncaught exception. */
  datatype Exit = Done | TooShort | Crashed

  /** `saved` is the runtime section as the configuration file holds it afterwards. */
  datatype Outcome = Outcome(effects: seq<Effect>, exit: Exit, saved: Runtime)

  /** A stage of the run: its effects, the runtime section after it, and
      whether it raised. */
  datatype Stage = Stage(effects: seq<Effect>, rt: Runtime, crashed: bool)

  /** Lines 142-152: the renewal check, and on renewal the exchange and the
      immediate save. */
  function Credentials(build: Build, rt: Runtime, w: World): Stage
  {
    match RenewalCheck(build, w.checkNow, rt.tokenExpiry)
    case None => Stage([], rt, true)
    case Some(false) => Stage([], rt, false)
    case Some(true) =>
      match w.auth
      case None => Stage([Authenticate], rt, true)
      case Some(c) =>
        var r := rt.(token := c.token, tokenExpiry := Some(c.expiry));
        Stage([Authenticate, SaveConfig(r)], r, false)
  }

  /** Lines 154-163: a pause, the customer lookup when none is known (saved
      at once), and another pause. */
  function Customer(rt: Runtime, w: World): Stage
  {
    if rt.customerGid != 0 then Stage([Sleep(CourtesyPause), Sleep(CourtesyPause)], rt, false)
    else
      match w.customer
      case None => Stage([Sleep(CourtesyPause), LookupCustomer(rt.token)], rt, true)
      case Some(g) =>
        var r := rt.(customerGid := g);
        Stage([Sleep(CourtesyPause), LookupCustomer(rt.token), SaveConfig(r), Sleep(CourtesyPause)], r, false)
  }

  /** The name every save for `t` writes to (line 175). */
  function FileNameOf(t: Target, folder: string, start: int, end: int, iso: int -> string): string
  {
    RawFileName(folder, t.deviceGid, t.channel, iso(start), iso(end), Scale)
  }

  function EffectOf(s: Step, t: Target, folder: string, start: int, end: int, tok: string, iso: int -> string): Effect
  {
    match s
    case Pause(n) => Sleep(n)
    case Request(_) => FetchUsage(t, start, end, Scale, tok)
    case Save(body) => WriteFile(FileNameOf(t, folder, start, end, iso), body)
  }

  function Lift(steps: seq<Step>, t: Target, folder: string, start: int, end: int, tok: string, iso: int -> string): (r: seq<Effect>)
    ensures |r| == |steps|
    ensures forall i :: 0 <= i < |steps| ==> r[i] == EffectOf(steps[i], t, folder, start, end, tok, iso)
  {
    seq(|steps|, i requires 0 <= i < |steps| => EffectOf(steps[i], t, folder, start, end, tok, iso))
  }

  datatype Fetched = Fetched(effects: seq<Effect>, raised: bool)

  /** Lines 165-185: every target in list order; a raise ends the run. */
  function DeviceLoop(build: Build, targets: seq<Target>, w: World, folder: string,
                      start: int, end: int, tok: string): Fetched
    decreases |targets|
  {
    if |targets| == 0 then Fetched([], false)
    else
      var f := FetchTarget(build, w.usage(targets[0]));
      var here := Lift(f.steps, targets[0], folder, start, end, tok, w.iso);
      if f.raised then Fetched(here, true)
      else
        var rest := DeviceLoop(build, targets[1..], w, folder, start, end, tok);
        Fetched(here + rest.effects, rest.raised)
  }

  /** `main`. */
  function Run(build: Build, rt: Runtime, w: World, folder: string): Outcome
  {
    var end := WindowEnd(w.now);
    var start := WindowStart(rt.lastRun, end);
    if Window.TooShort(build, start, end) then Outcome([], TooShort, rt)
    else
      var cred := Credentials(build, rt, w);
      if cred.crashed then Outcome(cred.effects, Crashed, cred.rt)
      else
        var cust := Customer(cred.rt, w);
        var pre := cred.effects + cust.effects;
        if cust.crashed then Outcome(pre, Crashed, cust.rt)
        else ListAndFetch(build, w, folder, start, end, pre, cust.rt)
  }

  /** The rest of `main` once the customer is known, after the effects `pre`
      and with the runtime section `rt`: list the devices, fetch every
      target, and save the advanced watermark. */
  function ListAndFetch(build: Build, w: World, folder: string, start: int, end: int,
                        pre: seq<Effect>, rt: Runtime): Outcome
  {
    var tok := rt.token;
    var listed := pre + [ListDevices(tok)];
    match w.devices
    case None => Outcome(listed, Crashed, rt)
    case Some(ds) =>
      var fetched := DeviceLoop(build, Flatten(ds), w, folder, start, end, tok);
      if fetched.raised then Outcome(listed + fetched.effects, Crashed, rt)
      else
        var last := rt.(lastRun := Some(end));
        Outcome(listed + fetched.effects + [SaveConfig(last)], Done, last)
  }

  // ---------------------------------------------------------------------
  // Reference definitions over effect traces
  // ---------------------------------------------------------------------

  /** The runtime section the file holds after `effects`, starting from `initial`: the last one saved. */
  function LastSaved(effects: seq<Effect>, initial: Runtime): Runtime
    decreases |effects|
  {
    if |effects| == 0 then initial
    else if effects[|effects| - 1].SaveConfig? then effects[|effects| - 1].runtime
    else LastSaved(effects[..|effects| - 1], initial)
  }

  predicate NoSave(effects: seq<Effect>)
  {
    forall i :: 0 <= i < |effects| ==> !effects[i].SaveConfig?
  }

  /** Every API call in `effects` carries `tok`. */
  predicate CallsUse(effects: seq<Effect>, tok: string)
  {
    forall i :: 0 <= i < |effects| && IsApiCall(effects[i]) ==> effects[i].token == tok
  }

  /** Every save in `effects` keeps the watermark `w`. */
  predicate SavesKeep(effects: seq<Effect>, w: Option<int>)
  {
    forall i :: 0 <= i < |effects| && effects[i].SaveConfig? ==> effects[i].runtime.lastRun == w
  }

  function CountFetches(effects: seq<Effect>): nat
    decreases |effects|
  {
    if |effects| == 0 then 0
    else (if effects[0].FetchUsage? then 1 else 0) + CountFetches(effects[1..])
  }

  /** The targets fetched in `effects` are in `targets` and the window is `start`..`end`. */
  predicate FetchesWithin(effects: seq<Effect>, targets: seq<Target>, start: int, end: int)
  {
    forall i :: 0 <= i < |effects| && effects[i].FetchUsage? ==>
      effects[i].target in targets && effects[i].start == start && effects[i].end == end
      && effects[i].scale == Scale
  }

  // ---------------------------------------------------------------------
  // Lemmas about the pieces
  // ---------------------------------------------------------------------

  lemma {:induction false} LastSavedAppend(a: seq<Effect>, b: seq<Effect>, initial: Runtime)
    ensures LastSaved(a + b, initial) == LastSaved(b, LastSaved(a, initial))
    decreases |b|
  {
    if |b| == 0 {
      assert a + b == a;
    } else {
      assert (a + b)[..|a + b| - 1] == a + b[..|b| - 1];
      LastSavedAppend(a, b[..|b| - 1], initial);
    }
  }

  lemma {:induction false} LastSavedNoSave(effects: seq<Effect>, initial: Runtime)
    requires NoSave(effects)
    ensures LastSaved(effects, initial) == initial
    decreases |effects|
  {
    if |effects| > 0 {
      LastSavedNoSave(effects[..|effects| - 1], initial);
    }
  }

  lemma {:induction false} CountFetchesAppend(a: seq<Effect>, b: seq<Effect>)
    ensures CountFetches(a + b) == CountFetches(a) + CountFetches(b)
    decreases |a|
  {
    if |a| == 0 {
      assert a + b == b;
    } else {
      assert (a + b)[1..] == a[1..] + b;
      CountFetchesAppend(a[1..], b);
    }
  }

  lemma {:induction false} LiftCountsRequests(steps: seq<Step>, t: Target, folder: string, start: int, end: int,
                                              tok: string, iso: int -> string)
    ensures CountFetches(Lift(steps, t, folder, start, end, tok, iso)) == |RequestsOf(steps)|
    decreases |steps|
  {
    if |steps| > 0 {
      var l := Lift(steps, t, folder, start, end, tok, iso);
      assert l[1..] == Lift(steps[1..], t, folder, start, end, tok, iso);
      LiftCountsRequests(steps[1..], t, folder, start, end, tok, iso);
    }
  }

  lemma LiftEffects(steps: seq<Step>, t: Target, folder: string, start: int, end: int,
                    tok: string, iso: int -> string)
    ensures var l := Lift(steps, t, folder, start, end, tok, iso);
            && NoSave(l)
            && CallsUse(l, tok)
            && FetchesWithin(l, [t], start, end)
  {
  }

  /** The device loop saves no configuration, calls the API only with the
      run's token, and fetches only listed targets over the window. */
  lemma {:induction false} DeviceLoopEffects(build: Build, targets: seq<Target>, w: World, folder: string,
                                             start: int, end: int, tok: string)
    ensures var f := DeviceLoop(build, targets, w, folder, start, end, tok);
            && NoSave(f.effects)
            && CallsUse(f.effects, tok)
            && FetchesWithin(f.effects, targets, start, end)
    decreases |targets|
  {
    if |targets| > 0 {
      var f := FetchTarget(build, w.usage(targets[0]));
      var here := Lift(f.steps, targets[0], folder, start, end, tok, w.iso);
      LiftEffects(f.steps, targets[0], folder, start, end, tok, w.iso);
      if !f.raised {
        DeviceLoopEffects(build, targets[1..], w, folder, start, end, tok);
        var rest: seq<Effect> := DeviceLoop(build, targets[1..], w, folder, start, end, tok).effects;
        var all: seq<Effect> := here + rest;
        forall i | 0 <= i < |all|
          ensures !all[i].SaveConfig?
          ensures IsApiCall(all[i]) ==> all[i].token == tok
          ensures all[i].FetchUsage? ==>
                    all[i].target in targets && all[i].start == start && all[i].end == end && all[i].scale == Scale
        {
          if i >= |here| {
            assert all[i] == rest[i - |here|];
          } else {
            assert all[i] == here[i];
          }
        }
      }
    }
  }

  /** The device loop raises exactly when some target's attempts end in a raise. */
  lemma {:induction false} DeviceLoopRaises(build: Build, targets: seq<Target>, w: World, folder: string,
                                            start: int, end: int, tok: string)
    ensures DeviceLoop(build, targets, w, folder, start, end, tok).raised
        <==> exists j :: 0 <= j < |targets| && FetchTarget(build, w.usage(targets[j])).raised
    decreases |targets|
  {
    if |targets| > 0 && !FetchTarget(build, w.usage(targets[0])).raised {
      DeviceLoopRaises(build, targets[1..], w, folder, start, end, tok);
      if DeviceLoop(build, targets, w, folder, start, end, tok).raised {
        var j :| 0 <= j < |targets[1..]| && FetchTarget(build, w.usage(targets[1..][j])).raised;
        assert FetchTarget(build, w.usage(targets[j + 1])).raised;
      }
      if exists j :: 0 <= j < |targets| && FetchTarget(build, w.usage(targets[j])).raised {
        var j :| 0 <= j < |targets| && FetchTarget(build, w.usage(targets[j])).raised;
        assert FetchTarget(build, w.usage(targets[1..][j - 1])).raised;
      }
    }
  }

  /** As written, a device loop that gets through makes exactly three requests per target. */
  lemma {:induction false} DeviceLoopRequests(targets: seq<Target>, w: World, folder: string,
                                              start: int, end: int, tok: string)
    requires !DeviceLoop(AsWritten, targets, w, folder, start, end, tok).raised
    ensures CountFetches(DeviceLoop(AsWritten, targets, w, folder, start, end, tok).effects) == Attempts * |targets|
    decreases |targets|
  {
    if |targets| > 0 {
      var f := FetchTarget(AsWritten, w.usage(targets[0]));
      var here := Lift(f.steps, targets[0], folder, start, end, tok, w.iso);
      DeviceLoopRequests(targets[1..], w, folder, start, end, tok);
      AttemptLoopMeans(w.usage(targets[0]), 0);
      LiftCountsRequests(f.steps, targets[0], folder, start, end, tok, w.iso);
      CountFetchesAppend(here, DeviceLoop(AsWritten, targets[1..], w, folder, start, end, tok).effects);
    }
  }

  // ---------------------------------------------------------------------
  // Properties of a run
  // ---------------------------------------------------------------------

  /** The run stops at the guard exactly when the span from start to end
      is under a minute (as written: and not negative), and then it has
      made no call and saved nothing. */
  lemma RunStopsOnShortWindow(build: Build, rt: Runtime, w: World, folder: string)
    ensures var end := WindowEnd(w.now);
            var start := WindowStart(rt.lastRun, end);
            var o := Run(build, rt, w, folder);
            && (build == AsWritten ==> (o.exit == TooShort <==> 0 <= end - start < MinSpan))
            && (build == Intended ==> (o.exit == TooShort <==> end - start < MinSpan))
            && (o.exit == TooShort ==> o.effects == [] && o.saved == rt)
  {
    var end := WindowEnd(w.now);
    TooShortAsWrittenMeans(WindowStart(rt.lastRun, end), end);
  }

  /** The renewal stage: it authenticates exactly when the expiry check says to
      renew, and a successful exchange is saved at once, with the new token
      and expiry; without renewal the runtime section is untouched. It
      raises where the expiry check raises or the exchange fails. */
  lemma CredentialsMeans(build: Build, rt: Runtime, w: World)
    ensures var c := Credentials(build, rt, w);
            var renew := RenewalCheck(build, w.checkNow, rt.tokenExpiry);
            && (Authenticate in c.effects <==> renew == Some(true))
            && (c.crashed <==> renew.None? || (renew == Some(true) && w.auth.None?))
            && (renew == Some(true) && w.auth.Some? ==>
                  && c.effects == [Authenticate, SaveConfig(c.rt)]
                  && c.rt.token == w.auth.value.token
                  && c.rt.tokenExpiry == Some(w.auth.value.expiry))
            && (renew != Some(true) ==> c.effects == [] && c.rt == rt)
            && LastSaved(c.effects, rt) == c.rt
            && SavesKeep(c.effects, rt.lastRun) && c.rt.lastRun == rt.lastRun
            && c.rt.customerGid == rt.customerGid
            && CallsUse(c.effects, c.rt.token)
            && (c.effects == [] || c.effects[0] == Authenticate)
            && (forall i :: 0 < i < |c.effects| ==> c.effects[i] == SaveConfig(c.rt))
            && (c.rt.token != rt.token ==> c.effects[..2] == [Authenticate, SaveConfig(c.rt)])
  {
    var c := Credentials(build, rt, w);
    if |c.effects| == 2 {
      assert c.effects[..1] == [Authenticate];
      assert c.effects[..2] == c.effects;
    }
  }

  lemma CustomerMeans(rt: Runtime, w: World)
    ensures var c := Customer(rt, w);
            && LastSaved(c.effects, rt) == c.rt
            && SavesKeep(c.effects, rt.lastRun) && c.rt.lastRun == rt.lastRun
            && c.rt.token == rt.token
            && CallsUse(c.effects, rt.token)
    ensures var c := Customer(rt, w);
            && (LookupCustomer(rt.token) in c.effects <==> rt.customerGid == 0)
            && (c.crashed <==> rt.customerGid == 0 && w.customer.None?)
            && (rt.customerGid == 0 && w.customer.Some? ==>
                  && c.rt == rt.(customerGid := w.customer.value)
                  && |c.effects| >= 3 && c.effects[1..3] == [LookupCustomer(rt.token), SaveConfig(c.rt)])
            && (rt.customerGid != 0 ==> c.rt == rt && NoSave(c.effects))
  {
    var c := Customer(rt, w);
    if rt.customerGid != 0 || w.customer.None? {
      LastSavedNoSave(c.effects, rt);
    }
    if rt.customerGid == 0 && w.customer.Some? {
      assert c.effects[..3] == [Sleep(CourtesyPause), LookupCustomer(rt.token), SaveConfig(c.rt)];
      assert c.effects[..3][..2] == [Sleep(CourtesyPause), LookupCustomer(rt.token)];
      assert c.effects[..2][..1] == [Sleep(CourtesyPause)];
    }
  }

  lemma SavesKeepAppend(a: seq<Effect>, b: seq<Effect>, wm: Option<int>)
    requires SavesKeep(a, wm) && SavesKeep(b, wm)
    ensures SavesKeep(a + b, wm)
  {
    forall i | 0 <= i < |a + b| && (a + b)[i].SaveConfig?
      ensures (a + b)[i].runtime.lastRun == wm
    {
      if i >= |a| {
        assert (a + b)[i] == b[i - |a|];
      }
    }
  }

  lemma CallsUseAppend(a: seq<Effect>, b: seq<Effect>, tok: string)
    requires CallsUse(a, tok) && CallsUse(b, tok)
    ensures CallsUse(a + b, tok)
  {
    forall i | 0 <= i < |a + b| && IsApiCall((a + b)[i])
      ensures (a + b)[i].token == tok
    {
      if i >= |a| {
        assert (a + b)[i] == b[i - |a|];
      }
    }
  }

  /** What the configuration file holds after a run is the last runtime the
      run saved; the watermark in it is the window's end after a completed
      run and unchanged otherwise, and every earlier save keeps the old
      watermark: it is advanced once, by the last effect of the run. */
  lemma {:induction false} RunWatermark(build: Build, rt: Runtime, w: World, folder: string)
    ensures var o := Run(build, rt, w, folder);
            && o.saved == LastSaved(o.effects, rt)
            && o.saved.lastRun == (if o.exit == Done then Some(WindowEnd(w.now)) else rt.lastRun)
            && (o.exit == Done ==>
                  && |o.effects| > 0 && o.effects[|o.effects| - 1] == SaveConfig(o.saved)
                  && SavesKeep(o.effects[..|o.effects| - 1], rt.lastRun))
            && (o.exit != Done ==> SavesKeep(o.effects, rt.lastRun))
  {
    var end := WindowEnd(w.now);
    var start := WindowStart(rt.lastRun, end);
    if !Window.TooShort(build, start, end) {
      var cred := Credentials(build, rt, w);
      CredentialsMeans(build, rt, w);
      if !cred.crashed {
        var cust := Customer(cred.rt, w);
        CustomerMeans(cred.rt, w);
        LastSavedAppend(cred.effects, cust.effects, rt);
        SavesKeepAppend(cred.effects, cust.effects, rt.lastRun);
        if !cust.crashed {
          ListAndFetchWatermark(build, w, folder, start, end, cred.effects + cust.effects, cust.rt, rt);
        }
      }
    }
  }

  /** The watermark part of the run once the customer is known. */
  lemma ListAndFetchWatermark(build: Build, w: World, folder: string, start: int, end: int,
                              pre: seq<Effect>, after: Runtime, rt: Runtime)
    requires LastSaved(pre, rt) == after && SavesKeep(pre, rt.lastRun) && after.lastRun == rt.lastRun
    ensures var o := ListAndFetch(build, w, folder, start, end, pre, after);
            && o.saved == LastSaved(o.effects, rt)
            && o.saved.lastRun == (if o.exit == Done then Some(end) else rt.lastRun)
            && (o.exit == Done ==>
                  && |o.effects| > 0 && o.effects[|o.effects| - 1] == SaveConfig(o.saved)
                  && SavesKeep(o.effects[..|o.effects| - 1], rt.lastRun))
            && (o.exit != Done ==> SavesKeep(o.effects, rt.lastRun))
  {
    var o := ListAndFetch(build, w, folder, start, end, pre, after);
    var tok := after.token;
    var listed := pre + [ListDevices(tok)];
    LastSavedAppend(pre, [ListDevices(tok)], rt);
    SavesKeepAppend(pre, [ListDevices(tok)], rt.lastRun);
    if w.devices.Some? {
      var fetched := DeviceLoop(build, Flatten(w.devices.value), w, folder, start, end, tok);
      DeviceLoopEffects(build, Flatten(w.devices.value), w, folder, start, end, tok);
      LastSavedNoSave(fetched.effects, LastSaved(listed, rt));
      LastSavedAppend(listed, fetched.effects, rt);
      SavesKeepAppend(listed, fetched.effects, rt.lastRun);
      if !fetched.raised {
        assert o.effects[..|o.effects| - 1] == listed + fetched.effects;
      }
    }
  }

  /** Every API call of a run carries the token the configuration file
      holds afterwards. When the run gets past the guard and the renewal
      check says to renew, the exchange is the first effect and its token is
      saved straight after it, before any other call; the token only changes
      that way. */
  lemma {:induction false} RunToken(build: Build, rt: Runtime, w: World, folder: string)
    ensures var o := Run(build, rt, w, folder);
            var end := WindowEnd(w.now);
            var renewed := && !Window.TooShort(build, WindowStart(rt.lastRun, end), end)
                           && RenewalCheck(build, w.checkNow, rt.tokenExpiry) == Some(true)
                           && w.auth.Some?;
            && CallsUse(o.effects, o.saved.token)
            && (renewed ==> && o.effects[..2] == [Authenticate, SaveConfig(Credentials(build, rt, w).rt)]
                            && o.saved.token == w.auth.value.token)
            && (o.saved.token != rt.token ==> renewed)
  {
    var end := WindowEnd(w.now);
    var start := WindowStart(rt.lastRun, end);
    if !Window.TooShort(build, start, end) {
      var cred := Credentials(build, rt, w);
      CredentialsMeans(build, rt, w);
      if !cred.crashed {
        var cust := Customer(cred.rt, w);
        CustomerMeans(cred.rt, w);
        CallsUseAppend(cred.effects, cust.effects, cred.rt.token);
        var pre := cred.effects + cust.effects;
        if |cred.effects| >= 2 {
          assert pre[..2] == cred.effects[..2];
        }
        if !cust.crashed {
          ListAndFetchToken(build, w, folder, start, end, pre, cust.rt);
          var o := ListAndFetch(build, w, folder, start, end, pre, cust.rt);
          if |cred.effects| >= 2 {
            assert o.effects[..2] == o.effects[..|pre|][..2];
          }
        }
      }
    }
  }

  /** `get_token` is called exactly when the run gets past the guard and the
      renewal check, `now + 30 s > token_expiration`, holds: never later in
      the run, and never otherwise. */
  lemma {:induction false} RunAuthenticates(build: Build, rt: Runtime, w: World, folder: string)
    ensures var end := WindowEnd(w.now);
            (Authenticate in Run(build, rt, w, folder).effects)
              <==> (!Window.TooShort(build, WindowStart(rt.lastRun, end), end)
                    && RenewalCheck(build, w.checkNow, rt.tokenExpiry) == Some(true))
  {
    var end := WindowEnd(w.now);
    var start := WindowStart(rt.lastRun, end);
    if !Window.TooShort(build, start, end) {
      var cred := Credentials(build, rt, w);
      CredentialsMeans(build, rt, w);
      if !cred.crashed {
        var cust := Customer(cred.rt, w);
        assert Authenticate !in cust.effects;
        var pre := cred.effects + cust.effects;
        if !cust.crashed {
          ListAndFetchNoAuthenticate(build, w, folder, start, end, pre, cust.rt);
        }
      }
    }
  }

  /** Listing and fetching authenticate only where the effects before them did. */
  lemma ListAndFetchNoAuthenticate(build: Build, w: World, folder: string, start: int, end: int,
                                   pre: seq<Effect>, after: Runtime)
    ensures (Authenticate in ListAndFetch(build, w, folder, start, end, pre, after).effects)
        <==> Authenticate in pre
  {
    if w.devices.Some? {
      DeviceLoopNoAuthenticate(build, Flatten(w.devices.value), w, folder, start, end, after.token);
    }
  }

  lemma {:induction false} DeviceLoopNoAuthenticate(build: Build, targets: seq<Target>, w: World, folder: string,
                                                    start: int, end: int, tok: string)
    ensures Authenticate !in DeviceLoop(build, targets, w, folder, start, end, tok).effects
    decreases |targets|
  {
    if |targets| > 0 {
      var f := FetchTarget(build, w.usage(targets[0]));
      var here := Lift(f.steps, targets[0], folder, start, end, tok, w.iso);
      forall i | 0 <= i < |here| ensures here[i] != Authenticate {
        assert here[i] == EffectOf(f.steps[i], targets[0], folder, start, end, tok, w.iso);
      }
      if !f.raised {
        DeviceLoopNoAuthenticate(build, targets[1..], w, folder, start, end, tok);
      }
    }
  }

  /** The token part of the run once the customer is known: the effects so
      far stay in front and every later call uses the same token. */
  lemma ListAndFetchToken(build: Build, w: World, folder: string, start: int, end: int,
                          pre: seq<Effect>, after: Runtime)
    requires CallsUse(pre, after.token)
    ensures var o := ListAndFetch(build, w, folder, start, end, pre, after);
            && o.saved.token == after.token
            && CallsUse(o.effects, after.token)
            && |pre| <= |o.effects| && o.effects[..|pre|] == pre
  {
    var tok := after.token;
    var listed := pre + [ListDevices(tok)];
    CallsUseAppend(pre, [ListDevices(tok)], tok);
    assert listed[..|pre|] == pre;
    if w.devices.Some? {
      var fetched := DeviceLoop(build, Flatten(w.devices.value), w, folder, start, end, tok);
      DeviceLoopEffects(build, Flatten(w.devices.value), w, folder, start, end, tok);
      CallsUseAppend(listed, fetched.effects, tok);
      CallsUseAppend(listed + fetched.effects, [SaveConfig(after.(lastRun := Some(end)))], tok);
      assert (listed + fetched.effects)[..|pre|] == pre;
      assert (listed + fetched.effects + [SaveConfig(after.(lastRun := Some(end)))])[..|pre|] == pre;
    }
  }

  /** The outside world answers every call before the usage fetches: the
      token check can be made, and authentication, customer lookup and
      device listing succeed wherever they are called. */
  predicate Cooperative(build: Build, rt: Runtime, w: World)
  {
    && (build == AsWritten ==> rt.tokenExpiry.Some?)
    && (RenewalIntended(w.checkNow, rt.tokenExpiry) ==> w.auth.Some?)
    && (rt.customerGid == 0 ==> w.customer.Some?)
    && w.devices.Some?
  }

  lemma CooperativeStages(build: Build, rt: Runtime, w: World)
    requires Cooperative(build, rt, w)
    ensures !Credentials(build, rt, w).crashed
    ensures !Customer(Credentials(build, rt, w).rt, w).crashed
  {
  }

  /** With a cooperative world and a long enough window, the run crashes
      exactly when some listed target's attempts end in a raise, and
      otherwise completes. */
  lemma {:induction false} RunCrashes(build: Build, rt: Runtime, w: World, folder: string)
    requires Cooperative(build, rt, w)
    requires !Window.TooShort(build, WindowStart(rt.lastRun, WindowEnd(w.now)), WindowEnd(w.now))
    ensures Run(build, rt, w, folder).exit != TooShort
    ensures Run(build, rt, w, folder).exit == Crashed
        ==> exists j :: 0 <= j < |Flatten(w.devices.value)| && FetchTarget(build, w.usage(Flatten(w.devices.value)[j])).raised
    ensures (exists j :: 0 <= j < |Flatten(w.devices.value)| && FetchTarget(build, w.usage(Flatten(w.devices.value)[j])).raised)
        ==> Run(build, rt, w, folder).exit == Crashed
  {
    var end := WindowEnd(w.now);
    CooperativeStages(build, rt, w);
    var cred := Credentials(build, rt, w);
    var cust := Customer(cred.rt, w);
    var start := WindowStart(rt.lastRun, end);
    var fetched := DeviceLoop(build, Flatten(w.devices.value), w, folder, start, end, cust.rt.token);
    DeviceLoopRaises(build, Flatten(w.devices.value), w, folder, start, end, cust.rt.token);
    assert Run(build, rt, w, folder).exit == (if fetched.raised then Crashed else Done);
  }

  /** As written, a cooperative run crashes exactly when some target's third
      request raises, whatever its earlier requests returned. */
  lemma {:induction false} RunCrashesAsWritten(rt: Runtime, w: World, folder: string)
    requires Cooperative(AsWritten, rt, w)
    requires !TooShortAsWritten(WindowStart(rt.lastRun, WindowEnd(w.now)), WindowEnd(w.now))
    ensures Run(AsWritten, rt, w, folder).exit == Crashed
        <==> exists j :: 0 <= j < |Flatten(w.devices.value)| && w.usage(Flatten(w.devices.value)[j])(Attempts - 1).Raised?
  {
    var targets := Flatten(w.devices.value);
    RunCrashes(AsWritten, rt, w, folder);
    forall j | 0 <= j < |targets|
      ensures FetchTarget(AsWritten, w.usage(targets[j])).raised <==> w.usage(targets[j])(Attempts - 1).Raised?
    {
      AttemptLoopMeans(w.usage(targets[j]), 0);
    }
  }

  /** As written, a completed run made exactly three usage requests per
      listed target, all over the run's window. */
  lemma {:induction false} RunRequestsAsWritten(rt: Runtime, w: World, folder: string)
    requires Run(AsWritten, rt, w, folder).exit == Done
    ensures w.devices.Some?
    ensures var o := Run(AsWritten, rt, w, folder);
            var end := WindowEnd(w.now);
            && CountFetches(o.effects) == Attempts * |Flatten(w.devices.value)|
            && FetchesWithin(o.effects, Flatten(w.devices.value), WindowStart(rt.lastRun, end), end)
  {
    var end := WindowEnd(w.now);
    var start := WindowStart(rt.lastRun, end);
    var cred := Credentials(AsWritten, rt, w);
    var cust := Customer(cred.rt, w);
    var tok := cust.rt.token;
    var pre := cred.effects + cust.effects;
    var listed := pre + [ListDevices(tok)];
    var targets := Flatten(w.devices.value);
    var fetched := DeviceLoop(AsWritten, targets, w, folder, start, end, tok);
    var last := [SaveConfig(cust.rt.(lastRun := Some(end)))];
    DeviceLoopRequests(targets, w, folder, start, end, tok);
    DeviceLoopEffects(AsWritten, targets, w, folder, start, end, tok);
    NoFetchesBefore(build := AsWritten, rt := rt, w := w);
    FetchesBetween(listed, fetched.effects, last, targets, start, end);
  }

  /** Usage requests in a trace whose first and last parts make none are those of its middle part. */
  lemma FetchesBetween(listed: seq<Effect>, mid: seq<Effect>, last: seq<Effect>,
                       targets: seq<Target>, start: int, end: int)
    requires forall i :: 0 <= i < |listed| ==> !listed[i].FetchUsage?
    requires forall i :: 0 <= i < |last| ==> !last[i].FetchUsage?
    requires FetchesWithin(mid, targets, start, end)
    ensures CountFetches(listed + mid + last) == CountFetches(mid)
    ensures FetchesWithin(listed + mid + last, targets, start, end)
  {
    NoFetchesCount(listed);
    NoFetchesCount(last);
    CountFetchesAppend(listed, mid);
    CountFetchesAppend(listed + mid, last);
    var all: seq<Effect> := listed + mid + last;
    forall i | 0 <= i < |all| && all[i].FetchUsage?
      ensures all[i].target in targets && all[i].start == start && all[i].end == end && all[i].scale == Scale
    {
      assert |listed| <= i < |listed| + |mid|;
      assert all[i] == mid[i - |listed|];
    }
  }

  /** The stages before the device loop make no usage request. */
  lemma NoFetchesBefore(build: Build, rt: Runtime, w: World)
    ensures var cred := Credentials(build, rt, w);
            var cust := Customer(cred.rt, w);
            var listed := cred.effects + cust.effects + [ListDevices(cust.rt.token)];
            && CountFetches(listed) == 0
            && forall i :: 0 <= i < |listed| ==> !listed[i].FetchUsage?
  {
    var cred := Credentials(build, rt, w);
    var cust := Customer(cred.rt, w);
    var listed := cred.effects + cust.effects + [ListDevices(cust.rt.token)];
    NoFetchesCount(listed);
  }

  lemma {:induction false} NoFetchesCount(effects: seq<Effect>)
    requires forall i :: 0 <= i < |effects| ==> !effects[i].FetchUsage?
    ensures CountFetches(effects) == 0
    decreases |effects|
  {
    if |effects| > 0 {
      NoFetchesCount(effects[1..]);
    }
  }

  /** An empty device list makes no usage request and still advances the watermark. */
  lemma {:induction false} EmptyDeviceListAdvances(build: Build, rt: Runtime, w: World, folder: string)
    requires Cooperative(build, rt, w) && w.devices == Some([])
    requires !Window.TooShort(build, WindowStart(rt.lastRun, WindowEnd(w.now)), WindowEnd(w.now))
    ensures Run(build, rt, w, folder).exit == Done
    ensures Run(build, rt, w, folder).saved.lastRun == Some(WindowEnd(w.now))
    ensures CountFetches(Run(build, rt, w, folder).effects) == 0
  {
    CooperativeStages(build, rt, w);
    NoFetchesBefore(build, rt, w);
    var cred := Credentials(build, rt, w);
    var cust := Customer(cred.rt, w);
    var listed := cred.effects + cust.effects + [ListDevices(cust.rt.token)];
    var last := cust.rt.(lastRun := Some(WindowEnd(w.now)));
    assert Flatten([]) == [];
    assert Run(build, rt, w, folder).effects == listed + [] + [SaveConfig(last)];
    CountFetchesAppend(listed + [], [SaveConfig(last)]);
    assert listed + [] == listed;
  }

  /** A first run with an empty stored expiry: as written it crashes at the
      token check before any call, as intended it authenticates first. */
  lemma {:induction false} FirstRunWithoutExpiry(rt: Runtime, w: World, folder: string)
    requires rt.lastRun.None? && rt.tokenExpiry.None?
    ensures Run(AsWritten, rt, w, folder).exit == Crashed
    ensures Run(AsWritten, rt, w, folder).effects == []
    ensures Run(Intended, rt, w, folder).effects[0] == Authenticate
  {
    FirstRunProceeds(w.now, AsWritten);
    FirstRunProceeds(w.now, Intended);
  }

  /** Run again in the same minute after a completed run: as written the
      guard lets it through and it asks for a window that ends before it
      starts; as intended it stops at the guard. */
  lemma {:induction false} SameMinuteRerunRun(rt: Runtime, w: World, folder: string)
    requires rt.lastRun == Some(WindowEnd(w.now))
    ensures Run(AsWritten, rt, w, folder).exit != TooShort
    ensures WindowStart(rt.lastRun, WindowEnd(w.now)) > WindowEnd(w.now)
    ensures Run(Intended, rt, w, folder).exit == TooShort
  {
    SameMinuteRerun(w.now);
  }
}

=== FILE: series.dfy ===
/** Expansion of a sparse `usageList` (values or nulls) that starts at
    `firstUsageInstant` into timestamped readings. The two SQLite loaders
    emit every non-null entry; the InfluxDB loader emits only the entries
    that differ from the last value it wrote, starting from a seed. */
module Series {
  import opened Base
  import opened Civil

  /** How far a loader's clock moves after each `usageList` entry. */
  datatype Tick = PerMinute | PerSecond | Frozen

  function StepMicros(tick: Tick): int
  {
    match tick
    case PerMinute => MicrosPerMinute
    case PerSecond => MicrosPerSecond
    case Frozen => 0
  }

  function Advance(t: Time, tick: Tick): Time
  {
    match tick
    case PerMinute => IncrementMinute(t)
    case PerSecond => IncrementSecond(t)
    case Frozen => t
  }

  lemma AdvanceEpoch(t: Time, tick: Tick)
    ensures EpochMicros(Advance(t, tick)) == EpochMicros(t) + StepMicros(tick)
  {
    match tick
    case PerMinute => IncrementMinuteAddsOneMinute(t);
    case PerSecond => IncrementSecondAddsOneSecond(t);
    case Frozen =>
  }

  /** The clock after `i` entries: `i` successive advances from `first`. */
  function Stamp(first: Time, tick: Tick, i: nat): Time
    decreases i
  {
    if i == 0 then first else Advance(Stamp(first, tick, i - 1), tick)
  }

  /** Entry `i` is stamped `first + i * step`, exactly, whatever calendar boundaries lie between. */
  lemma {:induction false} StampEpoch(first: Time, tick: Tick, i: nat)
    ensures EpochMicros(Stamp(first, tick, i)) == EpochMicros(first) + i * StepMicros(tick)
    decreases i
  {
    if i > 0 {
      StampEpoch(first, tick, i - 1);
      AdvanceEpoch(Stamp(first, tick, i - 1), tick);
      OneMoreStep(EpochMicros(first), i, StepMicros(tick));
    }
  }

  lemma OneMoreStep(e: int, i: nat, step: int)
    requires i > 0
    ensures e + (i - 1) * step + step == e + i * step
  {
    MulDistributes(i - 1, 1, step);
  }

  /** A frozen clock stamps every entry with the first instant. */
  lemma {:induction false} FrozenStamp(first: Time, i: nat)
    ensures Stamp(first, Frozen, i) == first
    decreases i
  {
    if i > 0 {
      FrozenStamp(first, i - 1);
    }
  }

  datatype Reading<V> = Reading(at: Time, value: V)

  /** A raw response file after JSON parsing: either not JSON at all, or an
      object whose `firstUsageInstant` and `usageList` keys may be missing. */
  datatype UsageDoc<V> = Unparsable | Parsed(first: Option<Time>, usage: Option<seq<Option<V>>>)

  /** Emit-all expansion, as the loop runs it: `t` is the clock at entry
      `i`; a non-null entry gives one reading at `t`, and the clock
      advances after every entry, null or not. */
  function EmitAllFrom<V>(t: Time, tick: Tick, usage: seq<Option<V>>, i: nat): seq<Reading<V>>
    decreases |usage| - i
  {
    if i >= |usage| then []
    else
      (if usage[i].Some? then [Reading(t, usage[i].value)] else [])
        + EmitAllFrom(Advance(t, tick), tick, usage, i + 1)
  }

  function EmitAll<V>(first: Time, tick: Tick, usage: seq<Option<V>>): seq<Reading<V>>
  {
    EmitAllFrom(first, tick, usage, 0)
  }

  /** Emit-on-change expansion, as the InfluxDB loop runs it: an entry is
      written when it is non-null and differs from `last`, and only then
      does `last` take its value; the clock advances after every entry. */
  function EmitOnChangeFrom<V(==)>(t: Time, tick: Tick, usage: seq<Option<V>>, i: nat, last: V): seq<Reading<V>>
    decreases |usage| - i
  {
    if i >= |usage| then []
    else if usage[i].Some? && usage[i].value != last then
      [Reading(t, usage[i].value)] + EmitOnChangeFrom(Advance(t, tick), tick, usage, i + 1, usage[i].value)
    else
      EmitOnChangeFrom(Advance(t, tick), tick, usage, i + 1, last)
  }

  function EmitOnChange<V(==)>(first: Time, tick: Tick, usage: seq<Option<V>>, seed: V): seq<Reading<V>>
  {
    EmitOnChangeFrom(first, tick, usage, 0, seed)
  }

  // ---------------------------------------------------------------------
  // Reference definitions: which indices are written, and where.
  // ---------------------------------------------------------------------

  /** The readings for the entries at `idx`, each stamped `Stamp(first, tick, k)`. */
  function ReadingsAt<V>(first: Time, tick: Tick, usage: seq<Option<V>>, idx: seq<nat>): seq<Reading<V>>
    requires forall j :: 0 <= j < |idx| ==> idx[j] < |usage| && usage[idx[j]].Some?
  {
    seq(|idx|, j requires 0 <= j < |idx| => Reading(Stamp(first, tick, idx[j]), usage[idx[j]].value))
  }

  predicate Increasing(idx: seq<nat>)
  {
    forall j, k :: 0 <= j < k < |idx| ==> idx[j] < idx[k]
  }

  /** The non-null indices at or after `i`, in order. */
  function PresentFrom<V>(usage: seq<Option<V>>, i: nat): (r: seq<nat>)
    ensures forall j :: 0 <= j < |r| ==> i <= r[j] < |usage| && usage[r[j]].Some?
    ensures forall k :: i <= k < |usage| && usage[k].Some? ==> k in r
    ensures Increasing(r)
    decreases |usage| - i
  {
    if i >= |usage| then []
    else if usage[i].Some? then [i] + PresentFrom(usage, i + 1)
    else PresentFrom(usage, i + 1)
  }

  /** The value of the last non-null entry before `k`, or `seed` if there is none. */
  function LastSeen<V>(usage: seq<Option<V>>, k: nat, seed: V): V
    requires k <= |usage|
    decreases k
  {
    if k == 0 then seed
    else if usage[k - 1].Some? then usage[k - 1].value
    else LastSeen(usage, k - 1, seed)
  }

  /** Entry `k` is written in emit-on-change mode: it is non-null and differs
      from the last non-null entry before it (or from the seed). */
  predicate Changed<V(==)>(usage: seq<Option<V>>, k: nat, seed: V)
    requires k < |usage|
  {
    usage[k].Some? && usage[k].value != LastSeen(usage, k, seed)
  }

  /** The changed indices at or after `i`, in order. */
  function ChangedFrom<V(==)>(usage: seq<Option<V>>, i: nat, seed: V): (r: seq<nat>)
    ensures forall j :: 0 <= j < |r| ==> i <= r[j] < |usage| && Changed(usage, r[j], seed)
    ensures forall k :: i <= k < |usage| && Changed(usage, k, seed) ==> k in r
    ensures Increasing(r)
    decreases |usage| - i
  {
    if i >= |usage| then []
    else if Changed(usage, i, seed) then [i] + ChangedFrom(usage, i + 1, seed)
    else ChangedFrom(usage, i + 1, seed)
  }

  lemma ReadingsAtCons<V>(first: Time, tick: Tick, usage: seq<Option<V>>, k: nat, idx: seq<nat>)
    requires k < |usage| && usage[k].Some?
    requires forall j :: 0 <= j < |idx| ==> idx[j] < |usage| && usage[idx[j]].Some?
    ensures ReadingsAt(first, tick, usage, [k] + idx)
         == [Reading(Stamp(first, tick, k), usage[k].value)] + ReadingsAt(first, tick, usage, idx)
  {
  }

  lemma {:induction false} EmitAllFromIsIndexed<V>(first: Time, tick: Tick, usage: seq<Option<V>>, i: nat)
    ensures EmitAllFrom(Stamp(first, tick, i), tick, usage, i) == ReadingsAt(first, tick, usage, PresentFrom(usage, i))
    decreases |usage| - i
  {
    if i < |usage| {
      EmitAllFromIsIndexed(first, tick, usage, i + 1);
      assert Stamp(first, tick, i + 1) == Advance(Stamp(first, tick, i), tick);
      if usage[i].Some? {
        ReadingsAtCons(first, tick, usage, i, PresentFrom(usage, i + 1));
      }
    }
  }

  /** Emit-all writes exactly one reading per non-null entry, in entry
      order, and the reading for entry `k` is stamped `Stamp(first, tick, k)`:
      null entries write nothing but still move the clock. */
  lemma {:induction false} EmitAllIsIndexed<V>(first: Time, tick: Tick, usage: seq<Option<V>>)
    ensures EmitAll(first, tick, usage) == ReadingsAt(first, tick, usage, PresentFrom(usage, 0))
  {
    EmitAllFromIsIndexed(first, tick, usage, 0);
  }

  lemma {:induction false} EmitOnChangeFromIsIndexed<V>(first: Time, tick: Tick, usage: seq<Option<V>>, i: nat, seed: V)
    requires i <= |usage|
    ensures EmitOnChangeFrom(Stamp(first, tick, i), tick, usage, i, LastSeen(usage, i, seed))
         == ReadingsAt(first, tick, usage, ChangedFrom(usage, i, seed))
    decreases |usage| - i
  {
    if i < |usage| {
      var t := Stamp(first, tick, i);
      var last := LastSeen(usage, i, seed);
      var next := LastSeen(usage, i + 1, seed);
      EmitOnChangeFromIsIndexed(first, tick, usage, i + 1, seed);
      assert Stamp(first, tick, i + 1) == Advance(t, tick);
      if Changed(usage, i, seed) {
        assert next == usage[i].value;
        assert EmitOnChangeFrom(t, tick, usage, i, last)
            == [Reading(t, usage[i].value)] + EmitOnChangeFrom(Advance(t, tick), tick, usage, i + 1, next);
        assert ChangedFrom(usage, i, seed) == [i] + ChangedFrom(usage, i + 1, seed);
        ReadingsAtCons(first, tick, usage, i, ChangedFrom(usage, i + 1, seed));
      } else {
        assert next == last;
        assert EmitOnChangeFrom(t, tick, usage, i, last)
            == EmitOnChangeFrom(Advance(t, tick), tick, usage, i + 1, next);
        assert ChangedFrom(usage, i, seed) == ChangedFrom(usage, i + 1, seed);
      }
    }
  }

  /** Emit-on-change writes exactly the entries that are non-null and differ
      from the last non-null entry before them (the seed when there is
      none), in order, each at `Stamp(first, tick, k)`. */
  lemma {:induction false} EmitOnChangeIsIndexed<V>(first: Time, tick: Tick, usage: seq<Option<V>>, seed: V)
    ensures EmitOnChange(first, tick, usage, seed) == ReadingsAt(first, tick, usage, ChangedFrom(usage, 0, seed))
  {
    EmitOnChangeFromIsIndexed(first, tick, usage, 0, seed);
  }

  /** Every changed entry is a non-null one, so emit-on-change writes no
      more readings than emit-all. */
  lemma {:induction false} ChangedNoMoreThanPresent<V>(usage: seq<Option<V>>, i: nat, seed: V)
    ensures |ChangedFrom(usage, i, seed)| <= |PresentFrom(usage, i)|
    decreases |usage| - i
  {
    if i < |usage| {
      ChangedNoMoreThanPresent(usage, i + 1, seed);
    }
  }

  lemma {:induction false} OnChangeCountBound<V>(first: Time, tick: Tick, usage: seq<Option<V>>, seed: V)
    ensures |EmitOnChange(first, tick, usage, seed)| <= |EmitAll(first, tick, usage)|
  {
    EmitAllIsIndexed(first, tick, usage);
    EmitOnChangeIsIndexed(first, tick, usage, seed);
    ChangedNoMoreThanPresent(usage, 0, seed);
  }

  /** With a moving clock, readings at increasing indices carry strictly increasing times. */
  lemma {:induction false} ReadingsAtIncreasing<V>(first: Time, tick: Tick, usage: seq<Option<V>>, idx: seq<nat>)
    requires tick != Frozen
    requires forall j :: 0 <= j < |idx| ==> idx[j] < |usage| && usage[idx[j]].Some?
    requires Increasing(idx)
    ensures var r := ReadingsAt(first, tick, usage, idx);
            forall j, k :: 0 <= j < k < |r| ==> EpochMicros(r[j].at) < EpochMicros(r[k].at)
  {
    var r := ReadingsAt(first, tick, usage, idx);
    forall j, k | 0 <= j < k < |r|
      ensures EpochMicros(r[j].at) < EpochMicros(r[k].at)
    {
      StampsIncrease(first, tick, idx[j], idx[k]);
    }
  }

  /** With a moving clock, a later entry is stamped strictly later. */
  lemma StampsIncrease(first: Time, tick: Tick, a: nat, b: nat)
    requires tick != Frozen && a < b
    ensures EpochMicros(Stamp(first, tick, a)) < EpochMicros(Stamp(first, tick, b))
  {
    StampEpoch(first, tick, a);
    StampEpoch(first, tick, b);
    LaterStepIsLarger(EpochMicros(first), a, b, StepMicros(tick));
  }

  lemma LaterStepIsLarger(e: int, a: nat, b: nat, step: int)
    requires a < b && step > 0
    ensures e + a * step < e + b * step
  {
    MulDistributes(b - a, a, step);
    MulAtLeast(b - a, step);
  }

  /** For the minute and second scales, emit-all writes strictly increasing timestamps. */
  lemma {:induction false} EmitAllTimesIncrease<V>(first: Time, tick: Tick, usage: seq<Option<V>>)
    requires tick != Frozen
    ensures var r := EmitAll(first, tick, usage);
            forall j, k :: 0 <= j < k < |r| ==> EpochMicros(r[j].at) < EpochMicros(r[k].at)
  {
    EmitAllIsIndexed(first, tick, usage);
    ReadingsAtIncreasing(first, tick, usage, PresentFrom(usage, 0));
  }

  /** For the minute and second scales, emit-on-change writes strictly increasing timestamps. */
  lemma {:induction false} EmitOnChangeTimesIncrease<V>(first: Time, tick: Tick, usage: seq<Option<V>>, seed: V)
    requires tick != Frozen
    ensures var r := EmitOnChange(first, tick, usage, seed);
            forall j, k :: 0 <= j < k < |r| ==> EpochMicros(r[j].at) < EpochMicros(r[k].at)
  {
    EmitOnChangeIsIndexed(first, tick, usage, seed);
    ReadingsAtIncreasing(first, tick, usage, ChangedFrom(usage, 0, seed));
  }

  lemma {:induction false} OnChangeFirstDiffers<V>(t: Time, tick: Tick, usage: seq<Option<V>>, i: nat, last: V)
    ensures var r := EmitOnChangeFrom(t, tick, usage, i, last);
            |r| > 0 ==> r[0].value != last
    decreases |usage| - i
  {
    if i < |usage| && !(usage[i].Some? && usage[i].value != last) {
      OnChangeFirstDiffers(Advance(t, tick), tick, usage, i + 1, last);
    }
  }

  lemma {:induction false} OnChangeFromNoRepeats<V>(t: Time, tick: Tick, usage: seq<Option<V>>, i: nat, last: V)
    ensures var r := EmitOnChangeFrom(t, tick, usage, i, last);
            forall j :: 0 <= j < |r| - 1 ==> r[j].value != r[j + 1].value
    decreases |usage| - i
  {
    if i < |usage| {
      if usage[i].Some? && usage[i].value != last {
        OnChangeFromNoRepeats(Advance(t, tick), tick, usage, i + 1, usage[i].value);
        OnChangeFirstDiffers(Advance(t, tick), tick, usage, i + 1, usage[i].value);
      } else {
        OnChangeFromNoRepeats(Advance(t, tick), tick, usage, i + 1, last);
        assert EmitOnChangeFrom(t, tick, usage, i, last)
            == EmitOnChangeFrom(Advance(t, tick), tick, usage, i + 1, last);
      }
    }
  }

  /** No two consecutive written readings carry the same value, and the first differs from the seed. */
  lemma {:induction false} OnChangeNoConsecutiveRepeats<V>(first: Time, tick: Tick, usage: seq<Option<V>>, seed: V)
    ensures var r := EmitOnChange(first, tick, usage, seed);
            && (|r| > 0 ==> r[0].value != seed)
            && forall j :: 0 <= j < |r| - 1 ==> r[j].value != r[j + 1].value
  {
    OnChangeFirstDiffers(first, tick, usage, 0, seed);
    OnChangeFromNoRepeats(first, tick, usage, 0, seed);
  }

  /** A leading run of entries that are null or equal to the seed writes
      nothing: output starts as if the run were not there, with the clock
      already advanced past it. */
  lemma {:induction false} SeedRunIsSilent<V>(first: Time, tick: Tick, usage: seq<Option<V>>, seed: V, m: nat)
    requires m <= |usage|
    requires forall k :: 0 <= k < m ==> usage[k].None? || usage[k].value == seed
    ensures EmitOnChange(first, tick, usage, seed) == EmitOnChangeFrom(Stamp(first, tick, m), tick, usage, m, seed)
  {
    var i := m;
    while i > 0
      invariant 0 <= i <= m
      invariant EmitOnChangeFrom(Stamp(first, tick, i), tick, usage, i, seed)
             == EmitOnChangeFrom(Stamp(first, tick, m), tick, usage, m, seed)
      decreases i
    {
      i := i - 1;
      SilentStep(first, tick, usage, seed, i);
    }
  }

  /** An entry that is null or equal to the seed writes nothing and only moves the clock. */
  lemma SilentStep<V>(first: Time, tick: Tick, usage: seq<Option<V>>, seed: V, i: nat)
    requires i < |usage| && (usage[i].None? || usage[i].value == seed)
    ensures EmitOnChangeFrom(Stamp(first, tick, i), tick, usage, i, seed)
         == EmitOnChangeFrom(Stamp(first, tick, i + 1), tick, usage, i + 1, seed)
  {
    assert Stamp(first, tick, i + 1) == Advance(Stamp(first, tick, i), tick);
  }

  /** A worked example: `[1.0, null, 1.0, 2.0]` from 2024-01-01T00:00Z
      at one-minute steps gives readings at 00:00, 00:02 and 00:03 when
      every entry is emitted, and at 00:00 and 00:03 on change from 0.0. */
  lemma WorkedExample()
    ensures var t0 := DateTime(2024, 1, 1, 0, 0, 0, 0);
            var usage := [Some(1), None, Some(1), Some(2)];
            && EmitAll(t0, PerMinute, usage)
               == [Reading(t0, 1), Reading(t0.(minute := 2), 1), Reading(t0.(minute := 3), 2)]
            && EmitOnChange(t0, PerMinute, usage, 0)
               == [Reading(t0, 1), Reading(t0.(minute := 3), 2)]
  {
    WorkedExampleEmitAll();
    WorkedExampleOnChange();
  }

  lemma WorkedExampleEmitAll()
    ensures var t0 := DateTime(2024, 1, 1, 0, 0, 0, 0);
            EmitAll(t0, PerMinute, [Some(1), None, Some(1), Some(2)])
              == [Reading(t0, 1), Reading(t0.(minute := 2), 1), Reading(t0.(minute := 3), 2)]
  {
    var t0: Time := DateTime(2024, 1, 1, 0, 0, 0, 0);
    var usage := [Some(1), None, Some(1), Some(2)];
    var t1 := IncrementMinute(t0);
    var t2 := IncrementMinute(t1);
    var t3 := IncrementMinute(t2);
    assert t1 == t0.(minute := 1);
    assert t2 == t0.(minute := 2);
    assert t3 == t0.(minute := 3);
    assert EmitAllFrom(t3, PerMinute, usage, 3) == [Reading(t3, 2)];
    assert EmitAllFrom(t2, PerMinute, usage, 2) == [Reading(t2, 1), Reading(t3, 2)];
    assert EmitAllFrom(t1, PerMinute, usage, 1) == [Reading(t2, 1), Reading(t3, 2)];
  }

  lemma WorkedExampleOnChange()
    ensures var t0 := DateTime(2024, 1, 1, 0, 0, 0, 0);
            EmitOnChange(t0, PerMinute, [Some(1), None, Some(1), Some(2)], 0)
              == [Reading(t0, 1), Reading(t0.(minute := 3), 2)]
  {
    var t0: Time := DateTime(2024, 1, 1, 0, 0, 0, 0);
    var usage := [Some(1), None, Some(1), Some(2)];
    var t1 := IncrementMinute(t0);
    var t2 := IncrementMinute(t1);
    var t3 := IncrementMinute(t2);
    assert t1 == t0.(minute := 1);
    assert t2 == t0.(minute := 2);
    assert t3 == t0.(minute := 3);
    assert EmitOnChangeFrom(t3, PerMinute, usage, 3, 1) == [Reading(t3, 2)];
    assert EmitOnChangeFrom(t2, PerMinute, usage, 2, 1) == [Reading(t3, 2)];
    assert EmitOnChangeFrom(t1, PerMinute, usage, 1, 1) == [Reading(t3, 2)];
  }
}

=== FILE: store.dfy ===
/** The SQLite `readings` table, keyed by (timestamp, device), and the two
    ways the loaders write to it: `insert ... on conflict do nothing` and a
    plain `insert` that fails on an existing key. */
module Store {
  import opened Base
  import opened Civil
  import opened Series

  /** A row's primary key. Column order in the key does not change which rows clash. */
  datatype Key = Key(at: Time, device: string)

  type Table<V> = map<Key, V>

  /** Every row of `t` is in `u` with the same value. */
  ghost predicate KeepsRows<V>(t: Table<V>, u: Table<V>)
  {
    forall key :: key in t ==> key in u && u[key] == t[key]
  }

  /** `insert ... on conflict do nothing`: the key is added with `v` only
      when absent; an existing row keeps its value. */
  function InsertOrIgnore<V>(t: Table<V>, k: Key, v: V): (r: Table<V>)
    ensures r.Keys == t.Keys + {k}
    ensures forall k' :: k' in t ==> r[k'] == t[k']
    ensures k !in t ==> r[k] == v
  {
    if k in t then t else t[k := v]
  }

  /** A plain `insert`: None where the key already exists (the statement fails). */
  function InsertStrict<V>(t: Table<V>, k: Key, v: V): (r: Option<Table<V>>)
    ensures r.None? <==> k in t
    ensures r.Some? ==> r.value.Keys == t.Keys + {k} && r.value[k] == v
    ensures r.Some? ==> forall k' :: k' in t ==> r.value[k'] == t[k']
  {
    if k in t then None else Some(t[k := v])
  }

  function KeyOf<V>(device: string, x: Reading<V>): Key
  {
    Key(x.at, device)
  }

  /** The keys a file's readings occupy for one device. */
  function KeysOf<V>(device: string, rs: seq<Reading<V>>): set<Key>
  {
    set j | 0 <= j < |rs| :: KeyOf(device, rs[j])
  }

  /** One `insert ... on conflict do nothing` per reading, in order. */
  function InsertAllOrIgnore<V>(t: Table<V>, device: string, rs: seq<Reading<V>>): Table<V>
    decreases |rs|
  {
    if |rs| == 0 then t
    else InsertAllOrIgnore(InsertOrIgnore(t, KeyOf(device, rs[0]), rs[0].value), device, rs[1..])
  }

  /** One plain `insert` per reading, in order; None at the first clash. */
  function InsertAllStrict<V>(t: Table<V>, device: string, rs: seq<Reading<V>>): Option<Table<V>>
    decreases |rs|
  {
    if |rs| == 0 then Some(t)
    else
      match InsertStrict(t, KeyOf(device, rs[0]), rs[0].value)
      case None => None
      case Some(t1) => InsertAllStrict(t1, device, rs[1..])
  }

  lemma KeysOfEmpty<V>(device: string, rs: seq<Reading<V>>)
    ensures KeysOf(device, rs) == {} <==> |rs| == 0
  {
    if |rs| > 0 {
      assert KeyOf(device, rs[0]) in KeysOf(device, rs);
    }
  }

  lemma KeysOfCons<V>(device: string, rs: seq<Reading<V>>)
    requires |rs| > 0
    ensures KeysOf(device, rs) == {KeyOf(device, rs[0])} + KeysOf(device, rs[1..])
  {
    forall k | k in KeysOf(device, rs)
      ensures k in {KeyOf(device, rs[0])} + KeysOf(device, rs[1..])
    {
      var j :| 0 <= j < |rs| && k == KeyOf(device, rs[j]);
      if j > 0 {
        assert k == KeyOf(device, rs[1..][j - 1]);
      }
    }
    forall k | k in KeysOf(device, rs[1..])
      ensures k in KeysOf(device, rs)
    {
      var j :| 0 <= j < |rs[1..]| && k == KeyOf(device, rs[1..][j]);
      assert k == KeyOf(device, rs[j + 1]);
    }
  }

  /** Insert-or-ignore adds exactly the file's keys, and every row that was
      already there keeps its value: the first write wins. */
  lemma {:induction false} InsertAllOrIgnoreKeepsRows<V>(t: Table<V>, device: string, rs: seq<Reading<V>>)
    ensures InsertAllOrIgnore(t, device, rs).Keys == t.Keys + KeysOf(device, rs)
    ensures forall k :: k in t ==> InsertAllOrIgnore(t, device, rs)[k] == t[k]
    decreases |rs|
  {
    if |rs| > 0 {
      var t1 := InsertOrIgnore(t, KeyOf(device, rs[0]), rs[0].value);
      InsertAllOrIgnoreKeepsRows(t1, device, rs[1..]);
      KeysOfCons(device, rs);
    }
  }

  lemma {:induction false} InsertAllOrIgnoreNoop<V>(t: Table<V>, device: string, rs: seq<Reading<V>>)
    requires KeysOf(device, rs) <= t.Keys
    ensures InsertAllOrIgnore(t, device, rs) == t
    decreases |rs|
  {
    if |rs| > 0 {
      KeysOfCons(device, rs);
      assert InsertOrIgnore(t, KeyOf(device, rs[0]), rs[0].value) == t;
      InsertAllOrIgnoreNoop(t, device, rs[1..]);
    }
  }

  /** Replaying the same readings changes nothing: insert-or-ignore is idempotent. */
  lemma {:induction false} InsertAllOrIgnoreIdempotent<V>(t: Table<V>, device: string, rs: seq<Reading<V>>)
    ensures InsertAllOrIgnore(InsertAllOrIgnore(t, device, rs), device, rs) == InsertAllOrIgnore(t, device, rs)
  {
    InsertAllOrIgnoreKeepsRows(t, device, rs);
    InsertAllOrIgnoreNoop(InsertAllOrIgnore(t, device, rs), device, rs);
  }

  /** A new key takes the value of the first reading that carries it. */
  lemma {:induction false} InsertAllOrIgnoreFirstWins<V>(t: Table<V>, device: string, rs: seq<Reading<V>>, j: nat)
    requires j < |rs|
    requires KeyOf(device, rs[j]) !in t
    requires forall i :: 0 <= i < j ==> rs[i].at != rs[j].at
    ensures KeyOf(device, rs[j]) in InsertAllOrIgnore(t, device, rs)
    ensures InsertAllOrIgnore(t, device, rs)[KeyOf(device, rs[j])] == rs[j].value
    decreases |rs|
  {
    var t1 := InsertOrIgnore(t, KeyOf(device, rs[0]), rs[0].value);
    InsertAllOrIgnoreKeepsRows(t1, device, rs[1..]);
    InsertAllOrIgnoreKeepsRows(t, device, rs);
    assert KeyOf(device, rs[j]) in KeysOf(device, rs);
    if j > 0 {
      assert KeyOf(device, rs[1..][j - 1]) == KeyOf(device, rs[j]);
      InsertAllOrIgnoreFirstWins(t1, device, rs[1..], j - 1);
    }
  }

  /** Readings with pairwise distinct times. */
  predicate DistinctTimes<V>(rs: seq<Reading<V>>)
  {
    forall i, j :: 0 <= i < j < |rs| ==> rs[i].at != rs[j].at
  }

  /** The plain insert succeeds exactly when no reading clashes with a row
      or with an earlier reading, and then stores what insert-or-ignore stores. */
  lemma {:induction false} InsertAllStrictSucceedsIffNoClash<V>(t: Table<V>, device: string, rs: seq<Reading<V>>)
    ensures InsertAllStrict(t, device, rs).Some?
        <==> DistinctTimes(rs) && KeysOf(device, rs) !! t.Keys
    ensures InsertAllStrict(t, device, rs).Some?
        ==> InsertAllStrict(t, device, rs).value == InsertAllOrIgnore(t, device, rs)
    decreases |rs|
  {
    if |rs| > 0 {
      var k0 := KeyOf(device, rs[0]);
      KeysOfCons(device, rs);
      var t1 := t[k0 := rs[0].value];
      InsertAllStrictSucceedsIffNoClash(t1, device, rs[1..]);
      if k0 !in t {
        assert InsertStrict(t, k0, rs[0].value) == Some(t1);
        assert InsertOrIgnore(t, k0, rs[0].value) == t1;
        if DistinctTimes(rs) && KeysOf(device, rs) !! t.Keys {
          assert DistinctTimes(rs[1..]);
          forall k | k in KeysOf(device, rs[1..]) ensures k !in t1.Keys {
            var j :| 0 <= j < |rs[1..]| && k == KeyOf(device, rs[1..][j]);
            assert rs[0].at != rs[j + 1].at;
          }
        }
        if DistinctTimes(rs[1..]) && KeysOf(device, rs[1..]) !! t1.Keys {
          forall i, j | 0 <= i < j < |rs| ensures rs[i].at != rs[j].at {
            if i == 0 {
              assert KeyOf(device, rs[1..][j - 1]) in KeysOf(device, rs[1..]);
            } else {
              assert rs[1..][i - 1].at != rs[1..][j - 1].at;
            }
          }
        }
      }
    }
  }

  /** A table that already holds some of a file's keys refuses the plain insert. */
  lemma {:induction false} InsertAllStrictRefusesReplay<V>(t: Table<V>, device: string, rs: seq<Reading<V>>)
    requires KeysOf(device, rs) * t.Keys != {}
    ensures InsertAllStrict(t, device, rs).None?
  {
    InsertAllStrictSucceedsIffNoClash(t, device, rs);
  }
}

=== FILE: text.dfy ===
/** String operations the loaders rely on, each with the semantics of the
    language it comes from: Python's `str.split` and `str.replace`, C's
    `strchr` and `strstr`, and Python's `str(int)`. */
module Text {
  import opened Base

  /** `fields[0] + sep + fields[1] + ... + sep + fields[n-1]`. */
  function Join(fields: seq<string>, sep: char): string
    requires |fields| >= 1
    decreases |fields|
  {
    if |fields| == 1 then fields[0] else fields[0] + [sep] + Join(fields[1..], sep)
  }

  /** Python's `s.split(sep)` for a one-character separator: the maximal
      separator-free pieces between separators, never an empty list. */
  function Split(s: string, sep: char): (fields: seq<string>)
    ensures |fields| >= 1
    ensures forall i :: 0 <= i < |fields| ==> sep !in fields[i]
    ensures Join(fields, sep) == s
    decreases |s|
  {
    if |s| == 0 then [""]
    else
      var rest := Split(s[1..], sep);
      if s[0] == sep then
        assert ([""] + rest)[1..] == rest;
        [""] + rest
      else
        var fields := [[s[0]] + rest[0]] + rest[1..];
        assert fields[1..] == rest[1..];
        assert s == [s[0]] + s[1..];
        fields
  }

  lemma {:induction false} SplitNoSeparator(x: string, sep: char)
    requires sep !in x
    ensures Split(x, sep) == [x]
    decreases |x|
  {
    if |x| > 0 {
      SplitNoSeparator(x[1..], sep);
      assert [x[0]] + x[1..] == x;
    }
  }

  lemma {:induction false} SplitAfterPiece(x: string, rest: string, sep: char)
    requires sep !in x
    ensures Split(x + [sep] + rest, sep) == [x] + Split(rest, sep)
    decreases |x|
  {
    var s := x + [sep] + rest;
    if |x| == 0 {
      assert s[1..] == rest;
    } else {
      SplitAfterPiece(x[1..], rest, sep);
      assert s[1..] == x[1..] + [sep] + rest;
      assert [x[0]] + x[1..] == x;
    }
  }

  /** Splitting undoes joining when no field contains the separator. */
  lemma {:induction false} SplitJoin(fields: seq<string>, sep: char)
    requires |fields| >= 1
    requires forall i :: 0 <= i < |fields| ==> sep !in fields[i]
    ensures Split(Join(fields, sep), sep) == fields
    decreases |fields|
  {
    if |fields| == 1 {
      SplitNoSeparator(fields[0], sep);
    } else {
      SplitJoin(fields[1..], sep);
      SplitAfterPiece(fields[0], Join(fields[1..], sep), sep);
      assert [fields[0]] + fields[1..] == fields;
    }
  }

  /** A separator-free prefix only lengthens the first field. */
  lemma {:induction false} SplitUnderPrefix(p: string, s: string, sep: char)
    requires sep !in p
    ensures Split(p + s, sep) == [p + Split(s, sep)[0]] + Split(s, sep)[1..]
    decreases |p|
  {
    if |p| > 0 {
      SplitUnderPrefix(p[1..], s, sep);
      assert (p + s)[1..] == p[1..] + s;
      assert [p[0]] + (p[1..] + Split(s, sep)[0]) == p + Split(s, sep)[0];
    } else {
      assert p + s == s;
      assert p + Split(s, sep)[0] == Split(s, sep)[0];
      assert [Split(s, sep)[0]] + Split(s, sep)[1..] == Split(s, sep);
    }
  }

  /** C's `strchr(s + from, c)`: the first position at or after `from` holding `c`. */
  function IndexOf(s: string, c: char, from: nat): (r: Option<nat>)
    ensures r.Some? ==> from <= r.value < |s| && s[r.value] == c
    ensures r.Some? ==> forall j :: from <= j < r.value ==> s[j] != c
    ensures r.None? ==> forall j :: from <= j < |s| ==> s[j] != c
    decreases |s| - from
  {
    if from >= |s| then None
    else if s[from] == c then Some(from)
    else IndexOf(s, c, from + 1)
  }

  /** Python's `s.split(sep)` seen from the first separator: the piece before it, then the split of the rest. */
  lemma {:induction false} SplitAtFirst(s: string, sep: char, k: nat)
    requires k < |s| && s[k] == sep
    requires forall j :: 0 <= j < k ==> s[j] != sep
    ensures Split(s, sep) == [s[..k]] + Split(s[k + 1..], sep)
  {
    assert s == s[..k] + [sep] + s[k + 1..];
    SplitAfterPiece(s[..k], s[k + 1..], sep);
  }

  predicate OccursAt(s: string, pat: string, i: nat)
  {
    i + |pat| <= |s| && s[i..i + |pat|] == pat
  }

  /** C's `strstr(s + from, pat)`: the first position at or after `from` where `pat` starts. */
  function Find(s: string, pat: string, from: nat): (r: Option<nat>)
    ensures r.Some? ==> from <= r.value && OccursAt(s, pat, r.value)
    ensures r.Some? ==> forall j :: from <= j < r.value ==> !OccursAt(s, pat, j)
    ensures r.None? ==> forall j :: from <= j ==> !OccursAt(s, pat, j)
    decreases |s| - from
  {
    if from + |pat| > |s| then None
    else if s[from..from + |pat|] == pat then Some(from)
    else Find(s, pat, from + 1)
  }

  predicate EndsWith(s: string, suffix: string)
  {
    |suffix| <= |s| && s[|s| - |suffix|..] == suffix
  }

  /** Python's `s.replace(pat, rep)`: every non-overlapping occurrence of
      `pat`, scanning left to right, becomes `rep`. */
  function Replace(s: string, pat: string, rep: string): (r: string)
    requires |pat| > 0
    ensures forall c :: c in r ==> c in s || c in rep
    ensures (forall j :: !OccursAt(s, pat, j)) ==> r == s
    decreases |s|
  {
    if |s| < |pat| then s
    else if s[..|pat|] == pat then
      assert OccursAt(s, pat, 0);
      rep + Replace(s[|pat|..], pat, rep)
    else
      var tail := Replace(s[1..], pat, rep);
      assert forall j: nat :: OccursAt(s[1..], pat, j) ==> OccursAt(s, pat, j + 1) by {
        forall j: nat | OccursAt(s[1..], pat, j) ensures OccursAt(s, pat, j + 1) {
          assert s[1..][j..j + |pat|] == s[j + 1..j + 1 + |pat|];
        }
      }
      assert [s[0]] + s[1..] == s;
      [s[0]] + tail
  }

  predicate IsDigit(c: char)
  {
    '0' <= c <= '9'
  }

  function DigitChar(d: int): (c: char)
    requires 0 <= d < 10
    ensures IsDigit(c) && c as int - '0' as int == d
  {
    (d + '0' as int) as char
  }

  /** Python's `str(n)` for `n >= 0`: decimal digits, no leading zero. */
  function NatString(n: nat): (s: string)
    ensures |s| >= 1
    ensures forall i :: 0 <= i < |s| ==> IsDigit(s[i])
    decreases n
  {
    if n < 10 then [DigitChar(n)] else NatString(n / 10) + [DigitChar(n % 10)]
  }

  /** Python's `str(n)`: a minus sign before the digits of a negative number. */
  function DecimalString(n: int): (s: string)
    ensures |s| >= 1
    ensures forall i :: 0 <= i < |s| ==> IsDigit(s[i]) || (i == 0 && s[i] == '-')
  {
    if n < 0 then "-" + NatString(-n) else NatString(n)
  }

  /** Python's `int(s)` on a string of decimal digits. */
  function ParseNat(s: string): nat
    requires forall i :: 0 <= i < |s| ==> IsDigit(s[i])
    decreases |s|
  {
    if |s| == 0 then 0
    else
      assert IsDigit(s[|s| - 1]);
      ParseNat(s[..|s| - 1]) * 10 + (s[|s| - 1] as int - '0' as int)
  }

  /** Python's `int(s)` on an optionally signed decimal string; None where it raises. */
  function ParseDecimal(s: string): Option<int>
  {
    if |s| >= 2 && s[0] == '-' && forall i :: 1 <= i < |s| ==> IsDigit(s[i]) then Some(0 - ParseNat(s[1..]) as int)
    else if |s| >= 1 && forall i :: 0 <= i < |s| ==> IsDigit(s[i]) then Some(ParseNat(s))
    else None
  }

  lemma {:induction false} ParseNatString(n: nat)
    ensures ParseNat(NatString(n)) == n
    decreases n
  {
    if n >= 10 {
      var s := NatString(n);
      ParseNatString(n / 10);
      assert s[..|s| - 1] == NatString(n / 10);
    }
  }

  /** `int(str(n)) == n`, so distinct device ids give distinct file-name fields. */
  lemma {:induction false} DecimalRoundTrip(n: int)
    ensures ParseDecimal(DecimalString(n)) == Some(n)
  {
    if n < 0 {
      NegativeRoundTrip(n);
    } else {
      ParseNatString(n);
      var s := NatString(n);
      assert ParseDecimal(s) == Some(ParseNat(s));
    }
  }

  lemma NegativeRoundTrip(n: int)
    requires n < 0
    ensures ParseDecimal(DecimalString(n)) == Some(n)
  {
    var digits := NatString(-n);
    var s := "-" + digits;
    ParseNatString(-n);
    assert s[1..] == digits;
    assert forall i :: 1 <= i < |s| ==> s[i] == digits[i - 1];
    assert ParseDecimal(s) == Some(0 - ParseNat(digits) as int);
  }

  lemma DecimalStringInjective(a: int, b: int)
    requires DecimalString(a) == DecimalString(b)
    ensures a == b
  {
    DecimalRoundTrip(a);
    DecimalRoundTrip(b);
  }
}

=== FILE: token.dfy ===
/** Proactive renewal of the cached bearer token. The stored expiry is an
    aware ISO time, or the empty string when no token has been obtained;
    in the latter case the code falls back to `datetime.utcnow()`, which is
    naive, and ordering an aware time against a naive one raises
    `TypeError`. */
module Token {
  import opened Base
  import opened Civil

  /** Renew when less than this much validity is left. */
  const RenewalMargin: int := 30 * MicrosPerSecond

  /** The expiry check as written: None where the comparison raises (no stored
      expiry); otherwise `now + 30 s > expiry`. */
  function RenewalAsWritten(now: int, expiry: Option<int>): Option<bool>
  {
    match expiry
    case None => None
    case Some(e) => Some(now + RenewalMargin > e)
  }

  /** The expiry check as evidently intended: no stored expiry means no usable token, so renew. */
  predicate RenewalIntended(now: int, expiry: Option<int>)
  {
    match expiry
    case None => true
    case Some(e) => now + RenewalMargin > e
  }

  /** The expiry check the run makes in either build: None where it raises. It
      raises only as written and only without a stored expiry; otherwise it
      renews exactly when no expiry is known or fewer than 30 seconds of
      validity remain. */
  function RenewalCheck(build: Build, now: int, expiry: Option<int>): (r: Option<bool>)
    ensures r.None? <==> build == AsWritten && expiry.None?
    ensures r.Some? ==> (r.value <==> expiry.None? || expiry.value - now < RenewalMargin)
  {
    match build
    case AsWritten => RenewalAsWritten(now, expiry)
    case Intended => Some(RenewalIntended(now, expiry))
  }

  /** With an expiry on record both checks renew exactly when fewer than 30
      seconds of validity remain; with exactly 30 seconds left there is no
      renewal. */
  lemma RenewalWindow(now: int, e: int)
    ensures RenewalAsWritten(now, Some(e)) == Some(e - now < RenewalMargin)
    ensures RenewalIntended(now, Some(e)) <==> e - now < RenewalMargin
    ensures !RenewalIntended(now, Some(now + RenewalMargin))
    ensures RenewalIntended(now, Some(now + RenewalMargin - 1))
  {
  }

  /** A first run, with an empty stored expiry: the written check raises
      instead of fetching a token, the intended one renews. */
  lemma EmptyExpiry(now: int)
    ensures RenewalAsWritten(now, None).None?
    ensures RenewalIntended(now, None)
  {
  }

  /** Wherever the written check does not raise, it agrees with the intended one. */
  lemma RenewalChecksAgree(now: int, expiry: Option<int>)
    ensures RenewalAsWritten(now, expiry).Some? <==> expiry.Some?
    ensures RenewalAsWritten(now, expiry).Some? ==>
              RenewalAsWritten(now, expiry).value == RenewalIntended(now, expiry)
  {
  }
}

=== FILE: window.dfy ===
/** The downloader's fetch window and its sub-minute guard, on the integer
    microsecond line: the window ends five minutes and one second before
    the current minute, and starts one second after the previous run's end
    (or sixty minutes before the end on a first run). */
module Window {
  import opened Base
  import opened Civil

  /** How far behind the current minute the window ends: 5 min + 1 s. */
  const EndLag: int := 5 * MicrosPerMinute + MicrosPerSecond
  /** A first run looks back 60 minutes. */
  const Lookback: int := 60 * MicrosPerMinute
  /** The shortest window worth a request. */
  const MinSpan: int := 60 * MicrosPerSecond

  /** `truncate_seconds(now) - timedelta(minutes=5, seconds=1)`. */
  function WindowEnd(now: Time): int
  {
    EpochMicros(TruncateSeconds(now)) - EndLag
  }

  /** `last_run + 1 s` when a previous run's end is recorded, else `end - 60 min`. */
  function WindowStart(lastRun: Option<int>, end: int): int
  {
    match lastRun
    case Some(l) => l + MicrosPerSecond
    case None => end - Lookback
  }

  // ---------------------------------------------------------------------
  // Python's timedelta: days, seconds and microseconds, normalised so that
  // only `days` carries the sign.
  // ---------------------------------------------------------------------

  datatype Timedelta = Timedelta(days: int, seconds: int, micros: int)

  predicate Normalized(d: Timedelta)
  {
    0 <= d.seconds < 86_400 && 0 <= d.micros < MicrosPerSecond
  }

  function TotalMicros(d: Timedelta): int
  {
    d.days * MicrosPerDay + d.seconds * MicrosPerSecond + d.micros
  }

  /** `end - start` as a timedelta. Dafny's `/` and `%` by a positive
      divisor floor, as Python's normalisation does. */
  function Span(us: int): (d: Timedelta)
    ensures Normalized(d)
    ensures TotalMicros(d) == us
  {
    Timedelta(us / MicrosPerDay, (us % MicrosPerDay) / MicrosPerSecond, us % MicrosPerSecond)
  }

  /** A normalised timedelta is the only one with its length: `Span` inverts `TotalMicros`. */
  lemma {:induction false} SpanOfTotal(d: Timedelta)
    requires Normalized(d)
    ensures Span(TotalMicros(d)) == d
  {
    var us := TotalMicros(d);
    var inDay := d.seconds * MicrosPerSecond + d.micros;
    assert 0 <= inDay < MicrosPerDay;
    DivModUnique(us, MicrosPerDay, d.days, inDay);
    DivModUnique(inDay, MicrosPerSecond, d.seconds, d.micros);
    assert us % MicrosPerSecond == inDay % MicrosPerSecond by {
      assert us == (d.days * 86_400) * MicrosPerSecond + inDay;
      ModOfMultiplePlus(d.days * 86_400, MicrosPerSecond, inDay);
    }
  }

  // ---------------------------------------------------------------------
  // The guard
  // ---------------------------------------------------------------------

  /** The guard as written: `delta.days == 0 and delta.seconds < 60`. */
  predicate TooShortAsWritten(start: int, end: int)
  {
    var d := Span(end - start);
    d.days == 0 && d.seconds < 60
  }

  /** The guard as evidently intended: less than one minute from start to end, whatever the sign. */
  predicate TooShortIntended(start: int, end: int)
  {
    end - start < MinSpan
  }

  predicate TooShort(build: Build, start: int, end: int)
  {
    match build
    case AsWritten => TooShortAsWritten(start, end)
    case Intended => TooShortIntended(start, end)
  }

  /** The written guard aborts exactly on spans in [0 s, 60 s): a negative span passes it. */
  lemma TooShortAsWrittenMeans(start: int, end: int)
    ensures TooShortAsWritten(start, end) <==> 0 <= end - start < MinSpan
  {
    var us := end - start;
    var d := Span(us);
    if 0 <= us < MicrosPerDay {
      DivModUnique(us, MicrosPerDay, 0, us);
      assert d.seconds < 60 <==> us < MinSpan;
    } else if us < 0 {
      assert d.days < 0;
    } else {
      assert d.days > 0;
    }
  }

  /** The two guards part only on a window whose start lies after its end. */
  lemma {:induction false} GuardsDifferOnNegativeSpans(start: int, end: int)
    ensures TooShortAsWritten(start, end) != TooShortIntended(start, end) <==> end < start
  {
    TooShortAsWrittenMeans(start, end);
  }

  /** A second run in the same minute as a completed one: its window starts
      one second after it ends, the written guard lets it through and the
      intended one stops it. */
  lemma {:induction false} SameMinuteRerun(now: Time)
    ensures var end := WindowEnd(now);
            var start := WindowStart(Some(end), end);
            && start == end + MicrosPerSecond
            && !TooShortAsWritten(start, end)
            && TooShortIntended(start, end)
  {
    var end := WindowEnd(now);
    TooShortAsWrittenMeans(end + MicrosPerSecond, end);
  }

  /** A run whose window ends one minute after a completed run's end spans
      59 seconds and both guards stop it; nothing is recorded, so a run
      ending two minutes after proceeds and covers both minutes. */
  lemma {:induction false} MinuteAfterIsTooShort(build: Build, lastEnd: int)
    ensures TooShort(build, WindowStart(Some(lastEnd), lastEnd + MicrosPerMinute), lastEnd + MicrosPerMinute)
    ensures !TooShort(build, WindowStart(Some(lastEnd), lastEnd + 2 * MicrosPerMinute), lastEnd + 2 * MicrosPerMinute)
  {
    TooShortAsWrittenMeans(lastEnd + MicrosPerSecond, lastEnd + MicrosPerMinute);
    TooShortAsWrittenMeans(lastEnd + MicrosPerSecond, lastEnd + 2 * MicrosPerMinute);
  }

  /** A first run asks for a full hour and is never stopped by either guard. */
  lemma {:induction false} FirstRunProceeds(now: Time, build: Build)
    ensures !TooShort(build, WindowStart(None, WindowEnd(now)), WindowEnd(now))
    ensures WindowEnd(now) - WindowStart(None, WindowEnd(now)) == Lookback
  {
    var end := WindowEnd(now);
    TooShortAsWrittenMeans(end - Lookback, end);
  }

  /** The window always ends at second 59 of a minute, between 5 min 1 s and
      6 min 1 s before the clock reading. */
  lemma {:induction false} WindowEndAlignment(now: Time)
    ensures WindowEnd(now) % MicrosPerMinute == 59 * MicrosPerSecond
    ensures EpochMicros(now) - EndLag - MicrosPerMinute < WindowEnd(now) <= EpochMicros(now) - EndLag
  {
    TruncateSecondsIsFloorToMinute(now);
    var e := EpochMicros(TruncateSeconds(now));
    ModOfMultiplePlus(e / MicrosPerMinute - 6, MicrosPerMinute, 59 * MicrosPerSecond);
    assert WindowEnd(now) == (e / MicrosPerMinute - 6) * MicrosPerMinute + 59 * MicrosPerSecond;
  }

  /** A later clock reading never gives an earlier window end. */
  lemma {:induction false} WindowEndMonotone(a: Time, b: Time)
    requires EpochMicros(a) <= EpochMicros(b)
    ensures WindowEnd(a) <= WindowEnd(b)
  {
    TruncateSecondsIsFloorToMinute(a);
    TruncateSecondsIsFloorToMinute(b);
    FloorMonotone(EpochMicros(a), EpochMicros(b), MicrosPerMinute);
  }

  /** Rounding down to a multiple of `m` keeps the order. */
  lemma FloorMonotone(x: int, y: int, m: int)
    requires m > 0 && x <= y
    ensures x - x % m <= y - y % m
  {
    var qx, qy := x / m, y / m;
    assert x - x % m == qx * m;
    assert y - y % m == qy * m;
    if qx > qy {
      MulDistributes(qx - qy, qy, m);
      MulAtLeast(qx - qy, m);
    } else if qx < qy {
      MulDistributes(qy - qx, qx, m);
      MulAtLeast(qy - qx, m);
    }
  }

  /** Runs that follow a recorded end tile the time line: each window starts
      on a whole minute one second after the previous end, and covers whole
      minutes only. */
  lemma {:induction false} WindowsTile(prev: Time, now: Time)
    ensures var lastEnd := WindowEnd(prev);
            var end := WindowEnd(now);
            var start := WindowStart(Some(lastEnd), end);
            && start == lastEnd + MicrosPerSecond
            && start % MicrosPerMinute == 0
            && (end + MicrosPerSecond - start) % MicrosPerMinute == 0
  {
    WindowEndAlignment(prev);
    WindowEndAlignment(now);
    WholeMinutesBetween(WindowEnd(prev), WindowEnd(now));
  }

  lemma WholeMinutesBetween(lastEnd: int, end: int)
    requires lastEnd % MicrosPerMinute == 59 * MicrosPerSecond
    requires end % MicrosPerMinute == 59 * MicrosPerSecond
    ensures (lastEnd + MicrosPerSecond) % MicrosPerMinute == 0
    ensures (end + MicrosPerSecond - (lastEnd + MicrosPerSecond)) % MicrosPerMinute == 0
  {
    NextSecondIsWholeMinute(lastEnd);
    NextSecondIsWholeMinute(end);
    var k := end / MicrosPerMinute - lastEnd / MicrosPerMinute;
    MulDistributes(k, lastEnd / MicrosPerMinute + 1, MicrosPerMinute);
    ModOfMultiplePlus(k, MicrosPerMinute, 0);
  }

  /** One second after second 59 of a minute is the next whole minute. */
  lemma NextSecondIsWholeMinute(x: int)
    requires x % MicrosPerMinute == 59 * MicrosPerSecond
    ensures x + MicrosPerSecond == (x / MicrosPerMinute + 1) * MicrosPerMinute
    ensures (x + MicrosPerSecond) % MicrosPerMinute == 0
  {
    MulDistributes(x / MicrosPerMinute, 1, MicrosPerMinute);
    ModOfMultiplePlus(x / MicrosPerMinute + 1, MicrosPerMinute, 0);
  }
}
